=== FILE: README.md ===
# grunt-webfonts core, modelled in Dafny

This project models the core of grunt-webfonts, a Grunt task that turns a
set of SVG icons into an icon font. The font comes in several formats:
svg, ttf, woff, woff2 and eot. The task also writes the stylesheets that
use the font.

The model covers these parts:

- **The task** (`tasks/webfonts.js`):
  - the option helpers (`optionToArray`, `option`, `normalizePath`, `template`, `classNameize`)
  - codepoint allocation and the stylesheet's hex codepoints
  - the decision whether a cached run may be skipped
  - the `@font-face` source entries (`generateFontSrc` and the `fontSrcs` loop)
  - the step after the engine returns
  - the woff2 conversion
- **The shared tables and path rules** of both copies of `util.js`.
- **The node engines**, both copies:
  - which types to generate
  - the `getFont` memo and its svg → ttf → woff/eot chain
  - ttfautohint
  - glyph metadata
  - the batch of SVG streams and its failure path
  - the chain of font writers
- **The fontforge engines**, both copies:
  - the classification of the `exec` callback's error
  - the stderr allow-list
  - the trimming of the script's output to JSON
  - the extraction of the font name
  - the completion values
  - the parameters handed to the script

Some things are not interpreted: the font codecs (svgicons2svgfont,
svg2ttf, ttfautohint, ttf2woff, ttf2eot, ttf2woff2), the SVG simplifiers
and the fontforge script. A font is represented as the term of codec
applications that produced it, such as `WoffOf(TtfOf(SvgFont(name, glyphs)))`.
External outcomes become parameters:

- an `exec` error
- a map from rejected file to rejection
- what `JSON.parse` makes of the trimmed fontforge output
- a file-existence predicate

The repository keeps two copies of each engine and of the utilities:

- `tasks/` is the "Dist" copy in module names.
- `src/tasks/` is the "Src" copy.

`tasks/webfonts.js` loads the `tasks/` utilities.

The Dist node engine and the Dist fontforge engine are each modelled twice: as written, and with the slips listed under Findings fixed. The stylesheet loop uses the corrected `generateFontSrc` only.

Modules:

- `Wrappers`: `Option` and `Result`.
- `Strings`: JavaScript string primitives. These cover `trim`, `split`, `join`, `includes`, radix conversion and the words a `/\s+/` split leaves.
- `Paths`: `path.join` and `path.basename`.
- `Util` and `UtilSrc`: the two utility copies.
- `Options`: the option helpers.
- `Codepoints`: codepoint allocation.
- `Cache`: the regeneration decision.
- `FontSrc`: the `@font-face` sources.
- `Process`, `Fonts` and `Generators`: the machine shared by the node engines.
- `NodeDist` and `NodeSrc`: the node engines.
- `Pipeline`: the steps around the engine.
- `Forge`, `ForgeDist` and `ForgeSrc`: the fontforge engines.

## Model

| member | source | states |
|---|---|---|
| Options.OptionToArray | tasks/webfonts.js:628-642 | `undefined` takes the default; a falsy value gives the empty list; a non-string passes through unchanged; a string becomes its comma-separated pieces, each trimmed: comma-free pieces that join back with commas to the string, trimmed one by one |
| Options.CommaPiecesUnique | tasks/webfonts.js:641 | the comma-free pieces that join back to a string are unique: they are its `split(',')` |
| Options.SplitTrimSpec | tasks/webfonts.js:641 | every piece of a split option is trimmed and free of commas |
| Options.OptionToArrayRoundTrip | tasks/webfonts.js:628-642 | a comma-joined list of trimmed, comma-free names reads back as exactly that list |
| Options.JsIndexOf | src/tasks/engines/node.js:107 | `indexOf` under strict equality: -1 exactly when no element equals the value, otherwise the first equal position |
| Options.Pick | tasks/webfonts.js:651-653 | `option(map, key)` yields the key's entry when present, otherwise the `_default` entry |
| Options.CssPrefixRule | tasks/util/util.js:76-81 | the stylesheet file prefix is `_` exactly for sass and scss, and both utility copies agree |
| Options.SeparatorRule | tasks/util/util.js:87-92 | the source separator is `, ` exactly for styl and a line break with two tabs otherwise, and both copies agree |
| Options.NormalizePath | tasks/webfonts.js:701-713 | the empty path stays empty; any other path has its backslashes turned into slashes, keeps every other character and ends with one slash, added exactly when the path does not already end in `/` or `\` |
| Options.NormalizePathIdempotent | tasks/webfonts.js:701-713 | normalising twice equals normalising once |
| Options.TemplateLiteralPrefix | tasks/webfonts.js:812-814 | text before the first `{` passes through substitution unchanged |
| Options.TemplateWithoutPlaceholders | tasks/webfonts.js:812-814 | a text without `{` is returned unchanged |
| Options.TemplatePlaceholder | tasks/webfonts.js:812-814 | a `{key}` is replaced by the key's value, or by `undefined` when the context has no such own key (inherited `Object.prototype` members are left out) |
| Options.TemplateFillsEveryPlaceholder | tasks/webfonts.js:812-814 | a template built from literals and placeholders renders to the literals with each placeholder filled |
| Options.ClassNameize | tasks/webfonts.js:822-824 | the class name is the input's words, its maximal runs of non-whitespace characters, joined by `-`: trimming drops the outer whitespace and each inner run becomes one `-` |
| Options.ClassNameizeIdempotent | tasks/webfonts.js:822-824 | a name without whitespace is its own class name, so class-naming twice equals once |
| Options.ClassNameizeJoin | tasks/webfonts.js:822-824 | words separated by single spaces become the same words separated by `-` |
| Options.StartCodepoint | tasks/webfonts.js:140 | a configured non-zero start is kept; absent or zero selects U+F101; the result is never zero |
| Options.AddHashes | tasks/webfonts.js:121 | hashes are off exactly when the option is `false` |
| Options.HashesOnByDefault | tasks/webfonts.js:121 | hashes are on when the option is absent and for falsy values other than `false` |
| Options.Defaults | tasks/webfonts.js:131-134 | default types are eot, woff and ttf; default order is the five formats; nothing is embedded by default; `embed: true` means woff |
| Codepoints.NextFree | tasks/webfonts.js:660-665 | the next codepoint is the least value at or above the cursor that no glyph holds |
| Codepoints.GetNextCodepoint | tasks/webfonts.js:660-665 | the increment loop stops at a free value, and every value it passed is taken |
| Codepoints.NextFreeUnique | tasks/webfonts.js:660-665 | the loop and the recursive definition pick the same codepoint |
| Codepoints.Allocate | tasks/webfonts.js:181-189 | every glyph ends with a key; a truthy codepoint is kept; entries of other names are untouched; with a positive start every glyph ends with a truthy codepoint |
| Codepoints.AllocateUnique | tasks/webfonts.js:185-189 | for every start, negative and zero included, each newly allocated codepoint differs from every other glyph's codepoint in the final table |
| Codepoints.AllocateConsecutive | tasks/webfonts.js:185-189 | when no stale entry lies at or above the start, distinct new names get start, start+1, … in input order |
| Codepoints.FreshTableConsecutive | tasks/webfonts.js:181-189 | with an empty table the glyphs get consecutive codepoints from the start in file order |
| Codepoints.AllocateIdempotent | tasks/webfonts.js:185-189 | for a positive start, allocating again against the produced table changes nothing |
| Codepoints.NonPositiveStartMovesZero | tasks/webfonts.js:185-189 | a start below one is kept and can hand out 0, which the next run takes for no codepoint: with start -1, glyphs a and b get -1 and 0, and a second run moves b to 1 |
| Codepoints.FileEntriesKept | tasks/webfonts.js:183-184 | a configured codepoints file replaces the inline table, and its truthy entries survive allocation |
| Codepoints.HexCodepoints | tasks/webfonts.js:369-374 | each stylesheet codepoint string reads back, as hexadecimal, as its glyph's codepoint |
| Cache.AnyMissing | tasks/webfonts.js:209-219 | true exactly when some non-null, non-empty entry does not exist |
| Cache.ExpectedFiles | tasks/webfonts.js:198-207 | the checked list is the globbed font files, then the demo page or null, then one file per configured stylesheet, in that order |
| Cache.RegenerateExactly | tasks/webfonts.js:193-228 | regeneration is needed exactly when the hash changed, the glob found no font file, or an expected file is missing |
| Cache.SkipMeansAllPresent | tasks/webfonts.js:195-227 | a skipped run had an unchanged hash, found font files, and every expected font and demo file exists |
| Cache.DemoFilePath | tasks/webfonts.js:845-850 | the demo path exists exactly when the demo is enabled |
| Cache.CssFileName | tasks/webfonts.js:832-838 | the stylesheet file is `_<base>.<type>` for sass and scss and `<base>.<type>` otherwise |
| Cache.ReadHash | tasks/webfonts.js:884-888 | the previous hash is present exactly when its file exists |
| Util.GlobMaskExpandsToTypes | tasks/util/util.js:106-110 | the font-file mask expands to exactly the requested extensions, for one type and for several |
| Util.FontPathInjective | tasks/util/util.js:119-121 | fonts of different types never share a path |
| Util.FontPathBasename | tasks/util/util.js:119-121 | the file part of a font path is `<fontFilename>.<type>` |
| Util.LegacySlotOnlyEot | tasks/util/util.js:27-70 | only eot has a slot-0 source descriptor |
| Util.PrimarySlotTable | tasks/util/util.js:27-70 | the table knows exactly the five formats; each has a slot-1 descriptor with a format, which is embeddable exactly for woff, woff2 and ttf |
| Util.DescriptorDetails | tasks/util/util.js:27-70 | the svg extension names the font through `{fontBaseName}`; the eot slot-0 entry has no format; the eot slot-1 extension is `.eot?#iefix` |
| Util.DefaultOrder | tasks/util/util.js:98 | the default order lists eot, woff2, woff, ttf, svg |
| UtilSrc.TablesAgree | src/tasks/util/util.js:20-92 | the two descriptor tables agree under truthiness, although the svg entries differ as stored; both copies have the same PUA start and default format list |
| UtilSrc.MasksAgreeOnSeveral | src/tasks/util/util.js:100-104 | for several types both copies build the same mask |
| UtilSrc.SingleTypeMaskIsLiteral | src/tasks/util/util.js:100-104 | for a single type this copy's mask expands to the literal `{type}`, not the type |
| UtilSrc.SingleWoffMask | src/tasks/util/util.js:100-104 | `types: ['woff']` gives the mask `*.{woff}`, which names no `.woff` file |
| Paths.BasenameOfJoin | tasks/engines/fontforge.js:82-84 | the base name of a directory joined with a plain name is that name |
| FontSrc.InsertHashSpec | tasks/webfonts.js:743-752 | the hash lands before the first `#` and can be taken out again; the fragment is untouched; the file path is unchanged when an `#iefix` URL already has its query |
| FontSrc.InsertRemovable | tasks/webfonts.js:746-751 | removing the inserted text gives back the URL |
| FontSrc.InsertKeepsFragment | tasks/webfonts.js:746-751 | inserting text without `#` keeps the URL's fragment |
| FontSrc.InsertKeepsPath | tasks/webfonts.js:746-751 | inserting text without `#` that opens or extends a query keeps the file path |
| FontSrc.HashAppended | tasks/webfonts.js:746-751 | a URL without `#` gets `?<hash>` at its end |
| FontSrc.HashBeforeIefix | tasks/webfonts.js:746-751 | the eot `?#iefix` URL gets the bare hash between `?` and `#iefix` |
| FontSrc.GenerateFontSrcAsWritten | tasks/webfonts.js:723-767 | a path-variable declaration is set exactly for a non-embedded font in a preprocessor stylesheet with variables on; the entry ends with ` format("f")` when the descriptor has a format |
| FontSrc.EmbeddedWithVariablesAsWritten | tasks/webfonts.js:728-729 | as written, an embedded font under path variables is glued to the sigil-less variable name and differs from a plain data URI |
| FontSrc.GenerateFontSrc | tasks/webfonts.js:723-767 | an embedded font is a plain `url("data:…")` plus format; any other entry is the as-written one; the declaration is set exactly as above and is the stylesheet's variable declaration |
| FontSrc.RemoveFirst | tasks/webfonts.js:758 | removing the first `@` shortens a name that has one and keeps a name without one |
| FontSrc.SvgFileName | tasks/webfonts.js:724 | the svg file name has `{fontBaseName}` filled in |
| FontSrc.FileNameSpec | tasks/webfonts.js:724 | the templated file name of each format is `<fontFilename>.<type>` followed by its query or fragment |
| FontSrc.IefixOnlyEot | tasks/webfonts.js:746 | only the eot name carries `#iefix`, so only eot gets the bare hash |
| FontSrc.HashedPathPart | tasks/webfonts.js:746-751 | a plain path with a query or fragment tail names that path before and after hashing |
| FontSrc.UrlNamesFontFile | tasks/webfonts.js:741-752 | in a plain stylesheet the URL of a non-embedded font names `<relativeFontPath><fontFilename>.<type>`, the file the engine writes |
| FontSrc.RequestedMembers | tasks/webfonts.js:395-396 | the visited types are exactly those in both `order` and `types`, and they are a subsequence of `order`, so they keep `order`'s order |
| FontSrc.FontSrcs | tasks/webfonts.js:393-402 | the loop, built on the corrected `GenerateFontSrc`, succeeds exactly when every requested type is known; a failure names an unknown requested type |
| FontSrc.SlotsAsRead | tasks/webfonts.js:397-400 | the `if (font)` test keeps slot 1 for every known type and slot 0 for eot alone |
| FontSrc.EntriesMatchAsWritten | tasks/webfonts.js:723-767 | a slot-1 entry of the loop equals the as-written `generateFontSrc` entry exactly when the font is not embedded in a stylesheet with path variables; slot-0 entries always equal it |
| FontSrc.FontSrcsEntries | tasks/webfonts.js:393-402 | with the corrected `GenerateFontSrc`: slot 1 holds one entry per requested type in order; slot 0 holds one eot entry per requested eot; the path variable is the declaration |
| FontSrc.StylesheetSources | tasks/webfonts.js:389-410 | with the corrected `GenerateFontSrc`, the stylesheet's sources exist exactly when every requested type is known |
| FontSrc.StylesheetSourcesStable | tasks/webfonts.js:390 | writing the normalised relative font path back leaves the next stylesheet's normalised path, and so its sources, unchanged; embedding, which deletes the font file after the first stylesheet, is not modelled |
| FontSrc.CssPrimarySrc | tasks/webfonts.js:741-764 | in plain CSS without embedding, a slot-1 entry is the quoted relative path, hashed when hashes are on, and the format |
| FontSrc.DefaultRequested | tasks/webfonts.js:131-133 | the default order visits exactly the default types |
| FontSrc.DefaultLists | tasks/webfonts.js:393-402 | the defaults give one eot entry in slot 0 and eot, woff, ttf in slot 1 |
| FontSrc.NormalizedPathUnchanged | tasks/webfonts.js:701-713 | a path that already ends in a slash and has no backslash is left alone |
| FontSrc.DefaultCssEntries | tasks/webfonts.js:723-767 | the default CSS entries, one by one: `.eot?<hash>`, `.eot?<hash>#iefix`, `.woff?<hash>` and `.ttf?<hash>` with hashes on, the bare file names with them off |
| FontSrc.DefaultCssSources | tasks/webfonts.js:393-409 | the default CSS `fontSrc1` and `fontSrc2` strings, with hashes on (the default) or off, separated by a line break and two tabs |
| FontSrc.CssSrcOf | tasks/webfonts.js:741-764 | a format's plain CSS entry is its relative file path, hashed when hashes are on, and its format |
| Generators.AutohintTtfFont | tasks/engines/node.js:213-246 | a hinted font exists exactly when hinting is on and ttfautohint succeeded, and it is made from the raw font; one log line exactly when hinting is on and failed, verbose exactly for exit 127 |
| Generators.TtfFont | tasks/engines/node.js:57-62 | the ttf is the hinted font when there is one and the raw font otherwise |
| Generators.GetFont | src/tasks/engines/node.js:122-128 | the memo keeps the chain invariant and every cached font; a delivered font is present exactly for types other than woff2 and is cached |
| Generators.MemoHit | src/tasks/engines/node.js:123-124 | a cached type is served from the memo and runs no generator |
| Generators.FetchRuns | src/tasks/engines/node.js:30-100 | a fetch crashes exactly for an uncached type without a generator; it aborts only on a failed glyph batch; woff2 yields nothing and leaves the memo; it runs only uncached generators, the requested one first, each once, each on a shallower dependency |
| Generators.GetFontTransparent | src/tasks/engines/node.js:122-128 | the memo is transparent: a delivered font equals the reference definition `Expected`, and an abort happens exactly when the glyph batch failed and the type needs glyphs |
| Generators.RunWriters | src/tasks/engines/node.js:105-142 | running the writers keeps the chain invariant and every cached font |
| Generators.WritersInOrder | src/tasks/engines/node.js:105-142 | at most one write per type, in order, to the type's font path, with the reference font (none for woff2) |
| Generators.WritersEnd | src/tasks/engines/node.js:105-142 | the run finishes exactly when every type was written, exactly when every type has a generator and none needs the failed glyphs; it stops only on a failed batch and throws only for a type without a generator |
| Generators.RunAll | src/tasks/engines/node.js:102-142 | from an empty memo with generator-backed types a run never throws; with the glyphs it writes every type's reference font in order; without them it caches nothing and stops at the first type other than woff2 |
| Generators.GeneratedAtMostOnce | src/tasks/engines/node.js:122-128 | each cached format is generated at most once per run, and only when it was not cached at the start |
| Generators.TypesToGenerate | src/tasks/engines/node.js:105-107 | the requested types, then ttf exactly when woff2 is requested without ttf; woff2 implies ttf is generated |
| Generators.TypesToGenerateNoNewDuplicates | src/tasks/engines/node.js:105-107 | the rule adds no duplicate to a duplicate-free list |
| Generators.FirstError | src/tasks/engines/node.js:150-194 | the reported error is the first failed file's |
| Generators.FirstFailure | src/tasks/engines/node.js:150-194 | the position of the first failing file: every earlier file streamed |
| Generators.FirstErrorAt | src/tasks/engines/node.js:150-194 | the reported error is the one at the first failing position |
| Generators.CollectStreams | src/tasks/engines/node.js:150-194 | the batch succeeds exactly when every file streamed, with the glyphs in file order; a failure logs the first failing file's line, then the "Can’t stream SVG file." line with the same error, then the later failing files' lines |
| Generators.IndexOf | src/tasks/engines/node.js:172 | the first position of a file, or the length when absent |
| Generators.GlyphNameAt | src/tasks/engines/node.js:172-173 | a file's glyph name is the name at the file's first occurrence |
| NodeDist.TypesToGenerateAsWritten | tasks/engines/node.js:95-96 | as written, ttf is appended whenever woff2 is requested |
| NodeDist.TtfListedTwice | tasks/engines/node.js:96 | for woff2 and ttf, the as-written rule lists ttf twice while the shared rule does not |
| NodeDist.TypesRulesAgreeWithoutTtf | tasks/engines/node.js:96 | without ttf requested both rules agree |
| NodeDist.GlyphUnicodeAsWritten | tasks/engines/node.js:43-46 | as written, the metadata is one text: a backslash, `u` and the decimal codepoint |
| NodeDist.AsWrittenUnicodeMissesCodepoint | tasks/engines/node.js:44 | the as-written metadata never maps the glyph's code point; for U+F101 it is the seven-character text made of a backslash, `u` and the digits `61697` |
| NodeDist.GlyphUnicode | tasks/engines/node.js:43-46 | the corrected metadata is the code point itself, the one the stylesheet's hex escape reads back as |
| NodeDist.FileOutcomeAt | tasks/engines/node.js:139-195 | a file fails, with SVGO's error, exactly when `optimize === true` and SVGO rejects it; a streamed glyph has its name, the metadata of the chosen reading (the one text as written, the code point as intended), and a simplified outline exactly when optimizing |
| NodeDist.LoadGlyphs | tasks/engines/node.js:139-204 | the batch succeeds exactly when not optimizing or SVGO rejects no file, with one glyph per file named as its first occurrence and carrying the chosen reading's metadata |
| NodeDist.EngineWrites | tasks/engines/node.js:93-130 | as written and as intended, the engine never throws for known types; on success it writes each listed type once, in order, with the reference font, the as-written list being `types` plus ttf whenever woff2 is requested; a failed batch caches nothing and stops it before a write that needs glyphs |
| NodeDist.TtfWrittenTwice | tasks/engines/node.js:93-130 | for `types: ['woff2', 'ttf']` the engine as written writes the same ttf font to the ttf path twice; the intended one makes two writes |
| NodeSrc.TypesToGenerateRule | src/tasks/engines/node.js:105-107 | the guard equals the shared rule; woff2 implies ttf; the list changes exactly when woff2 is requested without ttf |
| NodeSrc.GlyphUnicode | src/tasks/engines/node.js:158-167 | the code point is mapped exactly without `ligaturesOnly`, and always first; the name is a ligature exactly with `ligaturesOnly` or `addLigatures` |
| NodeSrc.FileOutcomeAt | src/tasks/engines/node.js:158-186 | a file fails exactly when path-that-svg rejects it or its code point is outside 0..0x10FFFF; a streamed glyph has the simplified outline and the ligature-aware metadata |
| NodeSrc.LoadGlyphs | src/tasks/engines/node.js:150-194 | the batch succeeds exactly when no file is rejected and every code point is valid, with one glyph per file carrying its name, outline and metadata |
| NodeSrc.EngineWrites | src/tasks/engines/node.js:102-142 | as for the other copy, over the ligature-aware glyph batch: never throws for known types; on success each type to generate is written once, in order, with the reference font; a failed batch caches nothing and stops before a write that needs glyphs |
| Generators.EmptyMemoStaysEmpty | src/tasks/engines/node.js:30-58 | with a failed glyph batch nothing is ever cached |
| Pipeline.NodeValue | src/tasks/engines/node.js:114 | the waterfall reports nothing on success, `false` after a failed batch, and never completes after a throw |
| Pipeline.AfterEngine | tasks/webfonts.js:314-329 | `false` completes the task; a returned font name replaces the configured one; nothing keeps it |
| Pipeline.ApplyWritesAsWritten | src/tasks/engines/node.js:135-142 | writing an `undefined` font fails exactly on a runtime that rejects it |
| Pipeline.ApplyWritesEffect | tasks/webfonts.js:336-360 | with the corrected writers a path holds the font of its last write, or what it held before |
| Pipeline.Woff2Stage | tasks/webfonts.js:336-343 | without woff2 requested, or with a woff2 file present, storage is unchanged |
| Pipeline.Woff2StageEffect | tasks/webfonts.js:336-360 | the conversion succeeds exactly when the ttf file holds a font; the woff2 file is ttf2woff2 of it; the ttf survives exactly when requested; no other path changes |
| Pipeline.Woff2OnlyWrites | src/tasks/engines/node.js:105-142 | for `types: ['woff2']` the engine writes an undefined woff2 and then the reference ttf |
| Pipeline.Woff2OnlyAsWritten | tasks/webfonts.js:336-343 | as written, a woff2-only run throws on a rejecting runtime, or leaves the text `undefined` as the woff2 and keeps the unrequested ttf |
| Pipeline.Woff2OnlyConverts | tasks/webfonts.js:336-360 | with the corrected writers a woff2-only run ends with the woff2 converted from the generated ttf and no ttf file |
| Pipeline.StylesheetMatchesFont | tasks/webfonts.js:369-374 | the stylesheet's hex codepoint for a glyph reads back as the code point of the glyph's first trigger in the font |
| Forge.NotErrorLine | tasks/engines/fontforge.js:48 | a line is allow-listed exactly when it contains one of the six banner phrases |
| Forge.Warnings | tasks/engines/fontforge.js:49-58 | a line is a warning exactly when it is off the allow-list and no font file was found |
| Forge.Echoed | tasks/engines/fontforge.js:52-57 | a line is echoed exactly when it is not a warning |
| Forge.WarningsPartition | tasks/engines/fontforge.js:52-57 | every line is a warning or echoed, never both |
| Forge.NeverWarns | tasks/engines/fontforge.js:47-62 | `glob.sync` yields an array, always truthy, so no line is ever a warning and every line is echoed |
| Forge.TrimJson | tasks/engines/fontforge.js:66 | the trimmed output is empty or runs from a `{` to a `}`; an output without `{` trims to nothing |
| Forge.TrimJsonSlice | tasks/engines/fontforge.js:66 | the trim keeps one slice, dropping a `{`-free prelude and a `}`-free trailer |
| Forge.TrimJsonExtracts | tasks/engines/fontforge.js:66 | a `{`-free prelude, a braced core and a `}`-free trailer trim to exactly the core |
| Forge.TrimJsonIdempotent | src/tasks/engines/fontforge.js:62 | trimming twice equals trimming once |
| Forge.Classify | tasks/engines/fontforge.js:38-63 | an `Error` with code 127 means not found; any other `Error` is fatal with its message; a falsy error is clean |
| Forge.Extract | tasks/engines/fontforge.js:65-84 | an empty trim is a parse failure; a font name comes out exactly when the trimmed text parses with a string `file`, and it has no `/` |
| Forge.Then | tasks/engines/fontforge.js:37-111 | after a throw no later handler runs; otherwise effects concatenate |
| Forge.Params | tasks/engines/fontforge.js:113-115 | the parameters are the options with `inputDir` set to the temporary directory, and every other key unchanged |
| ForgeDist.Report | tasks/engines/fontforge.js:124-128 | as written `error()` throws the apply `TypeError` and reports nothing; as intended it logs the message and reports `false` |
| ForgeDist.EchoLogs | tasks/engines/fontforge.js:56 | each echoed line is logged verbosely as `fontforge: <line>` |
| ForgeDist.CallbackVerdict | tasks/engines/fontforge.js:37-85 | the intended callback delivers the reference verdict, whatever stderr says, logs nothing plain, and reports a missing fontforge |
| ForgeDist.RunCompletes | tasks/engines/fontforge.js:37-117 | with the intended `error()`, `allDone` receives exactly the reference completions: `false` for `EPIPE`, then `false` for any `Error` or an unparsable reply, or the file's base name; it throws exactly when the parsed reply's `file` is not a string |
| ForgeDist.RunLogs | tasks/engines/fontforge.js:89-111 | with the intended `error()`, a missing fontforge is logged as an error; the exit message is logged exactly for a non-zero status |
| ForgeDist.EchoesStderr | tasks/engines/fontforge.js:49-58 | every stderr line of a non-`Error` reply reaches the verbose log |
| ForgeDist.ErrorPathThrows | tasks/engines/fontforge.js:124-128 | the as-written engine equals the intended one exactly when the intended one never reports `false`; otherwise it throws the `TypeError` and never reports `false` |
| ForgeDist.NotFoundThrows | tasks/engines/fontforge.js:38-39 | a missing fontforge crashes the as-written engine and is reported by the intended one |
| ForgeDist.Assign | tasks/engines/fontforge.js:113-115 | the parameters are the merged options |
| ForgeDist.AssignLeavesCaller | tasks/engines/fontforge.js:113-115 | the caller's options keep every entry and gain no `inputDir` |
| ForgeSrc.CallbackVerdict | src/tasks/engines/fontforge.js:35-81 | the Src callback logs nothing and delivers the reference verdict, or throws exactly when there is none, whatever stderr says |
| ForgeSrc.RunCompletes | src/tasks/engines/fontforge.js:35-108 | the Src engine logs nothing, completes exactly as the reference and throws on the same replies, handing the task the same values as the Dist one with its intended `error()` |
| ForgeSrc.NotFoundTwice | src/tasks/engines/fontforge.js:86-90 | a missing fontforge with a broken stdin reports `false` twice |
| ForgeSrc.Extend | src/tasks/engines/fontforge.js:94-96 | the parameters are the caller's own object, merged |
| ForgeSrc.ExtendMutatesCaller | src/tasks/engines/fontforge.js:94-96 | afterwards the caller's `inputDir` is the temporary directory; the options change exactly when it was not already; the Dist copy builds equal parameters and leaves the caller alone |

## Left out

- Codepoints.AllocateIdempotent: proved for a positive start only; a start below one is kept by `startCodepoint || 0xF101` and may hand out 0, which a second run reallocates, as `Codepoints.NonPositiveStartMovesZero` shows.
- Reading and writing files, globbing, temporary directories, child processes and stream events. Their outcomes are parameters: existence predicates, rejection maps, `exec` errors and the result of `JSON.parse` on the trimmed output.
- The font codecs and SVG simplifiers. Fonts are terms of the codec applications, so two fonts are equal only when built the same way.
- The md5 fingerprint (`getHash`) and the template engine behind `renderTemplate`. The fingerprint is an input string. The demo page, custom outputs and stylesheet rendering after the source lists are not modelled.
- The logger adapter, the stray `grunt.log.error` of the CSS prefix in `getCssFilePath`, and terminal colours in messages.
- `async.map` is modelled as if every file finished in file order. The final callback then runs at the first failing file, so the reported error is that file's and the "Can’t stream" line comes right after its own line. The real first failure depends on timing.
- FontSrc.FontSrcsEntries: the `fontSrcs` loop is built on the corrected `GenerateFontSrc`. For an embedded font in a less, scss, sass or styl stylesheet with `fontPathVariables` on, its entry is `url("data:…")` where the source writes the variable-wrapped data URI. FontSrc.EntriesMatchAsWritten proves that this is the only place where the two differ.
- FontSrc.FontSrcs: built on the same corrected entries, with the same single difference from the source.
- FontSrc.StylesheetSources: built on the same corrected entries, with the same single difference from the source.
- Event order in the fontforge engines: the stdin `EPIPE` handler runs before the exit handler, which runs before the `exec` callback. The stdout and stderr `data` echo is left out because its chunking is arbitrary.
- JSON serialisation of the parameters (functions are dropped) and the copy of the SVG files into the temporary directory.
- Codepoints are integers. Non-integer or string codepoints, and option values other than the listed JavaScript kinds, are left out.
- `Paths.Join` does not normalise `.`, `..` or repeated slashes.
- Only the fields the steps read are modelled from the options record. Prototype keys such as `toString` in `option`'s `key in map` test are left out.
- Codepoints.Allocate: a glyph named after an `Object.prototype` member (`constructor`, `toString`, `valueOf`, …) reads an inherited function at `!defaultOptions.codepoints[name]`, so the source never allocates it and the stylesheet stringifies that function. The model treats the table as a plain map and allocates such a name like any other, and `Codepoints.HexCodepoints` gives its hex. Inherited properties are not modelled.
- Options.TemplatePlaceholder: a placeholder naming an `Object.prototype` member, such as `{constructor}`, renders the inherited function's source text through `context[key]`, not `undefined`. The model's context is a plain map, so only own keys are filled in.
- The skip and empty-file-list early exits of the task, and the `dest` warning, are plain control flow with no model.
- Generators.GetFont: `fonts[type]` is a truthiness test in the source. The model uses key presence, because a generated font is never falsy.

## Findings

| source | as written | input that shows it | evidently intended | confidence | as-written member | corrected member |
|---|---|---|---|---|---|---|
| tasks/engines/node.js:96 | `o.types.indexOf('ttf' === -1)` searches for `false`, gets -1, which is truthy | `types: ['woff2', 'ttf']` writes the ttf file twice | add ttf only when woff2 is requested and ttf is not | not executed; high | NodeDist.TtfWrittenTwice | Generators.TypesToGenerate |
| tasks/engines/node.js:44 | glyph metadata `'\\u' + codepoint.toString()`: a backslash, `u` and decimal digits, taken by the font as a ligature | codepoint 0xF101 maps the seven-character text of a backslash, `u` and `61697`, not U+F101 | the code point itself, as the Src copy's `String.fromCodePoint` | not executed; high | NodeDist.AsWrittenUnicodeMissesCodepoint | NodeDist.GlyphUnicode |
| tasks/webfonts.js:756-762 | with `fontPathVariables` on, an embedded data URI is still wrapped with the variable name | an embedded woff in a scss stylesheet gives `url(<family>-font-path + "data:…")` | a plain `url("data:…")` for embedded fonts | not executed; high | FontSrc.EmbeddedWithVariablesAsWritten | FontSrc.GenerateFontSrc |
| src/tasks/engines/node.js:87-90 | the woff2 generator yields `undefined`, which `createFontWriter` passes to `writeFileSync` | `types: ['woff2']`: an older Node.js writes the text `undefined` as the woff2 file, so the conversion is skipped and the unrequested ttf stays; a newer one throws | write nothing for woff2 and let the conversion step produce it | not executed; medium (depends on the Node.js release) | Pipeline.Woff2OnlyAsWritten | Pipeline.Woff2OnlyConverts |
| tasks/engines/fontforge.js:124-128 | `logger.error.apply(null, ...args)` hands `apply` a string, which throws a `TypeError` before `allDone(false)` | fontforge missing (exit 127) | log the message and report `false` | not executed; high | ForgeDist.ErrorPathThrows | ForgeDist.RunCompletes |
| src/tasks/util/util.js:101 | the mask is always a brace set, so a single type gives `*.{woff}` | `types: ['woff']`: brace expansion keeps `{woff}` literal and the glob finds no `.woff` file | the bare extension for a single type | not executed; medium (relies on glob's brace-expansion rules) | UtilSrc.SingleTypeMaskIsLiteral | Util.GlobMaskExpandsToTypes |

=== FILE: cache.dfy ===
/** The cache-skip decision of `tasks/webfonts.js`: a run may be skipped only
    when the fingerprint is unchanged, some generated font file is found,
    and every expected output file still exists. */
module Cache {
  import opened Wrappers
  import opened Strings
  import Paths
  import Options
  import Util

  /** An entry of the expected-file list: `null` is `None`; the empty
      string is falsy as well, so both are skipped. */
  predicate Counts(entry: Option<string>) {
    entry.Some? && entry.value != ""
  }

  /** `generatedFiles.some(…)`: a non-null entry that does not exist. */
  function AnyMissing(entries: seq<Option<string>>, present: string -> bool): (r: bool)
    ensures r <==> exists k :: 0 <= k < |entries| && Counts(entries[k]) && !present(entries[k].value)
  {
    if |entries| == 0 then false
    else if Counts(entries[0]) && !present(entries[0].value) then true
    else
      var r := AnyMissing(entries[1..], present);
      assert forall k :: 1 <= k < |entries| ==> entries[k] == entries[1..][k - 1];
      r
  }

  /** The list checked on a fingerprint match: the globbed font files, then
      the demo page (or `null`), then one file per configured stylesheet. */
  function ExpectedFiles(fonts: seq<string>, demo: Option<string>, stylesheets: seq<string>): (r: seq<Option<string>>)
    ensures |r| == |fonts| + 1 + |stylesheets|
    ensures forall k :: 0 <= k < |fonts| ==> r[k] == Some(fonts[k])
    ensures r[|fonts|] == demo
    ensures forall k :: 0 <= k < |stylesheets| ==> r[|fonts| + 1 + k] == Some(stylesheets[k])
  {
    seq(|fonts|, k requires 0 <= k < |fonts| => Some(fonts[k])) + [demo]
      + seq(|stylesheets|, k requires 0 <= k < |stylesheets| => Some(stylesheets[k]))
  }

  /** Whether the font must be regenerated. `previousHash` is `None` when
      no hash file exists; `fonts` is what the font-file glob matched. */
  function ShouldRegenerate(newHash: string, previousHash: Option<string>, fonts: seq<string>,
                            demo: Option<string>, stylesheets: seq<string>, present: string -> bool): bool
  {
    if previousHash != Some(newHash) then true
    else if |fonts| == 0 then true
    else AnyMissing(ExpectedFiles(fonts, demo, stylesheets), present)
  }

  /** The three reasons to regenerate, and nothing else. */
  lemma {:induction false} RegenerateExactly(newHash: string, previousHash: Option<string>, fonts: seq<string>,
                          demo: Option<string>, stylesheets: seq<string>, present: string -> bool)
    ensures ShouldRegenerate(newHash, previousHash, fonts, demo, stylesheets, present) <==>
      || previousHash != Some(newHash)
      || |fonts| == 0
      || (exists k :: 0 <= k < |fonts| && fonts[k] != "" && !present(fonts[k]))
      || (Counts(demo) && !present(demo.value))
      || (exists k :: 0 <= k < |stylesheets| && stylesheets[k] != "" && !present(stylesheets[k]))
  {
    var e := ExpectedFiles(fonts, demo, stylesheets);
    if previousHash == Some(newHash) && |fonts| > 0 {
      if AnyMissing(e, present) {
        var k :| 0 <= k < |e| && Counts(e[k]) && !present(e[k].value);
        if k < |fonts| {
        } else if k == |fonts| {
        } else {
          assert e[k] == Some(stylesheets[k - |fonts| - 1]);
        }
      } else {
        forall k | 0 <= k < |fonts| ensures !(fonts[k] != "" && !present(fonts[k])) {
          assert e[k] == Some(fonts[k]);
        }
        forall k | 0 <= k < |stylesheets| ensures !(stylesheets[k] != "" && !present(stylesheets[k])) {
          assert e[|fonts| + 1 + k] == Some(stylesheets[k]);
        }
      }
    }
  }

  /** A skip leaves the caller with every expected, non-null file on storage. */
  lemma {:induction false} SkipMeansAllPresent(newHash: string, previousHash: Option<string>, fonts: seq<string>,
                            demo: Option<string>, stylesheets: seq<string>, present: string -> bool)
    requires !ShouldRegenerate(newHash, previousHash, fonts, demo, stylesheets, present)
    ensures previousHash == Some(newHash) && |fonts| > 0
    ensures forall k :: 0 <= k < |fonts| && fonts[k] != "" ==> present(fonts[k])
    ensures demo.Some? && demo.value != "" ==> present(demo.value)
  {
    var e := ExpectedFiles(fonts, demo, stylesheets);
    forall k | 0 <= k < |fonts| && fonts[k] != "" ensures present(fonts[k]) {
      assert e[k] == Some(fonts[k]);
    }
  }

  /** `getDemoFilePath`: `null` when the demo is disabled. */
  function DemoFilePath(htmlDemo: bool, htmlDemoFilename: string, fontBaseName: string, destHtml: string): (r: Option<string>)
    ensures r.Some? <==> htmlDemo
  {
    if !htmlDemo then None
    else
      var name := if htmlDemoFilename != "" then htmlDemoFilename else fontBaseName;
      Some(Paths.Join(destHtml, name + ".html"))
  }

  /** `getCssFilePath`; `None` when the stylesheet has no destination entry
      (the source then passes `undefined` to `path.join`, which throws). */
  function CssFilePath(destCssPaths: map<string, string>, stylesheet: string, fontBaseName: string): Option<string> {
    var dir := Options.Pick(destCssPaths, stylesheet);
    var prefix := Options.Pick(Util.CssFilePrefixes, stylesheet);
    if dir.None? || prefix.None? then None
    else Some(Paths.Join(dir.value, prefix.value + fontBaseName + "." + stylesheet))
  }

  /** The stylesheet file is `_<base>.scss`/`_<base>.sass` or `<base>.<type>`. */
  lemma {:induction false} CssFileName(destCssPaths: map<string, string>, stylesheet: string, fontBaseName: string)
    requires stylesheet in destCssPaths
    requires '/' !in fontBaseName && '/' !in stylesheet
    ensures CssFilePath(destCssPaths, stylesheet, fontBaseName).Some?
    ensures Paths.Basename(CssFilePath(destCssPaths, stylesheet, fontBaseName).value)
      == (if stylesheet == "sass" || stylesheet == "scss" then "_" else "") + fontBaseName + "." + stylesheet
  {
    Options.CssPrefixRule(stylesheet);
    var prefix := if stylesheet == "sass" || stylesheet == "scss" then "_" else "";
    var name := prefix + fontBaseName + "." + stylesheet;
    assert '/' !in name;
    Paths.BasenameOfJoin(destCssPaths[stylesheet], name);
  }

  /** `getHashPath`: `<cache>/<task>/<target>/hash`. */
  function HashPath(cache: string, task: string, target: string): string {
    Paths.Join(Paths.Join(Paths.Join(cache, task), target), "hash")
  }

  /** `readHash`: the stored fingerprint, or `null` when the file does not exist. */
  function ReadHash(path: string, present: string -> bool, contents: string -> string): (r: Option<string>)
    ensures r.Some? <==> present(path)
  {
    if present(path) then Some(contents(path)) else None
  }
}

=== FILE: codepoints.dfy ===
/** Codepoint allocation of `tasks/webfonts.js`: every glyph name keeps a
    truthy codepoint it already has; every other name takes the least value
    at or above a cursor that is not yet a value of the table. */
module Codepoints {
  import opened Wrappers
  import opened Strings

  /** `defaultOptions.codepoints`: glyph name to codepoint. */
  type Table = map<string, int>

  /** `!!codepoints[name]`: present and non-zero. A stored 0 counts as absent. */
  predicate HasCodepoint(t: Table, name: string) {
    name in t && t[name] != 0
  }

  /** The least integer at or above `cursor` that is not in `values`. */
  function NextFree(values: set<int>, cursor: int): (c: int)
    ensures c >= cursor && c !in values
    ensures forall x :: cursor <= x < c ==> x in values
    decreases set x | x in values && x >= cursor
  {
    if cursor in values then
      AboveShrinks(values, cursor);
      NextFree(values, cursor + 1)
    else cursor
  }

  lemma {:induction false} AboveShrinks(values: set<int>, c: int)
    requires c in values
    ensures (set x | x in values && x >= c + 1) < (set x | x in values && x >= c)
  {
    var a := set x | x in values && x >= c + 1;
    var b := set x | x in values && x >= c;
    assert c in b && c !in a;
  }

  /** `getNextCodepoint`: the `while (values.includes(current)) current++` loop. */
  method GetNextCodepoint(t: Table, cursor: int) returns (c: int)
    ensures c >= cursor && c !in t.Values
    ensures forall x :: cursor <= x < c ==> x in t.Values
  {
    c := cursor;
    while c in t.Values
      invariant c >= cursor
      invariant forall x :: cursor <= x < c ==> x in t.Values
      decreases set x | x in t.Values && x >= c
    {
      AboveShrinks(t.Values, c);
      c := c + 1;
    }
  }

  /** The loop and the recursive definition pick the same codepoint. */
  lemma {:induction false} NextFreeUnique(values: set<int>, cursor: int, c: int)
    requires c >= cursor && c !in values
    requires forall x :: cursor <= x < c ==> x in values
    ensures c == NextFree(values, cursor)
  {
  }

  /** The table after allocation and the cursor where the scan stopped. */
  datatype Alloc = Alloc(table: Table, cursor: int)

  /** The `glyphs.forEach` allocation loop, names in input order. */
  function Allocate(names: seq<string>, t: Table, cursor: int): (r: Alloc)
    ensures r.cursor >= cursor
    ensures r.table.Keys == t.Keys + (set k | 0 <= k < |names| :: names[k])
    ensures forall n :: HasCodepoint(t, n) ==> r.table[n] == t[n]
    ensures forall n :: n in t && n !in names ==> r.table[n] == t[n]
    ensures cursor > 0 ==> forall n :: n in names ==> HasCodepoint(r.table, n)
    decreases |names|
  {
    if |names| == 0 then Alloc(t, cursor)
    else
      var n := names[0];
      assert names == [n] + names[1..];
      if HasCodepoint(t, n) then Allocate(names[1..], t, cursor)
      else
        var c := NextFree(t.Values, cursor);
        Allocate(names[1..], t[n := c], c)
  }

  /** Every name that had no codepoint gets one no other name of the final table holds. */
  predicate NewOnesUnique(before: Table, after: Table, names: seq<string>) {
    forall n, m :: n in names && !HasCodepoint(before, n) && m in after && m != n && n in after
      ==> after[m] != after[n]
  }

  /** Uniqueness of freshly allocated codepoints, for every start. */
  lemma {:induction false} AllocateUnique(names: seq<string>, t: Table, cursor: int)
    ensures NewOnesUnique(t, Allocate(names, t, cursor).table, names)
  {
    AllocateUniqueFrom(names, t, cursor, {});
  }

  /** Names in `done` hold codepoints that no other key of `t` holds. */
  predicate UniqueAt(t: Table, done: set<string>) {
    forall n, m :: n in done && n in t && m in t && m != n ==> t[m] != t[n]
  }

  /** Giving `n` a value no key holds keeps `done` unique and adds `n`. */
  lemma {:induction false} StoreFreshUnique(t: Table, done: set<string>, n: string, c: int)
    requires UniqueAt(t, done) && c !in t.Values
    ensures UniqueAt(t[n := c], done + {n})
  {
    var t' := t[n := c];
    forall a, b | a in done + {n} && a in t' && b in t' && b != a
      ensures t'[b] != t'[a]
    {
      if a == n {
        assert t[b] in t.Values;
      } else {
        assert t[a] in t.Values;
        if b != n {
          assert t'[b] == t[b] && t'[a] == t[a];
        }
      }
    }
  }

  lemma {:induction false} AllocateUniqueFrom(names: seq<string>, t: Table, cursor: int, done: set<string>)
    requires done <= t.Keys && UniqueAt(t, done)
    ensures var r := Allocate(names, t, cursor).table;
      UniqueAt(r, done + (set n | n in names && !HasCodepoint(t, n)))
    decreases |names|
  {
    var r := Allocate(names, t, cursor).table;
    var added := set n | n in names && !HasCodepoint(t, n);
    if |names| == 0 {
      assert added == {};
    } else {
      var n := names[0];
      var rest := names[1..];
      assert names == [n] + rest;
      if HasCodepoint(t, n) {
        AllocateUniqueFrom(rest, t, cursor, done);
        assert r == Allocate(rest, t, cursor).table;
        assert added == set x | x in rest && !HasCodepoint(t, x);
      } else {
        var c := NextFree(t.Values, cursor);
        var t' := t[n := c];
        StoreFreshUnique(t, done, n, c);
        AllocateUniqueFrom(rest, t', c, done + {n});
        assert r == Allocate(rest, t', c).table;
        var added' := set x | x in rest && !HasCodepoint(t', x);
        assert UniqueAt(r, done + {n} + added');
        AddedCovered(names, t, c);
        UniqueAtSubset(r, done + added, done + {n} + added');
      }
    }
  }

  /** The names still without a codepoint after the first one is given `c`. */
  lemma {:induction false} AddedCovered(names: seq<string>, t: Table, c: int)
    requires |names| > 0 && !HasCodepoint(t, names[0])
    ensures (set x | x in names && !HasCodepoint(t, x))
      <= {names[0]} + (set x | x in names[1..] && !HasCodepoint(t[names[0] := c], x))
  {
    var n := names[0];
    forall x | x in names && !HasCodepoint(t, x) && x != n
      ensures x in names[1..] && !HasCodepoint(t[n := c], x)
    {
      assert names == [n] + names[1..];
    }
  }

  /** Uniqueness for a set of names holds for every subset. */
  lemma {:induction false} UniqueAtSubset(t: Table, a: set<string>, b: set<string>)
    requires UniqueAt(t, b) && a <= b
    ensures UniqueAt(t, a)
  {
  }

  /** With no stale entries at or above `start` and every value in
      `[cursor, start)` taken, distinct new names get `start`, `start + 1`, … */
  lemma {:induction false} AllocateConsecutive(names: seq<string>, t: Table, cursor: int, start: int)
    requires forall i, j :: 0 <= i < j < |names| ==> names[i] != names[j]
    requires forall k :: 0 <= k < |names| ==> !HasCodepoint(t, names[k])
    requires forall k :: 0 <= k < |names| ==> names[k] !in t
    requires cursor <= start
    requires forall v :: v in t.Values ==> v < start
    requires forall x :: cursor <= x < start ==> x in t.Values
    ensures forall k :: 0 <= k < |names| ==> Allocate(names, t, cursor).table[names[k]] == start + k
    decreases |names|
  {
    if |names| > 0 {
      var n := names[0];
      assert start !in t.Values;
      NextFreeUnique(t.Values, cursor, start);
      var c := NextFree(t.Values, cursor);
      var t' := t[n := c];
      assert t'[n] == start;
      forall v | v in t'.Values
        ensures v < start + 1
      {
        var k :| k in t' && t'[k] == v;
        if k != n {
          assert t[k] in t.Values;
        }
      }
      AllocateConsecutive(names[1..], t', c, start + 1);
      var r := Allocate(names, t, cursor).table;
      assert r == Allocate(names[1..], t', c).table;
      forall k | 0 <= k < |names|
        ensures r[names[k]] == start + k
      {
        if k > 0 {
          assert names[k] == names[1..][k - 1];
        } else {
          assert n !in names[1..];
        }
      }
    }
  }

  /** Scenario: no existing table, names in order get consecutive codepoints from the start. */
  lemma {:induction false} FreshTableConsecutive(names: seq<string>, start: int)
    requires forall i, j :: 0 <= i < j < |names| ==> names[i] != names[j]
    ensures forall k :: 0 <= k < |names| ==> Allocate(names, map[], start).table[names[k]] == start + k
  {
    AllocateConsecutive(names, map[], start, start);
  }

  /** Names that all hold codepoints are left alone. */
  lemma {:induction false} AllocateAllAssigned(names: seq<string>, t: Table, cursor: int)
    requires forall n :: n in names ==> HasCodepoint(t, n)
    ensures Allocate(names, t, cursor) == Alloc(t, cursor)
    decreases |names|
  {
    if |names| > 0 {
      AllocateAllAssigned(names[1..], t, cursor);
    }
  }

  /** Re-allocating the same names against the produced table returns that
      table, for a positive start (see `NonPositiveStartMovesZero` otherwise). */
  lemma {:induction false} AllocateIdempotent(names: seq<string>, t: Table, start: int)
    requires start > 0
    ensures var r := Allocate(names, t, start).table;
      Allocate(names, r, start).table == r
  {
    var r := Allocate(names, t, start).table;
    AllocateAllAssigned(names, r, start);
  }

  /** A start below one is kept (`startCodepoint || 0xF101` only replaces a
      falsy one) and can hand out 0, which `!codepoints[name]` reads as no
      codepoint: with start -1 glyphs a and b get -1 and 0, and a second run
      moves b to 1. */
  lemma {:induction false} NonPositiveStartMovesZero()
    ensures var r := Allocate(["a", "b"], map[], -1).table;
      && r == map["a" := -1, "b" := 0]
      && Allocate(["a", "b"], r, -1).table == map["a" := -1, "b" := 1]
  {
    FirstRunFromMinusOne();
    SecondRunFromMinusOne();
  }

  lemma {:induction false} FirstRunFromMinusOne()
    ensures Allocate(["a", "b"], map[], -1).table == map["a" := -1, "b" := 0]
  {
    var t1 := map["a" := -1];
    assert t1.Keys == {"a"} && t1["a"] in t1.Values;
    assert t1.Values == {-1};
    assert NextFree({}, -1) == -1;
    assert NextFree({-1}, 0) == 0;
    assert NextFree(t1.Values, -1) == 0;
    assert ["a", "b"][1..] == ["b"];
  }

  lemma {:induction false} SecondRunFromMinusOne()
    ensures Allocate(["a", "b"], map["a" := -1, "b" := 0], -1).table == map["a" := -1, "b" := 1]
  {
    var r := map["a" := -1, "b" := 0];
    assert r.Keys == {"a", "b"} && r["a"] in r.Values && r["b"] in r.Values;
    assert r.Values == {-1, 0};
    assert NextFree({-1, 0}, 1) == 1;
    assert NextFree({-1, 0}, 0) == 1;
    assert NextFree(r.Values, -1) == 1;
    assert ["a", "b"][1..] == ["b"];
  }

  /** Where the codepoints come from when a codepoints file may be configured. */
  datatype FileState = Missing | Present(table: Table)

  /** `codepoints || {}`, then replaced wholesale by the file's content when
      `codepointsFile` is set; a missing file reads as `{}`. */
  function SeedTable(inline: Option<Table>, codepointsFile: string, file: FileState): Table {
    if codepointsFile != "" then (if file.Present? then file.table else map[])
    else inline.GetOr(map[])
  }

  /** The file takes precedence over the inline option, and its truthy
      entries survive allocation unchanged. */
  lemma {:induction false} FileEntriesKept(inline: Option<Table>, path: string, fileTable: Table, names: seq<string>, start: int)
    requires path != ""
    ensures forall n :: HasCodepoint(fileTable, n) ==>
      Allocate(names, SeedTable(inline, path, Present(fileTable)), start).table[n] == fileTable[n]
  {
  }

  /** The stylesheet context: each glyph's codepoint as lower-case hex (`toString(16)`). */
  function HexCodepoints(glyphs: seq<string>, t: Table): (r: seq<string>)
    requires forall k :: 0 <= k < |glyphs| ==> glyphs[k] in t
    ensures |r| == |glyphs|
    ensures forall k :: 0 <= k < |glyphs| ==> ParseInt(r[k], 16) == t[glyphs[k]]
  {
    var r := seq(|glyphs|, k requires 0 <= k < |glyphs| => IntToString(t[glyphs[k]], 16));
    forall k | 0 <= k < |glyphs|
      ensures ParseInt(r[k], 16) == t[glyphs[k]]
    {
      IntRoundTrip(t[glyphs[k]], 16);
    }
    r
  }
}

=== FILE: fonts.dfy ===
/** Glyphs and generated fonts. The codecs (svgicons2svgfont, svg2ttf,
    ttfautohint, ttf2woff, ttf2eot, ttf2woff2) are not interpreted: a font
    is the term of the codec applications that produced it. */
module Fonts {
  /** One entry of a glyph's `metadata.unicode` list: a single code point
      (`String.fromCodePoint`) or a literal string, which the font treats
      as a ligature. */
  datatype Trigger = Char(cp: int) | Text(s: string)

  /** A glyph outline: the SVG file as read, or the output of the SVG
      simplifier (SVGO or path-that-svg) on that file. */
  datatype Outline = Raw(file: string) | Simplified(file: string)

  /** A glyph stream with its metadata. */
  datatype Glyph = Glyph(name: string, unicode: seq<Trigger>, outline: Outline)

  datatype Font =
    | SvgFont(fontName: string, glyphs: seq<Glyph>)
    | TtfOf(svg: Font)
    | HintedOf(ttf: Font)
    | WoffOf(ttf: Font)
    | EotOf(ttf: Font)
    | Woff2Of(ttf: Font)

  /** The font a hinted font was made from; other fonts are their own base. */
  function Unhinted(f: Font): Font {
    if f.HintedOf? then f.ttf else f
  }

  /** The largest value `String.fromCodePoint` accepts. */
  const MaxCodePoint: int := 0x10FFFF

  predicate ValidCodePoint(cp: int) {
    0 <= cp <= MaxCodePoint
  }
}

=== FILE: fontsrc.dfy ===
/** The `@font-face` sources of `tasks/webfonts.js`: `generateFontSrc`
    builds one `url(…) format(…)` entry, and the loop of
    `generateStylesheet` collects them into the two source lists. */
module FontSrc {
  import opened Wrappers
  import opened Strings
  import Paths
  import Util
  import Options

  /** The resolved options one source entry depends on. `context` is the
      option record seen by `template`. */
  datatype Settings = Settings(
    fontFilename: string,
    fontFamilyName: string,
    relativeFontPath: string,
    dest: string,
    embed: seq<string>,
    fontPathVariables: bool,
    addHashes: bool,
    hash: string,
    context: map<string, string>)

  // ---- Cache-busting hashes ----

  /** The text inserted into a URL: the bare hash after an existing `?#iefix`
      query, otherwise a new `?hash` query. */
  function HashText(url: string, hash: string): string {
    if Contains(url, "#iefix") then hash else "?" + hash
  }

  /** `url.replace(/(#|$)/, text + '$1')`: the text goes before the first `#`,
      or at the end when there is none. */
  function InsertBeforeFragment(url: string, text: string): string {
    var i := FindChar(url, '#');
    url[..i] + text + url[i..]
  }

  /** The cache-busting step of `generateFontSrc`. */
  function InsertHash(url: string, hash: string): string {
    InsertBeforeFragment(url, HashText(url, hash))
  }

  /** Where the path of a URL ends: at its first `?` or first `#`. */
  function PathEnd(url: string): (i: nat)
    ensures i <= |url|
  {
    var q := FindChar(url, '?');
    var h := FindChar(url, '#');
    if q < h then q else h
  }

  /** The file path a URL names, without query or fragment. */
  function PathPart(url: string): string {
    url[..PathEnd(url)]
  }

  /** The fragment of a URL, from its first `#` on (empty when it has none). */
  function Fragment(url: string): string {
    url[FindChar(url, '#')..]
  }

  /** Removing the inserted text gives back the original URL. */
  lemma {:induction false} InsertRemovable(url: string, text: string)
    ensures var i := FindChar(url, '#');
      var r := InsertBeforeFragment(url, text);
      i + |text| <= |r| && r[..i] + r[i + |text|..] == url
  {
    var i := FindChar(url, '#');
    var r := InsertBeforeFragment(url, text);
    assert r[..i] == url[..i];
    assert r[i + |text|..] == url[i..];
  }

  /** Inserted text without `#` leaves the URL's fragment (`#iefix`, `#<font>`) intact. */
  lemma {:induction false} InsertKeepsFragment(url: string, text: string)
    requires '#' !in text
    ensures Fragment(InsertBeforeFragment(url, text)) == Fragment(url)
  {
    var i := FindChar(url, '#');
    var a := url[..i] + text;
    assert '#' !in a;
    assert InsertBeforeFragment(url, text) == a + url[i..];
    FindCharAfter(a, url[i..], '#');
  }

  /** A prefix free of `#` that already opened a query fixes the path. */
  lemma {:induction false} PathPartOfQueried(a: string, b: string)
    requires '#' !in a && '?' in a
    ensures PathPart(a + b) == a[..FindChar(a, '?')]
  {
    FindCharBefore(a, b, '?');
    FindCharAfter(a, b, '#');
    assert (a + b)[..FindChar(a, '?')] == a[..FindChar(a, '?')];
  }

  /** A prefix free of `?` and `#` followed by a query or fragment (or
      nothing) is the whole path. */
  lemma {:induction false} PathPartOfPlain(a: string, b: string)
    requires '#' !in a && '?' !in a
    requires b == [] || b[0] == '?' || b[0] == '#'
    ensures PathPart(a + b) == a
  {
    FindCharAfter(a, b, '?');
    FindCharAfter(a, b, '#');
    assert FindChar(b, '?') == 0 || FindChar(b, '#') == 0;
    assert (a + b)[..|a|] == a;
  }

  /** Inserted text without `#` keeps the file path a URL names when it
      opens a query, or when the URL's query already started before it. */
  lemma {:induction false} InsertKeepsPath(url: string, text: string)
    requires '#' !in text
    requires '?' in url[..FindChar(url, '#')] || (|text| > 0 && text[0] == '?')
    ensures PathPart(InsertBeforeFragment(url, text)) == PathPart(url)
  {
    var i := FindChar(url, '#');
    var a := url[..i];
    var b := url[i..];
    assert url == a + b;
    assert InsertBeforeFragment(url, text) == a + (text + b);
    if '?' in a {
      PathPartOfQueried(a, text + b);
      PathPartOfQueried(a, b);
    } else {
      PathPartOfPlain(a, text + b);
      PathPartOfPlain(a, b);
    }
  }

  /** The hash lands before the fragment, which it leaves intact, and can be
      taken out again; a hash without `?` or `#` never changes the file path
      as long as an `#iefix` URL already has its `?` before the fragment (as
      the eot entry `.eot?#iefix` does). */
  lemma {:induction false} InsertHashSpec(url: string, hash: string)
    requires '#' !in hash
    ensures var i := FindChar(url, '#');
      var n := |HashText(url, hash)|;
      var r := InsertHash(url, hash);
      i + n <= |r| && r[..i] + r[i + n..] == url
    ensures Fragment(InsertHash(url, hash)) == Fragment(url)
    ensures '?' !in hash && (Contains(url, "#iefix") ==> '?' in url[..FindChar(url, '#')])
      ==> PathPart(InsertHash(url, hash)) == PathPart(url)
  {
    var text := HashText(url, hash);
    InsertRemovable(url, text);
    InsertKeepsFragment(url, text);
    if '?' !in hash && (Contains(url, "#iefix") ==> '?' in url[..FindChar(url, '#')]) {
      InsertKeepsPath(url, text);
    }
  }

  // ---- One source entry ----

  /** Whether the stylesheet refers to fonts through a path variable. */
  predicate UsesVariables(s: Settings, stylesheet: string) {
    s.fontPathVariables && stylesheet != "css"
  }

  /** `font.embeddable && embed.includes(type)`. */
  predicate Embedded(t: string, font: Util.Descriptor, s: Settings) {
    Util.IsEmbeddable(font) && t in s.embed
  }

  /** The font's file name: `template(fontFilename + font.ext, options)`. */
  function FileName(font: Util.Descriptor, s: Settings): string {
    Options.Template(s.fontFilename + font.ext, s.context)
  }

  /** `<family>-font-path`, with the `@` (less) or `$` sigil only on the
      branch that declares the variable. */
  function VariableName(s: Settings, stylesheet: string, embedded: bool): string {
    var base := s.fontFamilyName + "-font-path";
    if embedded || !UsesVariables(s, stylesheet) then base
    else if stylesheet == "less" then "@" + base
    else "$" + base
  }

  /** The `fontPathVariable` declaration the stylesheet template receives. */
  function Declaration(s: Settings, stylesheet: string): string {
    var base := s.fontFamilyName + "-font-path";
    if stylesheet == "less" then "@" + base + " : \"" + s.relativeFontPath + "\";"
    else "$" + base + " : \"" + s.relativeFontPath + "\" !default;"
  }

  /** The `url` of the entry: a data URI for embedded fonts (`embedUri`
      stands for `embedFont` reading the written file), otherwise the file
      name, behind the relative path unless a variable supplies it, with
      the hash inserted when hashes are on. */
  function Url(t: string, font: Util.Descriptor, stylesheet: string, s: Settings, embedUri: string -> string): string {
    var filename := FileName(font, s);
    if Embedded(t, font, s) then embedUri(Paths.Join(s.dest, filename))
    else Cachebusted(if UsesVariables(s, stylesheet) then filename else s.relativeFontPath + filename, s)
  }

  /** A file URL with the hash inserted when hashes are on. */
  function Cachebusted(u: string, s: Settings): string {
    if s.addHashes then InsertHash(u, s.hash) else u
  }

  /** A URL without a fragment gets the hash as a new query at its end. */
  lemma {:induction false} HashAppended(u: string, hash: string)
    requires '#' !in u
    ensures InsertHash(u, hash) == u + "?" + hash
  {
    ContainsSkipFree(u, "", "#iefix");
    assert u + "" == u;
    assert FindChar(u, '#') == |u|;
  }

  /** The eot `?#iefix` URL gets the bare hash inside its query, before the fragment. */
  lemma {:induction false} HashBeforeIefix(u: string, hash: string)
    requires '#' !in u
    ensures InsertHash(u + "?#iefix", hash) == u + "?" + hash + "#iefix"
  {
    var a := u + "?";
    ContainsSuffix(a, "#iefix");
    assert a + "#iefix" == u + "?#iefix";
    FindCharAfter(a, "#iefix", '#');
    var url := a + "#iefix";
    assert url[..|a|] == a && url[|a|..] == "#iefix";
  }

  /** `name.replace('@', '')`: the first `@` removed. */
  function RemoveFirst(name: string, c: char): (r: string)
    ensures c !in name ==> r == name
    ensures c in name ==> |r| == |name| - 1
  {
    var i := FindChar(name, c);
    if i < |name| then name[..i] + name[i + 1..] else name
  }

  /** ` format("…")` when the descriptor has a (truthy) format. */
  function FormatSuffix(format: Option<string>): string {
    if format.Some? && format.value != "" then " format(\"" + format.value + "\")" else ""
  }

  /** `b` is what `a + b` ends with. */
  lemma {:induction false} EndsWith(a: string, b: string)
    ensures (a + b)[|a + b| - |b|..] == b
  {
  }

  /** One `src` entry and the path-variable declaration it sets, if any. */
  datatype Entry = Entry(src: string, pathVariable: Option<string>)

  /** The variable-wrapped `url(…)` of the less and other preprocessor branches. */
  function WrapWithVariable(name: string, stylesheet: string, url: string): string {
    if stylesheet == "less" then "url(\"@{" + RemoveFirst(name, '@') + "}" + url + "\")"
    else "url(" + name + " + \"" + url + "\")"
  }

  /** `generateFontSrc` as written: with path variables on, even an embedded
      data URI is wrapped with the (sigil-less) variable name. */
  function GenerateFontSrcAsWritten(t: string, font: Util.Descriptor, stylesheet: string, s: Settings,
                                    embedUri: string -> string): (r: Entry)
    ensures r.pathVariable.Some? <==> !Embedded(t, font, s) && UsesVariables(s, stylesheet)
    ensures var suffix := FormatSuffix(font.format);
      |r.src| >= |suffix| && r.src[|r.src| - |suffix|..] == suffix
  {
    var emb := Embedded(t, font, s);
    var url := Url(t, font, stylesheet, s, embedUri);
    var src := if UsesVariables(s, stylesheet) then WrapWithVariable(VariableName(s, stylesheet, emb), stylesheet, url)
               else "url(\"" + url + "\")";
    EndsWith(src, FormatSuffix(font.format));
    Entry(src + FormatSuffix(font.format),
          if !emb && UsesVariables(s, stylesheet) then Some(Declaration(s, stylesheet)) else None)
  }

  /** `generateFontSrc` with the evidently intended behaviour: an embedded
      font is a plain `url("data:…")` whatever the stylesheet. */
  function GenerateFontSrc(t: string, font: Util.Descriptor, stylesheet: string, s: Settings,
                           embedUri: string -> string): (r: Entry)
    ensures r.pathVariable.Some? <==> !Embedded(t, font, s) && UsesVariables(s, stylesheet)
    ensures r.pathVariable.Some? ==> r.pathVariable.value == Declaration(s, stylesheet)
    ensures Embedded(t, font, s) ==>
      r.src == "url(\"" + embedUri(Paths.Join(s.dest, FileName(font, s))) + "\")" + FormatSuffix(font.format)
    ensures !Embedded(t, font, s) ==> r == GenerateFontSrcAsWritten(t, font, stylesheet, s, embedUri)
  {
    if Embedded(t, font, s) then
      Entry("url(\"" + Url(t, font, stylesheet, s, embedUri) + "\")" + FormatSuffix(font.format), None)
    else GenerateFontSrcAsWritten(t, font, stylesheet, s, embedUri)
  }

  /** As written, an embedded font in a preprocessor stylesheet with path
      variables comes out as `url(<family>-font-path + "data:…")` (or the
      less `url("@{…}data:…")`): the data URI is glued to an undeclared,
      sigil-less name, and so differs from the plain `url("data:…")`. */
  lemma {:induction false} EmbeddedWithVariablesAsWritten(t: string, font: Util.Descriptor, stylesheet: string, s: Settings,
                                       embedUri: string -> string)
    requires Embedded(t, font, s) && UsesVariables(s, stylesheet)
    ensures var data := embedUri(Paths.Join(s.dest, FileName(font, s)));
      GenerateFontSrcAsWritten(t, font, stylesheet, s, embedUri).src
        == WrapWithVariable(s.fontFamilyName + "-font-path", stylesheet, data) + FormatSuffix(font.format)
    ensures GenerateFontSrcAsWritten(t, font, stylesheet, s, embedUri).src
      != GenerateFontSrc(t, font, stylesheet, s, embedUri).src
  {
    var data := embedUri(Paths.Join(s.dest, FileName(font, s)));
    var suffix := FormatSuffix(font.format);
    var a := GenerateFontSrcAsWritten(t, font, stylesheet, s, embedUri).src;
    var b := GenerateFontSrc(t, font, stylesheet, s, embedUri).src;
    assert |b| == |data| + 7 + |suffix|;
    assert |a| > |b|;
  }

  /** Whether a file name can carry a query or fragment of its own. */
  predicate PlainName(x: string) {
    '?' !in x && '#' !in x && '{' !in x
  }

  /** What follows `<fontFilename>.<type>` in a font's file name: the eot
      query and fragment, or the svg fragment naming the font. */
  function NameTail(t: string, fontBaseName: string): string {
    if t == "svg" then "#" + fontBaseName else if t == "eot" then "?#iefix" else ""
  }

  /** The svg file name: the `{fontBaseName}` placeholder is filled in. */
  lemma {:induction false} SvgFileName(ff: string, ctx: map<string, string>)
    requires '{' !in ff
    ensures Options.Template(ff + ".svg#{fontBaseName}", ctx) == ff + ".svg#" + Options.Lookup(ctx, "fontBaseName")
  {
    var key := "fontBaseName";
    var lit := ff + ".svg#";
    assert ff + ".svg#{fontBaseName}" == lit + ("{" + key + "}");
    Options.TemplateAfterLiteral(lit, key, ctx);
  }

  /** The templated file name of a format's primary entry. */
  lemma {:induction false} FileNameSpec(t: string, s: Settings)
    requires Util.Known(t) && PlainName(s.fontFilename)
    ensures Util.FontsSrcs(t).value.primary.Some?
    ensures FileName(Util.FontsSrcs(t).value.primary.value, s)
      == s.fontFilename + ("." + t + NameTail(t, Options.Lookup(s.context, "fontBaseName")))
  {
    if t == "svg" {
      SvgFileNameSpec(t, s);
    } else if t == "eot" || t == "woff" {
      OtherFileNameSpec(t, s);
    } else {
      OtherFileNameSpec(t, s);
    }
  }

  lemma {:induction false} SvgFileNameSpec(t: string, s: Settings)
    requires t == "svg" && PlainName(s.fontFilename)
    ensures FileName(Util.FontsSrcs(t).value.primary.value, s)
      == s.fontFilename + ("." + t + NameTail(t, Options.Lookup(s.context, "fontBaseName")))
  {
    var ff := s.fontFilename;
    var fb := Options.Lookup(s.context, "fontBaseName");
    SvgFileName(ff, s.context);
    assert ff + ".svg#" + fb == ff + ("." + t + NameTail(t, fb));
  }

  lemma {:induction false} OtherFileNameSpec(t: string, s: Settings)
    requires (t == "eot" || t == "woff" || t == "woff2" || t == "ttf") && PlainName(s.fontFilename)
    ensures FileName(Util.FontsSrcs(t).value.primary.value, s)
      == s.fontFilename + ("." + t + NameTail(t, Options.Lookup(s.context, "fontBaseName")))
  {
    var ff := s.fontFilename;
    var fb := Options.Lookup(s.context, "fontBaseName");
    if t == "eot" {
      PlainFileName(ff, ".eot?#iefix", s.context);
      assert "." + t + NameTail(t, fb) == ".eot?#iefix";
    } else if t == "woff" {
      PlainFileName(ff, ".woff", s.context);
      assert "." + t + NameTail(t, fb) == ".woff";
    } else if t == "woff2" {
      PlainFileName(ff, ".woff2", s.context);
      assert "." + t + NameTail(t, fb) == ".woff2";
    } else {
      PlainFileName(ff, ".ttf", s.context);
      assert "." + t + NameTail(t, fb) == ".ttf";
    }
  }

  lemma {:induction false} PlainFileName(ff: string, ext: string, ctx: map<string, string>)
    requires '{' !in ff && '{' !in ext
    ensures Options.Template(ff + ext, ctx) == ff + ext
  {
    Options.TemplateWithoutPlaceholders(ff + ext, ctx);
  }

  /** Only the eot name carries `#iefix`, given a plain prefix and a font
      base name that neither holds `#` nor reads `iefix…`. */
  lemma {:induction false} IefixOnlyEot(plain: string, t: string, fb: string)
    requires '#' !in plain && '#' !in fb && !StartsWith(fb, "iefix")
    ensures Contains(plain + NameTail(t, fb), "#iefix") ==> t == "eot"
  {
    var tail := NameTail(t, fb);
    if t != "eot" {
      ContainsSkipFree(plain, tail, "#iefix");
      if t == "svg" {
        assert tail == "#" + fb;
        assert tail[1..] == fb;
        assert |tail| >= 6 ==> tail[1..6] == fb[..5];
        assert !StartsWith(tail, "#iefix");
        ContainsSkipFree(fb, "", "#iefix");
        assert fb + "" == fb;
      } else {
        assert tail == "";
      }
    }
  }

  /** A URL made of a plain path and a tail that opens a query or a
      fragment names that path, before and after the hash goes in. */
  lemma {:induction false} HashedPathPart(plain: string, tail: string, hash: string)
    requires '?' !in plain && '#' !in plain && '?' !in hash && '#' !in hash
    requires tail == "" || tail[0] == '#' || StartsWith(tail, "?#")
    requires Contains(plain + tail, "#iefix") ==> StartsWith(tail, "?#")
    ensures PathPart(plain + tail) == plain
    ensures PathPart(InsertHash(plain + tail, hash)) == plain
  {
    var u := plain + tail;
    PathEndAfter(plain, tail);
    TailPathEnd(tail);
    assert u[..|plain|] == plain;
    if StartsWith(tail, "?#") {
      QueryBeforeFragment(plain, tail);
    }
    InsertHashSpec(u, hash);
  }

  /** A tail that is empty or opens with `#` or `?#` starts no path. */
  lemma {:induction false} TailPathEnd(tail: string)
    requires tail == "" || tail[0] == '#' || StartsWith(tail, "?#")
    ensures PathEnd(tail) == 0
  {
    if tail != "" {
      if tail[0] == '#' {
        assert FindChar(tail, '#') == 0;
      } else {
        assert tail[0] == '?';
        assert FindChar(tail, '?') == 0;
      }
    }
  }

  /** Before the fragment of `plain?#…` comes exactly `plain?`. */
  lemma {:induction false} QueryBeforeFragment(plain: string, tail: string)
    requires '?' !in plain && '#' !in plain && StartsWith(tail, "?#")
    ensures var u := plain + tail; u[..FindChar(u, '#')] == plain + "?"
  {
    var u := plain + tail;
    FindCharAfter(plain, tail, '#');
    assert tail[0] == '?' && tail[1] == '#';
    assert FindChar(tail, '#') == 1;
    assert u[..|plain| + 1] == plain + "?";
  }

  /** A path-free prefix moves the end of the path by its length. */
  lemma {:induction false} PathEndAfter(plain: string, tail: string)
    requires '?' !in plain && '#' !in plain
    ensures FindChar(plain + tail, '?') == |plain| + FindChar(tail, '?')
    ensures FindChar(plain + tail, '#') == |plain| + FindChar(tail, '#')
    ensures PathEnd(plain + tail) == |plain| + PathEnd(tail)
  {
    FindCharAfter(plain, tail, '?');
    FindCharAfter(plain, tail, '#');
  }

  /** In a plain stylesheet the URL of a non-embedded font names the very
      file the engine writes (`<fontFilename>.<type>`), behind the relative
      path, with or without the cache-busting hash. The svg fragment is the
      `fontBaseName` option, which must not itself read `iefix…`. */
  lemma {:induction false} UrlNamesFontFile(t: string, stylesheet: string, s: Settings, embedUri: string -> string)
    requires Util.Known(t)
    requires !Embedded(t, Util.FontsSrcs(t).value.primary.value, s)
    requires !UsesVariables(s, stylesheet)
    requires PlainName(s.relativeFontPath) && PlainName(s.fontFilename) && PlainName(s.hash)
    requires var fb := Options.Lookup(s.context, "fontBaseName"); '#' !in fb && !StartsWith(fb, "iefix")
    ensures PathPart(Url(t, Util.FontsSrcs(t).value.primary.value, stylesheet, s, embedUri))
      == s.relativeFontPath + s.fontFilename + "." + t
  {
    FileNameSpec(t, s);
    var fb := Options.Lookup(s.context, "fontBaseName");
    var plain := s.relativeFontPath + s.fontFilename + "." + t;
    var tail := NameTail(t, fb);
    assert s.relativeFontPath + (s.fontFilename + ("." + t + tail)) == plain + tail;
    assert '?' !in plain && '#' !in plain;
    IefixOnlyEot(plain, t, fb);
    HashedPathPart(plain, tail, s.hash);
  }

  // ---- The source lists of one stylesheet ----

  /** The types `generateStylesheet` visits: `order` filtered by `types.includes`. */
  function Requested(order: seq<string>, types: seq<string>): seq<string> {
    if |order| == 0 then []
    else (if order[0] in types then [order[0]] else []) + Requested(order[1..], types)
  }

  /** `xs` is `ys` with some elements left out and the others in their order. */
  predicate SubsequenceOf(xs: seq<string>, ys: seq<string>)
    decreases |ys|
  {
    if |xs| == 0 then true
    else if |ys| == 0 then false
    else if xs[0] == ys[0] then SubsequenceOf(xs[1..], ys[1..])
    else SubsequenceOf(xs, ys[1..])
  }

  /** The visited types are exactly those in both lists, and each keeps its place in `order`. */
  lemma {:induction false} RequestedMembers(order: seq<string>, types: seq<string>)
    ensures forall x :: x in Requested(order, types) <==> x in order && x in types
    ensures |Requested(order, types)| <= |order|
    ensures SubsequenceOf(Requested(order, types), order)
  {
    if |order| > 0 {
      var rest := Requested(order[1..], types);
      RequestedMembers(order[1..], types);
      assert order == [order[0]] + order[1..];
      if order[0] in types {
        assert Requested(order, types) == [order[0]] + rest;
        assert ([order[0]] + rest)[1..] == rest;
      } else {
        assert Requested(order, types) == rest;
        assert |rest| > 0 ==> rest[0] in types;
      }
    }
  }

  /** Occurrences of `x` in `xs`. */
  function Count(xs: seq<string>, x: string): nat {
    if |xs| == 0 then 0 else (if xs[0] == x then 1 else 0) + Count(xs[1..], x)
  }

  /** The slot-1 entry of a known type (every known type has one). */
  function PrimaryEntry(t: string, stylesheet: string, s: Settings, embedUri: string -> string): (r: Entry)
    requires Util.Known(t)
    ensures r.pathVariable.Some? ==> r.pathVariable.value == Declaration(s, stylesheet)
  {
    Util.PrimarySlotTable(t);
    GenerateFontSrc(t, Util.FontsSrcs(t).value.primary.value, stylesheet, s, embedUri)
  }

  function PrimarySrc(t: string, stylesheet: string, s: Settings, embedUri: string -> string): string
    requires Util.Known(t)
  {
    PrimaryEntry(t, stylesheet, s, embedUri).src
  }

  /** The slot-0 entry, which only eot has. */
  function LegacySrc(stylesheet: string, s: Settings, embedUri: string -> string): string {
    GenerateFontSrc("eot", Util.FontsSrcs("eot").value.legacy.value, stylesheet, s, embedUri).src
  }

  /** The loop's entries come from the corrected `GenerateFontSrc`. A slot-1
      entry is the as-written one exactly unless the font is embedded in a
      stylesheet that uses path variables; slot 0 (eot, never embeddable)
      always is. */
  lemma {:induction false} EntriesMatchAsWritten(t: string, stylesheet: string, s: Settings, embedUri: string -> string)
    requires Util.Known(t)
    ensures Util.FontsSrcs(t).value.primary.Some?
    ensures var font := Util.FontsSrcs(t).value.primary.value;
      (PrimarySrc(t, stylesheet, s, embedUri) == GenerateFontSrcAsWritten(t, font, stylesheet, s, embedUri).src
       <==> !(Embedded(t, font, s) && UsesVariables(s, stylesheet)))
    ensures LegacySrc(stylesheet, s, embedUri)
      == GenerateFontSrcAsWritten("eot", Util.FontsSrcs("eot").value.legacy.value, stylesheet, s, embedUri).src
  {
    Util.PrimarySlotTable(t);
    var font := Util.FontsSrcs(t).value.primary.value;
    if Embedded(t, font, s) && UsesVariables(s, stylesheet) {
      EmbeddedWithVariablesAsWritten(t, font, stylesheet, s, embedUri);
    }
    var legacy := Util.FontsSrcs("eot").value.legacy.value;
    assert !Util.IsEmbeddable(legacy);
  }

  /** `fontSrcs[0]`, `fontSrcs[1]` and the last `fontPathVariable` set. */
  datatype Sources = Sources(legacy: seq<string>, primary: seq<string>, pathVariable: Option<string>)

  /** The `order.forEach` loop. A requested type the table does not know
      makes `fontsSrcsMap[type].forEach` throw; the failure names that type. */
  function FontSrcs(order: seq<string>, types: seq<string>, stylesheet: string, s: Settings,
                    embedUri: string -> string): (r: Result<Sources, string>)
    ensures r.Success? <==> forall x :: x in Requested(order, types) ==> Util.Known(x)
    ensures r.Failure? ==> r.error in Requested(order, types) && !Util.Known(r.error)
    decreases |order|
  {
    if |order| == 0 then Success(Sources([], [], None))
    else
      var t := order[0];
      var rest := FontSrcs(order[1..], types, stylesheet, s, embedUri);
      assert Requested(order, types) == (if t in types then [t] else []) + Requested(order[1..], types);
      if t !in types then rest
      else if !Util.Known(t) then Failure(t)
      else if rest.Failure? then rest
      else
        var primary := PrimaryEntry(t, stylesheet, s, embedUri);
        var legacy := if t == "eot" then [LegacySrc(stylesheet, s, embedUri)] else [];
        var pv := if rest.value.pathVariable.Some? then rest.value.pathVariable else primary.pathVariable;
        Success(Sources(legacy + rest.value.legacy, [primary.src] + rest.value.primary, pv))
  }

  /** Only eot has a slot-0 entry, so the `if (font)` test of the loop keeps
      slot 0 for eot alone; this is how `FontSrcs` reads the table. */
  lemma {:induction false} SlotsAsRead(t: string)
    requires Util.Known(t)
    ensures Util.FontsSrcs(t).value.primary.Some?
    ensures Util.FontsSrcs(t).value.legacy.Some? <==> t == "eot"
  {
    Util.PrimarySlotTable(t);
    Util.LegacySlotOnlyEot(t);
  }

  /** A successful loop succeeded on the rest of `order` too, and skipped
      an unrequested first type. */
  lemma {:induction false} FontSrcsTail(order: seq<string>, types: seq<string>, stylesheet: string, s: Settings,
                                        embedUri: string -> string)
    requires |order| > 0 && FontSrcs(order, types, stylesheet, s, embedUri).Success?
    ensures FontSrcs(order[1..], types, stylesheet, s, embedUri).Success?
    ensures order[0] !in types ==> FontSrcs(order, types, stylesheet, s, embedUri) == FontSrcs(order[1..], types, stylesheet, s, embedUri)
  {
  }

  /** One requested type adds its slot-1 entry, and its slot-0 entry for eot. */
  lemma {:induction false} FontSrcsStep(order: seq<string>, types: seq<string>, stylesheet: string, s: Settings,
                                        embedUri: string -> string)
    requires |order| > 0 && order[0] in types && FontSrcs(order, types, stylesheet, s, embedUri).Success?
    ensures Util.Known(order[0]) && FontSrcs(order[1..], types, stylesheet, s, embedUri).Success?
    ensures var r := FontSrcs(order, types, stylesheet, s, embedUri).value;
      var rr := FontSrcs(order[1..], types, stylesheet, s, embedUri).value;
      && r.primary == [PrimarySrc(order[0], stylesheet, s, embedUri)] + rr.primary
      && r.legacy == (if order[0] == "eot" then [LegacySrc(stylesheet, s, embedUri)] else []) + rr.legacy
  {
  }

  /** Slot 1 holds one entry per requested type, in order, each of a
      known type. */
  lemma {:induction false} FontSrcsPrimary(order: seq<string>, types: seq<string>, stylesheet: string, s: Settings,
                                           embedUri: string -> string)
    requires FontSrcs(order, types, stylesheet, s, embedUri).Success?
    ensures var r := FontSrcs(order, types, stylesheet, s, embedUri).value;
      var req := Requested(order, types);
      && |r.primary| == |req|
      && (forall k :: 0 <= k < |req| ==> Util.Known(req[k]) && r.primary[k] == PrimarySrc(req[k], stylesheet, s, embedUri))
    decreases |order|
  {
    if |order| > 0 {
      var t := order[0];
      var req := Requested(order, types);
      var reqRest := Requested(order[1..], types);
      assert req == (if t in types then [t] else []) + reqRest;
      FontSrcsTail(order, types, stylesheet, s, embedUri);
      FontSrcsPrimary(order[1..], types, stylesheet, s, embedUri);
      if t in types {
        assert req[1..] == reqRest;
        var r := FontSrcs(order, types, stylesheet, s, embedUri).value;
        var rr := FontSrcs(order[1..], types, stylesheet, s, embedUri).value;
        FontSrcsStep(order, types, stylesheet, s, embedUri);
        forall k | 0 <= k < |req|
          ensures Util.Known(req[k]) && r.primary[k] == PrimarySrc(req[k], stylesheet, s, embedUri)
        {
          if k > 0 {
            assert req[k] == reqRest[k - 1] && r.primary[k] == rr.primary[k - 1];
          }
        }
      } else {
        assert req == reqRest;
      }
    }
  }

  /** The path variable, once set, is the declaration. */
  lemma {:induction false} FontSrcsPathVariable(order: seq<string>, types: seq<string>, stylesheet: string, s: Settings,
                                                embedUri: string -> string)
    requires FontSrcs(order, types, stylesheet, s, embedUri).Success?
    ensures var r := FontSrcs(order, types, stylesheet, s, embedUri).value;
      r.pathVariable.Some? ==> r.pathVariable.value == Declaration(s, stylesheet)
    decreases |order|
  {
    if |order| > 0 {
      FontSrcsPathVariable(order[1..], types, stylesheet, s, embedUri);
    }
  }

  /** Slot 0 holds one eot entry per requested eot. */
  lemma {:induction false} FontSrcsLegacy(order: seq<string>, types: seq<string>, stylesheet: string, s: Settings,
                                          embedUri: string -> string)
    requires FontSrcs(order, types, stylesheet, s, embedUri).Success?
    ensures var r := FontSrcs(order, types, stylesheet, s, embedUri).value;
      && |r.legacy| == Count(Requested(order, types), "eot")
      && (forall k :: 0 <= k < |r.legacy| ==> r.legacy[k] == LegacySrc(stylesheet, s, embedUri))
    decreases |order|
  {
    if |order| > 0 {
      var t := order[0];
      var req := Requested(order, types);
      var reqRest := Requested(order[1..], types);
      assert req == (if t in types then [t] else []) + reqRest;
      FontSrcsTail(order, types, stylesheet, s, embedUri);
      FontSrcsLegacy(order[1..], types, stylesheet, s, embedUri);
      if t in types {
        assert req[1..] == reqRest;
        FontSrcsStep(order, types, stylesheet, s, embedUri);
        assert Count(req, "eot") == (if t == "eot" then 1 else 0) + Count(reqRest, "eot");
      } else {
        assert req == reqRest;
      }
    }
  }

  /** Slot 1 holds one entry per requested type in order; slot 0 holds one
      eot entry per requested eot; the path variable is the declaration. */
  lemma {:induction false} FontSrcsEntries(order: seq<string>, types: seq<string>, stylesheet: string, s: Settings,
                                           embedUri: string -> string)
    requires FontSrcs(order, types, stylesheet, s, embedUri).Success?
    ensures var r := FontSrcs(order, types, stylesheet, s, embedUri).value;
      var req := Requested(order, types);
      && |r.primary| == |req|
      && (forall k :: 0 <= k < |req| ==> Util.Known(req[k]) && r.primary[k] == PrimarySrc(req[k], stylesheet, s, embedUri))
      && |r.legacy| == Count(req, "eot")
      && (forall k :: 0 <= k < |r.legacy| ==> r.legacy[k] == LegacySrc(stylesheet, s, embedUri))
      && (r.pathVariable.Some? ==> r.pathVariable.value == Declaration(s, stylesheet))
  {
    FontSrcsPrimary(order, types, stylesheet, s, embedUri);
    FontSrcsLegacy(order, types, stylesheet, s, embedUri);
    FontSrcsPathVariable(order, types, stylesheet, s, embedUri);
  }

  /** The two `fontSrc` strings of a stylesheet and the raw lists. */
  datatype Stylesheet = Stylesheet(fontSrc1: string, fontSrc2: string, raw: Sources)

  /** `generateStylesheet`'s source step: normalise `relativeFontPath`
      (stored back into the options), collect the entries, and join each
      list with the stylesheet's separator. */
  function StylesheetSources(order: seq<string>, types: seq<string>, stylesheet: string, s: Settings,
                             embedUri: string -> string): (r: Result<Stylesheet, string>)
    ensures r.Success? <==> forall x :: x in Requested(order, types) ==> Util.Known(x)
  {
    var normalized := s.(relativeFontPath := Options.NormalizePath(s.relativeFontPath));
    Options.SeparatorRule(stylesheet);
    var sep := Options.Pick(Util.FontSrcSeparators, stylesheet).value;
    match FontSrcs(order, types, stylesheet, normalized, embedUri)
    case Failure(e) => Failure(e)
    case Success(src) => Success(Stylesheet(Join(src.legacy, sep), Join(src.primary, sep), src))
  }

  /** The normalisation is written back into the options before every
      stylesheet; since it is idempotent, later stylesheets see the same path. */
  lemma {:induction false} StylesheetSourcesStable(order: seq<string>, types: seq<string>, stylesheet: string, s: Settings,
                                embedUri: string -> string)
    ensures var once := s.(relativeFontPath := Options.NormalizePath(s.relativeFontPath));
      StylesheetSources(order, types, stylesheet, once, embedUri)
        == StylesheetSources(order, types, stylesheet, s, embedUri)
  {
    Options.NormalizePathIdempotent(s.relativeFontPath);
  }

  /** A plain CSS entry: the quoted URL and the optional format. */
  function CssEntry(url: string, format: Option<string>): string {
    "url(\"" + url + "\")" + FormatSuffix(format)
  }

  /** In plain CSS without embedding, a slot-1 entry is the quoted relative
      path of the file, hashed when hashes are on, and its format. */
  lemma {:induction false} CssPrimarySrc(t: string, s: Settings, embedUri: string -> string)
    requires Util.Known(t) && s.embed == []
    ensures Util.FontsSrcs(t).value.primary.Some?
    ensures var font := Util.FontsSrcs(t).value.primary.value;
      PrimarySrc(t, "css", s, embedUri) == CssEntry(Cachebusted(s.relativeFontPath + FileName(font, s), s), font.format)
  {
    Util.PrimarySlotTable(t);
  }

  const DefaultOrder: seq<string> := ["eot", "woff2", "woff", "ttf", "svg"]
  const DefaultTypes: seq<string> := ["eot", "woff", "ttf"]

  lemma {:induction false} DefaultRequested()
    ensures Requested(DefaultOrder, DefaultTypes) == DefaultTypes
  {
    var o := DefaultOrder;
    assert o[1..][1..][1..][1..][1..] == [];
    assert Requested(o[1..][1..][1..][1..], DefaultTypes) == [];
    assert Requested(o[1..][1..][1..], DefaultTypes) == ["ttf"];
    assert Requested(o[1..][1..], DefaultTypes) == ["woff", "ttf"];
    assert Requested(o[1..], DefaultTypes) == ["woff", "ttf"];
  }

  /** When every requested type is known and `order` requests exactly
      `types`, slot 1 holds one entry per type in order and slot 0 one per eot. */
  lemma {:induction false} KnownLists(order: seq<string>, types: seq<string>, stylesheet: string, s: Settings,
                                      embedUri: string -> string)
    requires Requested(order, types) == types
    requires forall k :: 0 <= k < |types| ==> Util.Known(types[k])
    ensures FontSrcs(order, types, stylesheet, s, embedUri).Success?
    ensures var r := FontSrcs(order, types, stylesheet, s, embedUri).value;
      && |r.primary| == |types|
      && (forall k :: 0 <= k < |types| ==> r.primary[k] == PrimarySrc(types[k], stylesheet, s, embedUri))
      && |r.legacy| == Count(types, "eot")
      && (forall k :: 0 <= k < |r.legacy| ==> r.legacy[k] == LegacySrc(stylesheet, s, embedUri))
  {
    assert forall x :: x in Requested(order, types) ==> Util.Known(x);
    FontSrcsEntries(order, types, stylesheet, s, embedUri);
  }

  lemma {:induction false} DefaultEotOnce()
    ensures Count(DefaultTypes, "eot") == 1
  {
    var ts := DefaultTypes;
    assert ts[1..][1..][1..] == [];
    assert Count(ts[1..][1..], "eot") == 0;
    assert Count(ts[1..], "eot") == 0;
  }

  /** The default types give one eot entry in slot 0 and eot, woff, ttf in slot 1. */
  lemma {:induction false} DefaultLists(stylesheet: string, s: Settings, embedUri: string -> string)
    ensures var r := FontSrcs(DefaultOrder, DefaultTypes, stylesheet, s, embedUri);
      && r.Success?
      && r.value.legacy == [LegacySrc(stylesheet, s, embedUri)]
      && r.value.primary == [PrimarySrc("eot", stylesheet, s, embedUri), PrimarySrc("woff", stylesheet, s, embedUri),
                             PrimarySrc("ttf", stylesheet, s, embedUri)]
  {
    var ts := DefaultTypes;
    DefaultRequested();
    assert Util.Known(ts[0]) && Util.Known(ts[1]) && Util.Known(ts[2]);
    KnownLists(DefaultOrder, ts, stylesheet, s, embedUri);
    DefaultEotOnce();
    var r := FontSrcs(DefaultOrder, ts, stylesheet, s, embedUri).value;
    ListOfThree(r.primary, PrimarySrc(ts[0], stylesheet, s, embedUri), PrimarySrc(ts[1], stylesheet, s, embedUri),
                PrimarySrc(ts[2], stylesheet, s, embedUri));
    ListOfOne(r.legacy, LegacySrc(stylesheet, s, embedUri));
  }

  lemma {:induction false} ListOfThree(xs: seq<string>, a: string, b: string, c: string)
    requires |xs| == 3 && xs[0] == a && xs[1] == b && xs[2] == c
    ensures xs == [a, b, c]
  {
  }

  lemma {:induction false} ListOfOne(xs: seq<string>, a: string)
    requires |xs| == 1 && xs[0] == a
    ensures xs == [a]
  {
  }

  /** A path that already ends in `/` and has no backslash is left alone. */
  lemma {:induction false} NormalizedPathUnchanged(p: string)
    requires Options.EndsWithSlash(p) && '\\' !in p
    ensures Options.NormalizePath(p) == p
  {
    assert Strings.ReplaceChar(p, '\\', '/') == p;
  }

  /** The cache-busting query of a default entry: `?<hash>` when hashes are on. */
  function HashQuery(s: Settings): string {
    if s.addHashes then "?" + s.hash else ""
  }

  /** A fragment-free URL gets the hash query at its end. */
  lemma {:induction false} CachebustedPlain(u: string, s: Settings)
    requires '#' !in u
    ensures Cachebusted(u, s) == u + HashQuery(s)
  {
    if s.addHashes {
      HashAppended(u, s.hash);
    }
  }

  /** An `?#iefix` URL gets the bare hash before its fragment. */
  lemma {:induction false} CachebustedIefix(u: string, s: Settings)
    requires '#' !in u
    ensures Cachebusted(u + "?#iefix", s) == u + "?" + (if s.addHashes then s.hash else "") + "#iefix"
  {
    if s.addHashes {
      HashBeforeIefix(u, s.hash);
    }
  }

  /** The slot-0 eot entry of plain CSS: `<path><file>.eot`, then the hash query. */
  lemma {:induction false} DefaultLegacyEntry(s: Settings, embedUri: string -> string)
    requires PlainName(s.fontFilename) && '#' !in s.relativeFontPath
    ensures LegacySrc("css", s, embedUri) == CssEntry(s.relativeFontPath + (s.fontFilename + ".eot") + HashQuery(s), None)
  {
    var u := s.relativeFontPath + (s.fontFilename + ".eot");
    PlainFileName(s.fontFilename, ".eot", s.context);
    assert LegacySrc("css", s, embedUri) == CssEntry(Cachebusted(u, s), None);
    assert '#' !in u;
    CachebustedPlain(u, s);
  }

  /** The slot-1 eot entry of plain CSS: the hash goes into the `?#iefix` query. */
  lemma {:induction false} DefaultIefixEntry(s: Settings, embedUri: string -> string)
    requires PlainName(s.fontFilename) && '#' !in s.relativeFontPath && s.embed == []
    ensures PrimarySrc("eot", "css", s, embedUri)
      == CssEntry(s.relativeFontPath + (s.fontFilename + ".eot") + "?" + (if s.addHashes then s.hash else "") + "#iefix",
                  Some("embedded-opentype"))
  {
    var u := s.relativeFontPath + (s.fontFilename + ".eot");
    EotPrimaryCss(s, embedUri);
    assert '#' !in u;
    CachebustedIefix(u, s);
  }

  lemma {:induction false} EotPrimaryCss(s: Settings, embedUri: string -> string)
    requires PlainName(s.fontFilename) && s.embed == []
    ensures PrimarySrc("eot", "css", s, embedUri)
      == CssEntry(Cachebusted(s.relativeFontPath + (s.fontFilename + ".eot") + "?#iefix", s), Some("embedded-opentype"))
  {
    CssSrcOf("eot", ".eot?#iefix", "embedded-opentype", s, embedUri);
    IefixSplit(s.relativeFontPath, s.fontFilename);
  }

  /** The eot slot-1 name is the slot-0 name followed by `?#iefix`. */
  lemma {:induction false} IefixSplit(a: string, b: string)
    ensures a + (b + ".eot?#iefix") == a + (b + ".eot") + "?#iefix"
  {
    assert ".eot" + "?#iefix" == ".eot?#iefix";
  }

  /** A slot-1 entry of plain CSS without a query of its own: the file, then the hash query. */
  lemma {:induction false} DefaultPlainEntry(t: string, ext: string, format: string, s: Settings, embedUri: string -> string)
    requires Util.Known(t) && s.embed == [] && PlainName(s.fontFilename) && '#' !in s.relativeFontPath
    requires Util.FontsSrcs(t).value.primary == Some(Util.Descriptor(ext, Some(format), Util.FontsSrcs(t).value.primary.value.embeddable))
    requires '{' !in ext && '#' !in ext
    ensures PrimarySrc(t, "css", s, embedUri) == CssEntry(s.relativeFontPath + (s.fontFilename + ext) + HashQuery(s), Some(format))
  {
    var u := s.relativeFontPath + (s.fontFilename + ext);
    CssSrcOf(t, ext, format, s, embedUri);
    assert '#' !in u;
    CachebustedPlain(u, s);
  }

  /** The default CSS entries, one by one: the bare file names with hashes
      off, and `.eot?<hash>`, `.eot?<hash>#iefix`, `.woff?<hash>` and
      `.ttf?<hash>` with hashes on, as they are by default. */
  lemma {:induction false} DefaultCssEntries(s: Settings, embedUri: string -> string)
    requires PlainName(s.fontFilename) && '#' !in s.relativeFontPath && s.embed == []
    ensures var rel, ff, q := s.relativeFontPath, s.fontFilename, HashQuery(s);
      && LegacySrc("css", s, embedUri) == CssEntry(rel + (ff + ".eot") + q, None)
      && PrimarySrc("eot", "css", s, embedUri)
           == CssEntry(rel + (ff + ".eot") + "?" + (if s.addHashes then s.hash else "") + "#iefix", Some("embedded-opentype"))
      && PrimarySrc("woff", "css", s, embedUri) == CssEntry(rel + (ff + ".woff") + q, Some("woff"))
      && PrimarySrc("ttf", "css", s, embedUri) == CssEntry(rel + (ff + ".ttf") + q, Some("truetype"))
  {
    DefaultLegacyEntry(s, embedUri);
    DefaultIefixEntry(s, embedUri);
    DefaultPlainEntries(s, embedUri);
  }

  /** The woff and ttf entries of the defaults: the file, then the hash query. */
  lemma {:induction false} DefaultPlainEntries(s: Settings, embedUri: string -> string)
    requires PlainName(s.fontFilename) && '#' !in s.relativeFontPath && s.embed == []
    ensures PrimarySrc("woff", "css", s, embedUri) == CssEntry(s.relativeFontPath + (s.fontFilename + ".woff") + HashQuery(s), Some("woff"))
    ensures PrimarySrc("ttf", "css", s, embedUri) == CssEntry(s.relativeFontPath + (s.fontFilename + ".ttf") + HashQuery(s), Some("truetype"))
  {
    DefaultPlainEntry("woff", ".woff", "woff", s, embedUri);
    DefaultPlainEntry("ttf", ".ttf", "truetype", s, embedUri);
  }

  /** With the defaults (types eot, woff, ttf in the default order) a CSS
      stylesheet gets the eot file in `fontSrc1` and the three formats, eot
      first, in `fontSrc2`, separated by a line break and two tabs; `hashes`
      is `addHashes`, on unless the option is `false`. */
  lemma {:induction false} DefaultCssSources(ff: string, rel: string, context: map<string, string>, hashes: bool, hash: string,
                                             embedUri: string -> string)
    requires PlainName(ff) && Options.EndsWithSlash(rel) && '\\' !in rel && '#' !in rel
    ensures var s := Settings(ff, ff, rel, "build", [], false, hashes, hash, context);
      var q := if hashes then "?" + hash else "";
      var r := StylesheetSources(DefaultOrder, DefaultTypes, "css", s, embedUri);
      && r.Success?
      && r.value.fontSrc1 == CssEntry(rel + (ff + ".eot") + q, None)
      && r.value.fontSrc2
           == CssEntry(rel + (ff + ".eot") + "?" + (if hashes then hash else "") + "#iefix", Some("embedded-opentype")) + ",\n\t\t"
              + (CssEntry(rel + (ff + ".woff") + q, Some("woff")) + ",\n\t\t"
              + CssEntry(rel + (ff + ".ttf") + q, Some("truetype")))
  {
    var s := Settings(ff, ff, rel, "build", [], false, hashes, hash, context);
    NormalizedPathUnchanged(rel);
    assert s.(relativeFontPath := Options.NormalizePath(rel)) == s;
    DefaultLists("css", s, embedUri);
    DefaultCssEntries(s, embedUri);
    Options.SeparatorRule("css");
    var sep := ",\n\t\t";
    var xs := FontSrcs(DefaultOrder, DefaultTypes, "css", s, embedUri).value.primary;
    assert xs[1..][1..] == [xs[2]];
    assert Join(xs[1..], sep) == xs[1] + sep + xs[2];
    assert Join(xs, sep) == xs[0] + sep + (xs[1] + sep + xs[2]);
  }

  lemma {:induction false} CssSrcOf(t: string, ext: string, format: string, s: Settings, embedUri: string -> string)
    requires Util.Known(t) && s.embed == [] && PlainName(s.fontFilename)
    requires Util.FontsSrcs(t).value.primary == Some(Util.Descriptor(ext, Some(format), Util.FontsSrcs(t).value.primary.value.embeddable))
    requires '{' !in ext
    ensures PrimarySrc(t, "css", s, embedUri) == CssEntry(Cachebusted(s.relativeFontPath + (s.fontFilename + ext), s), Some(format))
  {
    CssPrimarySrc(t, s, embedUri);
    PlainFileName(s.fontFilename, ext, s.context);
  }
}

=== FILE: forge.dfy ===
/** What both fontforge engines (`tasks/engines/fontforge.js` and
    `src/tasks/engines/fontforge.js`) share: the classification of the
    `exec` callback's error, the stderr allow-list, the trimming of the
    script's output to its JSON object, and the extraction of the font
    name. The fontforge script itself is not interpreted: its reply is an
    input. */
module Forge {
  import opened Wrappers
  import opened Strings
  import opened Process
  import Options
  import Paths

  /** The alternatives of the `notError` pattern: copyright and build
      banners fontforge prints on stderr. */
  const AllowList: seq<string> := [
    "Copyright", "License ", "with many parts BSD ", "Executable based on sources from",
    "Library based on sources from", "Based on source from git"]

  /** `line.match(notError)` is truthy: the line contains one alternative. */
  predicate NotErrorLine(line: string) {
    exists i :: 0 <= i < |AllowList| && Contains(line, AllowList[i])
  }

  /** `!!wf.generatedFontFiles(o)`: `glob.sync` yields an array, and every
      array, the empty one too, is truthy. */
  function GlobSuccess(matches: seq<string>): (b: bool) {
    Options.Truthy(Options.Arr(matches))
  }

  /** The stderr lines kept as warnings: those off the allow-list, and
      only when no font file exists. */
  function Warnings(lines: seq<string>, success: bool): (w: seq<string>)
    ensures |w| <= |lines|
    ensures forall x :: x in w <==> x in lines && !success && !NotErrorLine(x)
  {
    if |lines| == 0 then []
    else
      var rest := Warnings(lines[1..], success);
      assert forall x :: x in lines <==> x == lines[0] || x in lines[1..];
      if !NotErrorLine(lines[0]) && !success then [lines[0]] + rest else rest
  }

  /** The lines that are not warnings: the ones the Dist engine (`tasks/engines/fontforge.js`) echoes to
      the verbose log. */
  function Echoed(lines: seq<string>, success: bool): (e: seq<string>)
    ensures |e| <= |lines|
    ensures forall x :: x in e <==> x in lines && (success || NotErrorLine(x))
  {
    if |lines| == 0 then []
    else
      var rest := Echoed(lines[1..], success);
      assert forall x :: x in lines <==> x == lines[0] || x in lines[1..];
      if !NotErrorLine(lines[0]) && !success then rest else [lines[0]] + rest
  }

  /** Every line is either a warning or echoed, never both. */
  lemma {:induction false} WarningsPartition(lines: seq<string>, success: bool)
    ensures |Warnings(lines, success)| + |Echoed(lines, success)| == |lines|
    decreases |lines|
  {
    if |lines| > 0 {
      WarningsPartition(lines[1..], success);
    }
  }

  /** Whatever the glob finds, the filter keeps no warning and echoes every line. */
  lemma {:induction false} NeverWarns(matches: seq<string>, lines: seq<string>)
    ensures Warnings(lines, GlobSuccess(matches)) == []
    ensures Echoed(lines, GlobSuccess(matches)) == lines
  {
    assert GlobSuccess(matches);
    WarningsNone(lines);
    EchoedAll(lines);
  }

  lemma {:induction false} WarningsNone(lines: seq<string>)
    ensures Warnings(lines, true) == []
    decreases |lines|
  {
    if |lines| > 0 {
      WarningsNone(lines[1..]);
    }
  }

  lemma {:induction false} EchoedAll(lines: seq<string>)
    ensures Echoed(lines, true) == lines
    decreases |lines|
  {
    if |lines| > 0 {
      EchoedAll(lines[1..]);
    }
  }

  /** `replace(/^[^{]+/, '')`: everything before the first `{` goes; with
      no `{`, everything goes. */
  function DropBeforeBrace(s: string): (r: string)
    ensures |r| <= |s| && r == s[|s| - |r|..]
    ensures '{' !in s[..|s| - |r|]
    ensures r == "" || r[0] == '{'
  {
    if |s| == 0 || s[0] == '{' then s
    else
      var r := DropBeforeBrace(s[1..]);
      assert s[1..][..|s| - 1 - |r|] == s[1..|s| - |r|];
      r
  }

  /** `replace(/[^}]+$/, '')`: everything after the last `}` goes; with no
      `}`, everything goes. */
  function DropAfterBrace(s: string): (r: string)
    ensures |r| <= |s| && r == s[..|r|]
    ensures '}' !in s[|r|..]
    ensures r == "" || r[|r| - 1] == '}'
  {
    if |s| == 0 || s[|s| - 1] == '}' then s
    else
      var r := DropAfterBrace(s[..|s| - 1]);
      assert s[..|s| - 1][|r|..] == s[|r|..|s| - 1];
      r
  }

  /** The trimmed fontforge output: empty, or from a `{` to a `}`. */
  function TrimJson(out: string): (r: string)
    ensures r == "" || (|r| >= 1 && r[0] == '{' && r[|r| - 1] == '}')
    ensures '{' !in out ==> r == ""
  {
    var a := DropBeforeBrace(out);
    assert a != "" ==> '{' in out by {
      if a != "" {
        assert a[0] == out[|out| - |a|];
      }
    }
    var r := DropAfterBrace(a);
    assert r != "" ==> a != "" && r[0] == a[0] by {
      if r != "" {
        assert r[0] == a[..|r|][0];
      }
    }
    r
  }

  /** The trim keeps one contiguous slice of the output, dropping only a
      `{`-free prelude and a `}`-free trailer. */
  lemma {:induction false} TrimJsonSlice(out: string) returns (i: nat)
    ensures var r := TrimJson(out);
      && i + |r| <= |out| && r == out[i..i + |r|]
      && '{' !in out[..i] && '}' !in out[i + |r|..]
  {
    var a := DropBeforeBrace(out);
    var r := DropAfterBrace(a);
    i := |out| - |a|;
    SliceOfSuffix(out, i, |r|);
  }

  lemma {:induction false} SliceOfSuffix(s: string, i: nat, n: nat)
    requires i + n <= |s|
    ensures s[i..][..n] == s[i..i + n]
    ensures s[i..][n..] == s[i + n..]
  {
  }

  /** The reference reading of the trim: output made of a `{`-free prelude,
      a braced core and a `}`-free trailer yields exactly the core. */
  lemma {:induction false} TrimJsonExtracts(pre: string, core: string, post: string)
    requires '{' !in pre && '}' !in post
    requires |core| >= 1 && core[0] == '{' && core[|core| - 1] == '}'
    ensures TrimJson(pre + core + post) == core
  {
    var s := pre + core + post;
    assert s == pre + (core + post);
    DropBeforeFree(pre, core + post);
    assert DropBeforeBrace(s) == core + post;
    DropAfterFree(core, post);
    assert TrimJson(s) == DropAfterBrace(core + post);
  }

  lemma {:induction false} DropBeforeFree(pre: string, rest: string)
    requires '{' !in pre && |rest| >= 1 && rest[0] == '{'
    ensures DropBeforeBrace(pre + rest) == rest
    decreases |pre|
  {
    if |pre| > 0 {
      assert (pre + rest)[1..] == pre[1..] + rest;
      DropBeforeFree(pre[1..], rest);
    } else {
      assert pre + rest == rest;
    }
  }

  lemma {:induction false} DropAfterFree(core: string, post: string)
    requires '}' !in post && |core| >= 1 && core[|core| - 1] == '}'
    ensures DropAfterBrace(core + post) == core
    decreases |post|
  {
    if |post| > 0 {
      var p := post[..|post| - 1];
      assert (core + post)[..|core + post| - 1] == core + p;
      DropAfterFree(core, p);
    } else {
      assert core + post == core;
    }
  }

  /** Text that already runs from a `{` to a `}` is left alone. */
  lemma {:induction false} TrimJsonFixed(r: string)
    requires |r| >= 1 && r[0] == '{' && r[|r| - 1] == '}'
    ensures TrimJson(r) == r
  {
    var e: string := [];
    assert e + r == r && r + e == r;
    DropBeforeFree(e, r);
    DropAfterFree(r, e);
  }

  /** Trimming an already trimmed output changes nothing. */
  lemma {:induction false} TrimJsonIdempotent(out: string)
    ensures TrimJson(TrimJson(out)) == TrimJson(out)
  {
    var r := TrimJson(out);
    if r != "" {
      TrimJsonFixed(r);
    }
  }


  /** The `err` of the `exec` callback: none, an `Error`, or another value,
      which the engines split into lines as stderr text. */
  datatype ExecErr = NoErr | ErrorObj(e: ExecError) | ErrText(text: string)

  /** How the callback reads `err` before looking at the output. */
  datatype Class =
    | NotFound                   // an `Error` with code 127
    | Fatal(message: string)     // any other `Error`
    | Filtered(lines: seq<string>) // a truthy non-`Error`: its lines
    | Clean                      // a falsy `err`

  function Classify(err: ExecErr): (c: Class)
    ensures c.NotFound? <==> err.ErrorObj? && err.e.code == Exit(127)
    ensures c.Fatal? <==> err.ErrorObj? && err.e.code != Exit(127)
    ensures c.Clean? <==> err.NoErr? || err == ErrText("")
    ensures c.Fatal? ==> c.message == err.e.message
  {
    match err
    case ErrorObj(e) => if e.code == Exit(127) then NotFound else Fatal(e.message)
    case ErrText(t) => if t == "" then Clean else Filtered(Split(t, '\n'))
    case NoErr => Clean
  }

  /** `JSON.parse('')` throws this `SyntaxError`. */
  const EmptyJsonError: string := "Unexpected end of JSON input"

  /** What `JSON.parse` makes of the trimmed reply when that is not empty:
      the parsed object, given by its properties (a trimmed reply starts
      with `{`), or the message of the `SyntaxError` it throws. */
  type JsonReply = Result<map<string, Options.JsValue>, string>

  /** The script's reply after trimming, read through `JSON.parse`. */
  datatype Extracted =
    | FontName(name: string)       // `{fontName: path.basename(result.file)}`
    | ParseFailed(syntaxError: string)
    | BadFile                      // `result.file` is not a string: `path.basename` throws

  /** The `TypeError` `path.basename` throws on a non-string argument. */
  const BasenameTypeError: string := "TypeError [ERR_INVALID_ARG_TYPE]: The \"path\" argument must be of type string"

  function Extract(out: string, parsed: JsonReply): (x: Extracted)
    ensures TrimJson(out) == "" ==> x == ParseFailed(EmptyJsonError)
    ensures x.FontName? <==> (TrimJson(out) != "" && parsed.Success?
      && "file" in parsed.value && parsed.value["file"].Str?)
    ensures x.FontName? ==> '/' !in x.name
  {
    var json := TrimJson(out);
    var result := if json == "" then Failure(EmptyJsonError) else parsed;
    match result
    case Failure(e) => ParseFailed(e)
    case Success(fields) =>
      if "file" in fields && fields["file"].Str? then FontName(Paths.Basename(fields["file"].s)) else BadFile
  }

  /** The script's reply as `exec` hands it over, with the process's exit
      code (`None` when a signal ended it) and whether writing the
      parameters to its stdin failed with `EPIPE`. */
  datatype Reply = Reply(epipe: bool, err: ExecErr, out: string, exitCode: Option<int>)

  /** What an engine's handlers do, in event order: the stdin error, the
      exit, then the `exec` callback. An uncaught exception ends the run,
      and no later handler runs. */
  datatype Effect = Effect(logs: seq<Line>, done: seq<EngineValue>, threw: Option<string>)

  const NoEffect: Effect := Effect([], [], None)

  /** Run `a` and then, unless `a` threw, `b`. */
  function Then(a: Effect, b: Effect): (r: Effect)
    ensures a.threw.Some? ==> r == a
    ensures a.threw.None? ==> r.threw == b.threw && r.done == a.done + b.done && r.logs == a.logs + b.logs
  {
    if a.threw.Some? then a else Effect(a.logs + b.logs, a.done + b.done, b.threw)
  }

  /** The text of a log line: a composed text, or one of the engines' fixed
      messages, which `MessageText` spells out. */
  datatype Message =
    | Said(s: string)
    | NotFoundHelp        // what `fontforgeNotFound` reports
    | ParseFailureHelp    // the remediation for an output that does not parse
    | ExitHelp            // what the Dist engine's exit handler logs for a non-zero status

  /** One call of the logger. */
  datatype Line = Line(level: Level, message: Message)

  /** The wording of each message, without terminal styling. */
  function MessageText(m: Message): string {
    match m
    case Said(s) => s
    case NotFoundHelp =>
      "fontforge not found. Please install fontforge and all other requirements: https://github.com/sapegin/grunt-webfont#installation"
    case ParseFailureHelp =>
      "Something went wrong when running fontforge. Probably fontforge wasn’t installed correctly or one of your SVGs is too complicated for fontforge.\n\n"
      + "1. Try to run Grunt in verbose mode: grunt --verbose webfont and see what fontforge says. Then search GitHub issues for the solution: https://github.com/sapegin/grunt-webfont/issues.\n\n"
      + "2. Try to use “node” engine instead of “fontforge”: https://github.com/sapegin/grunt-webfont#engine\n\n"
      + "3. To find “bad” icon try to remove SVGs one by one until error disappears. Then try to simplify this SVG in Sketch, Illustrator, etc.\n\n"
    case ExitHelp =>
      "fontforge process has unexpectedly closed.\n"
      + "1. Try to run grunt in verbose mode to see fontforge output: grunt --verbose webfont.\n"
      + "2. If stderr maxBuffer exceeded try to increase execMaxBuffer, see https://github.com/sapegin/grunt-webfont#execMaxBuffer. "
  }

  /** The parameters written to the script's stdin: the options with
      `inputDir` set to the temporary copy of the SVG files. */
  function Params(options: map<string, Options.JsValue>, tempDir: string): (p: map<string, Options.JsValue>)
    ensures "inputDir" in p && p["inputDir"] == Options.Str(tempDir)
    ensures forall k :: k != "inputDir" ==> (k in p <==> k in options)
    ensures forall k :: k != "inputDir" && k in options ==> p[k] == options[k]
  {
    options["inputDir" := Options.Str(tempDir)]
  }

  /** The options after the engine hands them over: the parameters it
      writes to stdin, and what the caller's options object holds afterwards. */
  datatype Handoff = Handoff(params: map<string, Options.JsValue>, callerOptions: map<string, Options.JsValue>)

  /** The reference outcome of the `exec` callback, independent of the
      stderr filter: an `Error` means no font; otherwise the trimmed output
      decides; `None` when `path.basename` throws. */
  function Verdict(err: ExecErr, out: string, parsed: JsonReply): Option<EngineValue>
  {
    if err.ErrorObj? then Some(NotCreated) else Settle(Extract(out, parsed))
  }

  /** The reference outcome of an extraction: the font's name, `false` for a
      parse failure, `None` when `path.basename` throws. */
  function Settle(x: Extracted): Option<EngineValue> {
    match x
    case FontName(n) => Some(FontNameValue(n))
    case ParseFailed(_) => Some(NotCreated)
    case BadFile => None
  }

  /** What the callback hands `allDone` for a verdict: its value, or nothing. */
  function Delivered(v: Option<EngineValue>): seq<EngineValue> {
    if v.Some? then [v.value] else []
  }

  /** What the callback throws for a verdict: `path.basename`'s error when
      there is no verdict, otherwise nothing. */
  function Thrown(v: Option<EngineValue>): Option<string> {
    if v.None? then Some(BasenameTypeError) else None
  }

  /** The values `allDone` receives: `NotCreated` for the stdin `EPIPE`, then
      the callback's verdict. */
  function Completions(reply: Reply, parsed: JsonReply): seq<EngineValue> {
    (if reply.epipe then [NotCreated] else []) + Delivered(Verdict(reply.err, reply.out, parsed))
  }
}

=== FILE: forge_dist.dfy ===
/** The Dist fontforge engine, `tasks/engines/fontforge.js`: verbose
    echo of allow-listed stderr lines, a logged exit status, a fresh
    parameter object, and an `error()` helper that logs before giving up. */
module ForgeDist {
  import opened Wrappers
  import opened Strings
  import opened Process
  import Options
  import opened Forge

  /** The `TypeError` that `logger.error.apply(null, ...args)` throws: the
      spread hands `apply` a string where it needs an array-like object. */
  const ApplyTypeError: string := "TypeError: CreateListFromArrayLike called on non-object"

  const ParseLogPrefix: string := "Webfont did not receive a proper JSON result from Python script: SyntaxError: "

  /** Which `error()` runs: the helper as written, or the evidently intended one. */
  datatype Helper = AsWritten | Intended

  /** `error(msg)`: as written the `apply` throws before `allDone(false)`;
      as intended it logs the message and reports no font. */
  function Report(h: Helper, msg: Message): (e: Effect)
    ensures h.Intended? ==> e.threw.None? && e.done == [NotCreated] && Line(Error, msg) in e.logs
    ensures h.AsWritten? ==> e.threw == Some(ApplyTypeError) && e.done == []
  {
    match h
    case AsWritten => Effect([], [], Some(ApplyTypeError))
    case Intended => Effect([Line(Error, msg)], [NotCreated], None)
  }

  /** The verbose lines for the echoed stderr lines. */
  function EchoLogs(lines: seq<string>): (logs: seq<Line>)
    ensures |logs| == |lines|
    ensures forall k :: 0 <= k < |lines| ==> logs[k] == Line(Verbose, Said("fontforge: " + lines[k]))
  {
    seq(|lines|, k requires 0 <= k < |lines| => Line(Verbose, Said("fontforge: " + lines[k])))
  }

  /** After the error checks: the font name, or a parse failure logged
      verbosely and reported. */
  function Output(h: Helper, out: string, parsed: JsonReply): Effect {
    Respond(h, Extract(out, parsed))
  }

  function Respond(h: Helper, x: Extracted): Effect {
    match x
    case FontName(n) => Effect([], [FontNameValue(n)], None)
    case ParseFailed(e) => Then(Effect([Line(Verbose, Said(ParseLogPrefix + e))], [], None), Report(h, ParseFailureHelp))
    case BadFile => Effect([], [], Some(BasenameTypeError))
  }

  /** The `exec` callback; `matches` is what `generatedFontFiles` finds. */
  function Callback(h: Helper, err: ExecErr, out: string, matches: seq<string>,
                    parsed: JsonReply): Effect
  {
    match Classify(err)
    case NotFound => Report(h, NotFoundHelp)
    case Fatal(m) => Report(h, Said(m))
    case Filtered(lines) =>
      var success := GlobSuccess(matches);
      var warn := Warnings(lines, success);
      Then(Effect(EchoLogs(Echoed(lines, success)), [], None),
           if |warn| > 0 then Report(h, Said(Join(warn, "\n"))) else Output(h, out, parsed))
    case Clean => Output(h, out, parsed)
  }

  /** The exit handler: a status other than 0, a signal included, is logged
      and nothing else happens. */
  function OnExit(code: Option<int>): Effect {
    if code != Some(0) then Effect([Line(Plain, ExitHelp)], [], None) else NoEffect
  }

  function OnStdinError(h: Helper, epipe: bool): Effect {
    if epipe then Report(h, NotFoundHelp) else NoEffect
  }

  function RunWith(h: Helper, reply: Reply, matches: seq<string>,
                   parsed: JsonReply): Effect
  {
    Then(Then(OnStdinError(h, reply.epipe), OnExit(reply.exitCode)), Callback(h, reply.err, reply.out, matches, parsed))
  }

  /** `fontForgeEngine` as written. */
  function RunAsWritten(reply: Reply, matches: seq<string>, parsed: JsonReply): Effect {
    RunWith(AsWritten, reply, matches, parsed)
  }

  /** `fontForgeEngine` with the evidently intended `error()`. */
  function Run(reply: Reply, matches: seq<string>, parsed: JsonReply): Effect {
    RunWith(Intended, reply, matches, parsed)
  }

  /** No log line of the callback goes to the plain channel. */
  predicate NoPlain(logs: seq<Line>) {
    forall k :: 0 <= k < |logs| ==> logs[k].level != Plain
  }

  /** The intended engine's answer to an extraction delivers its reference
      outcome and logs no plain line. */
  lemma {:induction false} RespondVerdict(x: Extracted)
    ensures var e := Respond(Intended, x);
      && e.done == Delivered(Settle(x))
      && e.threw == Thrown(Settle(x))
      && NoPlain(e.logs)
  {
    var e := Respond(Intended, x);
    match x
    case FontName(n) =>
      assert e == Effect([], [FontNameValue(n)], None);
    case ParseFailed(m) =>
      assert e == Effect([Line(Verbose, Said(ParseLogPrefix + m)), Line(Error, ParseFailureHelp)], [NotCreated], None);
    case BadFile =>
      assert e == Effect([], [], Some(BasenameTypeError));
  }

  /** After the error checks, the intended engine delivers the verdict and logs no plain line. */
  lemma {:induction false} OutputVerdict(err: ExecErr, out: string, parsed: JsonReply)
    requires !err.ErrorObj?
    ensures var e := Output(Intended, out, parsed);
      var v := Verdict(err, out, parsed);
      && e.done == Delivered(v)
      && e.threw == Thrown(v)
      && NoPlain(e.logs)
  {
    RespondVerdict(Extract(out, parsed));
  }

  /** The intended callback delivers the reference verdict, whatever stderr says. */
  lemma {:induction false} CallbackVerdict(err: ExecErr, out: string, matches: seq<string>, parsed: JsonReply)
    ensures var e := Callback(Intended, err, out, matches, parsed);
      var v := Verdict(err, out, parsed);
      && e.done == Delivered(v)
      && e.threw == Thrown(v)
      && NoPlain(e.logs)
      && (Classify(err).NotFound? ==> Line(Error, NotFoundHelp) in e.logs)
  {
    match Classify(err)
    case NotFound =>
    case Fatal(m) =>
    case Filtered(lines) =>
      NeverWarns(matches, lines);
      OutputVerdict(err, out, parsed);
      var echo := EchoLogs(Echoed(lines, GlobSuccess(matches)));
      var o := Output(Intended, out, parsed);
      assert Callback(Intended, err, out, matches, parsed) == Then(Effect(echo, [], None), o);
      assert NoPlain(echo);
      NoPlainAppend(echo, o.logs);
    case Clean =>
      OutputVerdict(err, out, parsed);
  }

  /** The engine hands `allDone` exactly the reference completions: a
      missing fontforge (exit 127 or `EPIPE`) or any other `Error` gives
      `false`, a parsable reply its file's base name, whatever stderr says;
      it throws only when the reply's `file` is not a string. */
  lemma {:induction false} RunCompletes(reply: Reply, matches: seq<string>, parsed: JsonReply)
    ensures var r := Run(reply, matches, parsed);
      && r.done == Completions(reply, parsed)
      && r.threw == Thrown(Verdict(reply.err, reply.out, parsed))
  {
    var pre := Then(OnStdinError(Intended, reply.epipe), OnExit(reply.exitCode));
    assert pre.threw == None && pre.done == (if reply.epipe then [NotCreated] else []);
    CallbackVerdict(reply.err, reply.out, matches, parsed);
    assert Run(reply, matches, parsed) == Then(pre, Callback(Intended, reply.err, reply.out, matches, parsed));
  }

  lemma {:induction false} NoPlainAppend(a: seq<Line>, b: seq<Line>)
    requires NoPlain(a) && NoPlain(b)
    ensures NoPlain(a + b)
  {
    forall k | 0 <= k < |a + b| ensures (a + b)[k].level != Plain {
      if k < |a| {
        assert (a + b)[k] == a[k];
      } else {
        assert (a + b)[k] == b[k - |a|];
      }
    }
  }

  /** A plain line in a concatenation whose outer parts hold none comes from the middle. */
  lemma {:induction false} PlainFromMiddle(a: seq<Line>, b: seq<Line>, c: seq<Line>, x: Line)
    requires NoPlain(a) && NoPlain(c) && x.level == Plain
    ensures x in a + b + c <==> x in b
  {
  }

  /** A missing fontforge is reported, and the exit handler's message is
      logged exactly for a non-zero status: the status changes nothing else. */
  lemma {:induction false} RunLogs(reply: Reply, matches: seq<string>, parsed: JsonReply)
    ensures var r := Run(reply, matches, parsed);
      && (reply.epipe || Classify(reply.err).NotFound? ==> Line(Error, NotFoundHelp) in r.logs)
      && (Line(Plain, ExitHelp) in r.logs <==> reply.exitCode != Some(0))
  {
    var pipe := OnStdinError(Intended, reply.epipe);
    var exit := OnExit(reply.exitCode);
    var cb := Callback(Intended, reply.err, reply.out, matches, parsed);
    CallbackVerdict(reply.err, reply.out, matches, parsed);
    var r := Run(reply, matches, parsed);
    assert r.logs == pipe.logs + exit.logs + cb.logs;
    assert NoPlain(pipe.logs);
    PlainFromMiddle(pipe.logs, exit.logs, cb.logs, Line(Plain, ExitHelp));
    assert Line(Plain, ExitHelp) in exit.logs <==> reply.exitCode != Some(0);
  }

  /** Every stderr line of a non-`Error` reply reaches the verbose log. */
  lemma {:induction false} EchoesStderr(reply: Reply, matches: seq<string>, parsed: JsonReply)
    requires reply.err.ErrText? && reply.err.text != ""
    requires !reply.epipe
    ensures forall line :: line in Split(reply.err.text, '\n') ==>
      Line(Verbose, Said("fontforge: " + line)) in Run(reply, matches, parsed).logs
  {
    var lines := Split(reply.err.text, '\n');
    NeverWarns(matches, lines);
    var echo := EchoLogs(lines);
    forall line | line in lines
      ensures Line(Verbose, Said("fontforge: " + line)) in Run(reply, matches, parsed).logs
    {
      var k :| 0 <= k < |lines| && lines[k] == line;
      assert echo[k] == Line(Verbose, Said("fontforge: " + line));
    }
  }

  /** As written, every path through `error()` throws instead of reporting:
      the run agrees with the intended one exactly when the intended one
      never reports `false`, and otherwise it throws the `TypeError` and
      `allDone(false)` is never called. */
  lemma {:induction false} ErrorPathThrows(reply: Reply, matches: seq<string>, parsed: JsonReply)
    ensures var good := Run(reply, matches, parsed);
      var bad := RunAsWritten(reply, matches, parsed);
      && (bad == good <==> NotCreated !in good.done)
      && (NotCreated in good.done ==> bad.threw == Some(ApplyTypeError) && NotCreated !in bad.done)
  {
    var good := Run(reply, matches, parsed);
    var bad := RunAsWritten(reply, matches, parsed);
    RunCompletes(reply, matches, parsed);
    if !reply.epipe {
      match Classify(reply.err)
      case NotFound =>
      case Fatal(m) =>
      case Filtered(lines) =>
        NeverWarns(matches, lines);
      case Clean =>
    }
  }

  /** A missing fontforge crashes the Dist engine as written. */
  lemma {:induction false} NotFoundThrows(out: string, matches: seq<string>, parsed: JsonReply)
    ensures var reply := Reply(false, ErrorObj(ExecError(Exit(127), "Command failed")), out, Some(127));
      && RunAsWritten(reply, matches, parsed) == Effect([Line(Plain, ExitHelp)], [], Some(ApplyTypeError))
      && Run(reply, matches, parsed) == Effect([Line(Plain, ExitHelp), Line(Error, NotFoundHelp)], [NotCreated], None)
  {
  }

  /** `Object.assign({}, options, {inputDir})`: a fresh object; the
      caller's options keep what they had. */
  function Assign(options: map<string, Options.JsValue>, tempDir: string): (h: Handoff)
    ensures h.params == Params(options, tempDir)
  {
    Handoff(Params(options, tempDir), options)
  }

  /** The caller never sees `inputDir` appear or change. */
  lemma {:induction false} AssignLeavesCaller(options: map<string, Options.JsValue>, tempDir: string)
    ensures var h := Assign(options, tempDir);
      && ("inputDir" in h.callerOptions <==> "inputDir" in options)
      && h.params["inputDir"] == Options.Str(tempDir)
      && forall k :: k in options ==> k in h.callerOptions && h.callerOptions[k] == options[k]
  {
  }
}

=== FILE: forge_src.dfy ===
/** The Src fontforge engine, `src/tasks/engines/fontforge.js`: the same
    classification, filter, trim and extraction as the Dist copy, with a
    silent `error()`, no exit logging, and parameters merged into the
    caller's options object. */
module ForgeSrc {
  import opened Wrappers
  import opened Strings
  import opened Process
  import Options
  import opened Forge
  import ForgeDist

  /** `error()`: ignores its message and reports no font. */
  const Report: Effect := Effect([], [NotCreated], None)

  function Output(out: string, parsed: JsonReply): Effect {
    Respond(Extract(out, parsed))
  }

  function Respond(x: Extracted): Effect {
    match x
    case FontName(n) => Effect([], [FontNameValue(n)], None)
    case ParseFailed(_) => Report
    case BadFile => Effect([], [], Some(BasenameTypeError))
  }

  /** The `exec` callback; `matches` is what `generatedFontFiles` finds. */
  function Callback(err: ExecErr, out: string, matches: seq<string>,
                    parsed: JsonReply): Effect
  {
    match Classify(err)
    case NotFound => Report
    case Fatal(_) => Report
    case Filtered(lines) =>
      if |Warnings(lines, GlobSuccess(matches))| > 0 then Report else Output(out, parsed)
    case Clean => Output(out, parsed)
  }

  /** `fontForgeEngine`: the stdin `EPIPE` handler, then the callback; the
      exit handler does nothing. */
  function Run(reply: Reply, matches: seq<string>, parsed: JsonReply): Effect {
    Then(if reply.epipe then Report else NoEffect, Callback(reply.err, reply.out, matches, parsed))
  }

  /** After the error checks the Src engine delivers the verdict silently. */
  lemma {:induction false} OutputVerdict(err: ExecErr, out: string, parsed: JsonReply)
    requires !err.ErrorObj?
    ensures var e := Output(out, parsed);
      var v := Verdict(err, out, parsed);
      e == Effect([], Delivered(v), Thrown(v))
  {
    RespondVerdict(Extract(out, parsed));
  }

  /** The Src engine's answer to an extraction is its reference outcome, silently. */
  lemma {:induction false} RespondVerdict(x: Extracted)
    ensures Respond(x) == Effect([], Delivered(Settle(x)), Thrown(Settle(x)))
  {
    match x
    case FontName(n) =>
    case ParseFailed(m) =>
    case BadFile =>
  }

  /** The callback delivers the reference verdict and logs nothing. */
  lemma {:induction false} CallbackVerdict(err: ExecErr, out: string, matches: seq<string>, parsed: JsonReply)
    ensures var v := Verdict(err, out, parsed);
      Callback(err, out, matches, parsed) == Effect([], Delivered(v), Thrown(v))
  {
    match Classify(err)
    case NotFound =>
    case Fatal(_) =>
    case Filtered(lines) =>
      NeverWarns(matches, lines);
      OutputVerdict(err, out, parsed);
    case Clean =>
      OutputVerdict(err, out, parsed);
  }

  /** The Src engine logs nothing and completes exactly as the reference
      says, like the Dist engine with its intended `error()`: the two
      copies hand the task the same values and fail on the same replies. */
  lemma {:induction false} RunCompletes(reply: Reply, matches: seq<string>, parsed: JsonReply)
    ensures var r := Run(reply, matches, parsed);
      && r.logs == []
      && r.done == Completions(reply, parsed)
      && r.threw == Thrown(Verdict(reply.err, reply.out, parsed))
      && r.done == ForgeDist.Run(reply, matches, parsed).done
      && r.threw == ForgeDist.Run(reply, matches, parsed).threw
  {
    CallbackVerdict(reply.err, reply.out, matches, parsed);
    ForgeDist.RunCompletes(reply, matches, parsed);
  }

  /** A missing fontforge with a broken stdin reports `false` twice: once
      from the `EPIPE` handler and once from the callback. */
  lemma {:induction false} NotFoundTwice(out: string, matches: seq<string>, parsed: JsonReply)
    ensures Run(Reply(true, ErrorObj(ExecError(Exit(127), "Command failed")), out, Some(127)), matches, parsed).done
      == [NotCreated, NotCreated]
  {
  }

  /** `_.extend(o, {inputDir})`: the parameters are the caller's object itself. */
  function Extend(o: map<string, Options.JsValue>, tempDir: string): (h: Handoff)
    ensures h.callerOptions == h.params
    ensures h.params == Params(o, tempDir)
  {
    var merged := Params(o, tempDir);
    Handoff(merged, merged)
  }

  /** After the engine the caller's options name the temporary directory,
      and they differ from before exactly when `inputDir` did not already
      hold it; the Dist engine leaves them as they were. */
  lemma {:induction false} ExtendMutatesCaller(o: map<string, Options.JsValue>, tempDir: string)
    ensures var h := Extend(o, tempDir);
      && h.callerOptions["inputDir"] == Options.Str(tempDir)
      && (h.callerOptions != o <==> !("inputDir" in o && o["inputDir"] == Options.Str(tempDir)))
      && h.params == ForgeDist.Assign(o, tempDir).params
      && ForgeDist.Assign(o, tempDir).callerOptions == o
  {
    var h := Extend(o, tempDir);
    if "inputDir" in o && o["inputDir"] == Options.Str(tempDir) {
      assert h.callerOptions == o;
    }
  }
}

=== FILE: generators.dfy ===
/** The generator machine shared by both node engines: the `fonts` memo,
    the generators svg → ttf → {woff, eot} with woff2 deferred, ttfautohint,
    the glyph batch of `svgFilesToStreams` and the chain of font writers. */
module Generators {
  import opened Wrappers
  import opened Process
  import opened Fonts
  import Util

  /** What `autohintTtfFont` hands back: a hinted font, or `false` (`None`). */
  datatype Hinting = Hinting(hinted: Option<Font>, logs: seq<Log>)

  const HintNotFoundNote: string := "Hinting skipped, ttfautohint not found."
  const HintErrorPrefix: string := "Can’t run ttfautohint.\n\n"

  /** `autohintTtfFont`: `run` is the error ttfautohint's `exec` reported, if any. */
  function AutohintTtfFont(raw: Font, autoHint: bool, run: Option<ExecError>): (r: Hinting)
    ensures r.hinted.Some? <==> autoHint && run.None?
    ensures r.hinted.Some? ==> Unhinted(r.hinted.value) == raw && r.hinted.value != raw
    ensures |r.logs| <= 1
    ensures r.logs != [] <==> autoHint && run.Some?
    ensures r.logs != [] ==> (r.logs[0].level == Verbose <==> run.value.code == Exit(127))
  {
    if !autoHint then Hinting(None, [])
    else match run
      case None => Hinting(Some(HintedOf(raw)), [])
      case Some(e) =>
        if e.code == Exit(127) then Hinting(None, [Log(Verbose, HintNotFoundNote)])
        else Hinting(None, [Log(Error, HintErrorPrefix + e.message)])
  }

  /** The ttf generator keeps the unhinted font unless the hinted one is truthy. */
  function TtfFont(raw: Font, h: Hinting): (f: Font)
    ensures Unhinted(f) == Unhinted(raw) || (h.hinted.Some? && f == h.hinted.value)
    ensures h.hinted.Some? ==> f == h.hinted.value
    ensures h.hinted.None? ==> f == raw
  {
    if h.hinted.Some? then h.hinted.value else raw
  }

  /** Everything a run reads besides the cache: the glyph batch (or the log
      lines of its failure), the font family name, and ttfautohint's
      configuration and outcome. */
  datatype Env = Env(glyphs: Result<seq<Glyph>, seq<Log>>, fontName: string, autoHint: bool, hint: Option<ExecError>)

  /** Types with a generator; for any other `generators[type]` is undefined. */
  predicate HasGenerator(t: string) {
    t == "svg" || t == "ttf" || t == "woff" || t == "woff2" || t == "eot"
  }

  /** Types whose generator stores its font in the memo. */
  predicate Cached(t: string) {
    t == "svg" || t == "ttf" || t == "woff" || t == "eot"
  }

  /** Position in the dependency chain. */
  function Depth(t: string): nat {
    if t == "ttf" then 1 else if t == "woff" || t == "eot" then 2 else 0
  }

  /** The dependency chain over a memo: ttf is (possibly hinted) svg2ttf of
      the cached svg, woff and eot are converted from the cached ttf, and
      woff2 is never cached. */
  predicate Chain(fonts: map<string, Font>) {
    && (forall t :: t in fonts ==> Cached(t))
    && ("svg" in fonts ==> fonts["svg"].SvgFont?)
    && ("ttf" in fonts ==> "svg" in fonts && Unhinted(fonts["ttf"]) == TtfOf(fonts["svg"]))
    && ("woff" in fonts ==> "ttf" in fonts && fonts["woff"] == WoffOf(fonts["ttf"]))
    && ("eot" in fonts ==> "ttf" in fonts && fonts["eot"] == EotOf(fonts["ttf"]))
  }

  /** The font a generator hands to its callback, `Crashed` when the call
      throws, `Aborted` when the glyph batch ended the engine with
      `allDone(false)` (the callback is then never called). */
  datatype Outcome = Delivered(font: Option<Font>) | Aborted | Crashed(reason: string)

  /** What `getFont` yields, the memo afterwards, the generators that ran
      (the requested one first) and the log lines. */
  datatype Fetch = Fetch(outcome: Outcome, fonts: map<string, Font>, ran: seq<string>, logs: seq<Log>)

  const NotAFunction: string := "TypeError: generators[type] is not a function"

  /** `getFont(type, done)`: the memo, or the type's generator. */
  function GetFont(t: string, fonts: map<string, Font>, env: Env): (r: Fetch)
    requires Chain(fonts)
    ensures Chain(r.fonts)
    ensures forall k :: k in fonts ==> k in r.fonts && r.fonts[k] == fonts[k]
    ensures r.outcome.Delivered? ==> (r.outcome.font.Some? <==> t != "woff2")
    ensures r.outcome.Delivered? && t != "woff2" ==> t in r.fonts && r.fonts[t] == r.outcome.font.value
    decreases Depth(t)
  {
    if t in fonts then Fetch(Delivered(Some(fonts[t])), fonts, [], [])
    else if t == "svg" then
      match env.glyphs
      case Failure(logs) => Fetch(Aborted, fonts, ["svg"], logs)
      case Success(gs) =>
        var f := SvgFont(env.fontName, gs);
        Fetch(Delivered(Some(f)), fonts["svg" := f], ["svg"], [])
    else if t == "ttf" then
      var s := GetFont("svg", fonts, env);
      if !s.outcome.Delivered? then s.(ran := ["ttf"] + s.ran)
      else
        var raw := TtfOf(s.outcome.font.value);
        var h := AutohintTtfFont(raw, env.autoHint, env.hint);
        var f := TtfFont(raw, h);
        Fetch(Delivered(Some(f)), s.fonts["ttf" := f], ["ttf"] + s.ran, s.logs + h.logs)
    else if t == "woff" || t == "eot" then
      var b := GetFont("ttf", fonts, env);
      if !b.outcome.Delivered? then b.(ran := [t] + b.ran)
      else
        var f := if t == "woff" then WoffOf(b.outcome.font.value) else EotOf(b.outcome.font.value);
        Fetch(Delivered(Some(f)), b.fonts[t := f], [t] + b.ran, b.logs)
    else if t == "woff2" then Fetch(Delivered(None), fonts, ["woff2"], [])
    else Fetch(Crashed(NotAFunction), fonts, [], [])
  }

  /** A cached type is served from the memo and runs no generator. */
  lemma {:induction false} MemoHit(t: string, fonts: map<string, Font>, env: Env)
    requires Chain(fonts) && t in fonts
    ensures GetFont(t, fonts, env) == Fetch(Delivered(Some(fonts[t])), fonts, [], [])
  {
  }

  /** How a fetch can end, and which generators it runs: only uncached
      ones, the requested one first and then its dependencies, each once;
      woff2 yields nothing and leaves the memo alone. */
  predicate FetchOrder(t: string, fonts: map<string, Font>, env: Env, r: Fetch) {
    && (r.outcome.Crashed? <==> t !in fonts && !HasGenerator(t))
    && (r.outcome.Aborted? ==> env.glyphs.Failure?)
    && (t == "woff2" ==> r.fonts == fonts && r.outcome == Delivered(None))
    && (r.outcome.Delivered? ==> forall k :: 0 <= k < |r.ran| && Cached(r.ran[k]) ==> r.ran[k] in r.fonts)
    && (t !in fonts && HasGenerator(t) ==> |r.ran| > 0 && r.ran[0] == t)
    && RanOrder(t, fonts, r.ran)
  }

  /** Generators that ran for a fetch of `t`: uncached ones with a generator,
      `t` itself and then strictly shallower ones, none twice. */
  predicate RanOrder(t: string, fonts: map<string, Font>, ran: seq<string>) {
    && (forall k :: 0 <= k < |ran| ==> ran[k] !in fonts && HasGenerator(ran[k]) && Depth(ran[k]) <= Depth(t))
    && (forall k :: 1 <= k < |ran| ==> Depth(ran[k]) < Depth(t))
    && (forall i, j :: 0 <= i < j < |ran| ==> ran[i] != ran[j])
  }

  /** Running `t`'s generator before a shallower fetch keeps the order. */
  lemma {:induction false} RanOrderCons(t: string, u: string, fonts: map<string, Font>, rest: seq<string>)
    requires t !in fonts && HasGenerator(t) && Depth(u) < Depth(t)
    requires RanOrder(u, fonts, rest)
    ensures RanOrder(t, fonts, [t] + rest)
  {
    var ran := [t] + rest;
    forall k | 1 <= k < |ran| ensures ran[k] == rest[k - 1] && Depth(ran[k]) < Depth(t) {
    }
    forall i, j | 0 <= i < j < |ran| ensures ran[i] != ran[j] {
      if i > 0 {
        assert ran[i] == rest[i - 1] && ran[j] == rest[j - 1];
      }
    }
  }

  lemma {:induction false} FetchSvg(fonts: map<string, Font>, env: Env)
    requires Chain(fonts) && "svg" !in fonts
    ensures FetchOrder("svg", fonts, env, GetFont("svg", fonts, env))
  {
    assert GetFont("svg", fonts, env).ran == ["svg"];
  }

  lemma {:induction false} FetchTtf(fonts: map<string, Font>, env: Env)
    requires Chain(fonts) && "ttf" !in fonts
    ensures FetchOrder("ttf", fonts, env, GetFont("ttf", fonts, env))
  {
    var s := GetFont("svg", fonts, env);
    if "svg" in fonts {
      assert s.ran == [];
    } else {
      FetchSvg(fonts, env);
    }
    var r := GetFont("ttf", fonts, env);
    assert r.ran == ["ttf"] + s.ran;
    RanOrderCons("ttf", "svg", fonts, s.ran);
  }

  lemma {:induction false} FetchWoff(fonts: map<string, Font>, env: Env)
    requires Chain(fonts) && "woff" !in fonts
    ensures FetchOrder("woff", fonts, env, GetFont("woff", fonts, env))
  {
    var b := GetFont("ttf", fonts, env);
    if "ttf" in fonts {
      MemoHit("ttf", fonts, env);
    } else {
      FetchTtf(fonts, env);
    }
    var r := GetFont("woff", fonts, env);
    if b.outcome.Delivered? {
      var f := WoffOf(b.outcome.font.value);
      assert r == Fetch(Delivered(Some(f)), b.fonts["woff" := f], ["woff"] + b.ran, b.logs);
    } else {
      assert r == b.(ran := ["woff"] + b.ran);
    }
    RanOrderCons("woff", "ttf", fonts, b.ran);
  }

  lemma {:induction false} FetchEot(fonts: map<string, Font>, env: Env)
    requires Chain(fonts) && "eot" !in fonts
    ensures FetchOrder("eot", fonts, env, GetFont("eot", fonts, env))
  {
    var b := GetFont("ttf", fonts, env);
    if "ttf" in fonts {
      MemoHit("ttf", fonts, env);
    } else {
      FetchTtf(fonts, env);
    }
    var r := GetFont("eot", fonts, env);
    if b.outcome.Delivered? {
      var f := EotOf(b.outcome.font.value);
      assert r == Fetch(Delivered(Some(f)), b.fonts["eot" := f], ["eot"] + b.ran, b.logs);
    } else {
      assert r == b.(ran := ["eot"] + b.ran);
    }
    RanOrderCons("eot", "ttf", fonts, b.ran);
  }


  /** Every fetch keeps `FetchOrder`. */
  lemma {:induction false} FetchRuns(t: string, fonts: map<string, Font>, env: Env)
    requires Chain(fonts)
    ensures FetchOrder(t, fonts, env, GetFont(t, fonts, env))
  {
    if t in fonts {
      MemoHit(t, fonts, env);
    } else if t == "svg" {
      FetchSvg(fonts, env);
    } else if t == "ttf" {
      FetchTtf(fonts, env);
    } else if t == "woff" {
      FetchWoff(fonts, env);
    } else if t == "eot" {
      FetchEot(fonts, env);
    }
  }

  /** The reference result of each cached generator, with no memo in between. */
  function Expected(t: string, env: Env): Font
    requires env.glyphs.Success? && Cached(t)
    decreases Depth(t)
  {
    if t == "svg" then SvgFont(env.fontName, env.glyphs.value)
    else if t == "ttf" then
      var raw := TtfOf(Expected("svg", env));
      TtfFont(raw, AutohintTtfFont(raw, env.autoHint, env.hint))
    else if t == "woff" then WoffOf(Expected("ttf", env))
    else EotOf(Expected("ttf", env))
  }

  /** A memo filled from the same environment. */
  predicate Consistent(fonts: map<string, Font>, env: Env) {
    forall t :: t in fonts ==> Cached(t) && env.glyphs.Success? && fonts[t] == Expected(t, env)
  }

  /** The memo is transparent: from a memo filled from the same environment,
      `getFont` yields what the generators would compute from scratch, and
      the memo stays filled from that environment. */
  predicate Transparent(t: string, env: Env, r: Fetch) {
    && Consistent(r.fonts, env)
    && (r.outcome.Delivered? && t != "woff2" ==> env.glyphs.Success? && Cached(t) && r.outcome.font == Some(Expected(t, env)))
    && (r.outcome.Aborted? <==> HasGenerator(t) && t != "woff2" && env.glyphs.Failure?)
  }

  /** Storing a generator's reference result keeps the memo consistent. */
  lemma {:induction false} ConsistentStore(fonts: map<string, Font>, env: Env, t: string, f: Font)
    requires Consistent(fonts, env) && Cached(t) && env.glyphs.Success? && f == Expected(t, env)
    ensures Consistent(fonts[t := f], env)
  {
  }

  lemma {:induction false} TransparentSvg(fonts: map<string, Font>, env: Env)
    requires Chain(fonts) && Consistent(fonts, env)
    ensures Transparent("svg", env, GetFont("svg", fonts, env))
  {
  }

  lemma {:induction false} TransparentTtf(fonts: map<string, Font>, env: Env)
    requires Chain(fonts) && Consistent(fonts, env)
    ensures Transparent("ttf", env, GetFont("ttf", fonts, env))
  {
    if "ttf" !in fonts {
      TransparentSvg(fonts, env);
    }
  }

  lemma {:induction false} TransparentWoff(fonts: map<string, Font>, env: Env)
    requires Chain(fonts) && Consistent(fonts, env)
    ensures Transparent("woff", env, GetFont("woff", fonts, env))
  {
    if "woff" !in fonts {
      var b := GetFont("ttf", fonts, env);
      TransparentTtf(fonts, env);
      var r := GetFont("woff", fonts, env);
      if b.outcome.Delivered? {
        var f := WoffOf(b.outcome.font.value);
        assert f == Expected("woff", env);
        ConsistentStore(b.fonts, env, "woff", f);
        assert r == Fetch(Delivered(Some(f)), b.fonts["woff" := f], ["woff"] + b.ran, b.logs);
      } else {
        assert r == b.(ran := ["woff"] + b.ran);
      }
    }
  }

  lemma {:induction false} TransparentEot(fonts: map<string, Font>, env: Env)
    requires Chain(fonts) && Consistent(fonts, env)
    ensures Transparent("eot", env, GetFont("eot", fonts, env))
  {
    if "eot" !in fonts {
      var b := GetFont("ttf", fonts, env);
      TransparentTtf(fonts, env);
      var r := GetFont("eot", fonts, env);
      if b.outcome.Delivered? {
        var f := EotOf(b.outcome.font.value);
        assert f == Expected("eot", env);
        ConsistentStore(b.fonts, env, "eot", f);
        assert r == Fetch(Delivered(Some(f)), b.fonts["eot" := f], ["eot"] + b.ran, b.logs);
      } else {
        assert r == b.(ran := ["eot"] + b.ran);
      }
    }
  }


  /** Every fetch from a consistent memo is `Transparent`. */
  lemma {:induction false} GetFontTransparent(t: string, fonts: map<string, Font>, env: Env)
    requires Chain(fonts) && Consistent(fonts, env)
    ensures Transparent(t, env, GetFont(t, fonts, env))
  {
    if t == "svg" {
      TransparentSvg(fonts, env);
    } else if t == "ttf" {
      TransparentTtf(fonts, env);
    } else if t == "woff" {
      TransparentWoff(fonts, env);
    } else if t == "eot" {
      TransparentEot(fonts, env);
    }
  }

  /** `fs.writeFileSync(getFontPath(o, type), font)`; `None` is `undefined`. */
  datatype Write = Write(path: string, font: Option<Font>)

  /** How the chain of writers ended: every step called `done()`, the glyph
      batch called `allDone(false)`, or a step threw. */
  datatype End = Finished | Stopped | Threw(reason: string)

  datatype Run = Run(writes: seq<Write>, fonts: map<string, Font>, ran: seq<string>, logs: seq<Log>, end: End)

  /** `steps` built by `createFontWriter`, run one after another. */
  function RunWriters(types: seq<string>, dest: string, fontFilename: string, fonts: map<string, Font>, env: Env): (r: Run)
    requires Chain(fonts)
    ensures Chain(r.fonts)
    ensures forall k :: k in fonts ==> k in r.fonts && r.fonts[k] == fonts[k]
    decreases |types|
  {
    if |types| == 0 then Run([], fonts, [], [], Finished)
    else
      var f := GetFont(types[0], fonts, env);
      match f.outcome
      case Aborted => Run([], f.fonts, f.ran, f.logs, Stopped)
      case Crashed(why) => Run([], f.fonts, f.ran, f.logs, Threw(why))
      case Delivered(font) =>
        var rest := RunWriters(types[1..], dest, fontFilename, f.fonts, env);
        Run([Write(Util.FontPath(dest, fontFilename, types[0]), font)] + rest.writes,
            rest.fonts, f.ran + rest.ran, f.logs + rest.logs, rest.end)
  }

  /** The font each writer writes for its type: none for woff2. */
  function ExpectedWrite(t: string, env: Env): Option<Font>
    requires env.glyphs.Success? && (Cached(t) || t == "woff2")
  {
    if t == "woff2" then None else Some(Expected(t, env))
  }

  /** One write per type, in order, to the type's font path, with the font
      the generators compute. */
  lemma {:induction false} WritersInOrder(types: seq<string>, dest: string, fontFilename: string,
                                          fonts: map<string, Font>, env: Env)
    requires Chain(fonts) && Consistent(fonts, env)
    ensures var r := RunWriters(types, dest, fontFilename, fonts, env);
      && |r.writes| <= |types|
      && (forall k :: 0 <= k < |r.writes| ==> r.writes[k].path == Util.FontPath(dest, fontFilename, types[k]))
      && (env.glyphs.Success? ==> forall k :: 0 <= k < |r.writes| ==>
            (Cached(types[k]) || types[k] == "woff2") && r.writes[k].font == ExpectedWrite(types[k], env))
    decreases |types|
  {
    if |types| > 0 {
      var t := types[0];
      var f := GetFont(t, fonts, env);
      GetFontTransparent(t, fonts, env);
      if f.outcome.Delivered? {
        var rest := RunWriters(types[1..], dest, fontFilename, f.fonts, env);
        WritersInOrder(types[1..], dest, fontFilename, f.fonts, env);
        assert rest == RunWriters(types[1..], dest, fontFilename, f.fonts, env);
        var r := RunWriters(types, dest, fontFilename, fonts, env);
        assert r.writes == [Write(Util.FontPath(dest, fontFilename, t), f.outcome.font)] + rest.writes;
        forall k | 1 <= k < |r.writes|
          ensures r.writes[k] == rest.writes[k - 1] && types[k] == types[1..][k - 1]
        {
        }
      }
    }
  }

  /** The chain stops early exactly when the glyph batch fails (before the
      first type with a generator other than woff2) or a type has no
      generator; it stops on `allDone(false)` only for a failed batch and
      throws only for a type without a generator. */
  lemma {:induction false} WritersEnd(types: seq<string>, dest: string, fontFilename: string,
                                      fonts: map<string, Font>, env: Env)
    requires Chain(fonts) && Consistent(fonts, env)
    ensures var r := RunWriters(types, dest, fontFilename, fonts, env);
      && (r.end.Finished? <==> |r.writes| == |types|)
      && (r.end.Finished? <==> forall k :: 0 <= k < |types| ==>
            HasGenerator(types[k]) && (env.glyphs.Failure? ==> types[k] == "woff2" || types[k] in fonts))
      && (r.end.Stopped? ==> env.glyphs.Failure?)
      && (r.end.Threw? ==> exists k :: 0 <= k < |types| && !HasGenerator(types[k]))
    decreases |types|
  {
    if |types| > 0 {
      var t := types[0];
      var f := GetFont(t, fonts, env);
      GetFontTransparent(t, fonts, env);
      FetchRuns(t, fonts, env);
      var r := RunWriters(types, dest, fontFilename, fonts, env);
      if f.outcome.Delivered? {
        var rest := RunWriters(types[1..], dest, fontFilename, f.fonts, env);
        WritersEnd(types[1..], dest, fontFilename, f.fonts, env);
        assert rest == RunWriters(types[1..], dest, fontFilename, f.fonts, env);
        assert r.end == rest.end && |r.writes| == 1 + |rest.writes|;
        assert HasGenerator(t) && (env.glyphs.Failure? ==> t == "woff2" || t in fonts);
        assert env.glyphs.Failure? ==> fonts == map[] && f.fonts == map[];
        assert forall k :: 1 <= k < |types| ==> types[k] == types[1..][k - 1];
        if r.end.Threw? {
          var k :| 0 <= k < |types[1..]| && !HasGenerator(types[1..][k]);
          assert !HasGenerator(types[k + 1]);
        }
      } else {
        assert |r.writes| == 0;
        if f.outcome.Crashed? {
          assert !HasGenerator(types[0]);
        }
      }
    }
  }

  /** With a failed glyph batch nothing is ever cached. */
  lemma {:induction false} EmptyMemoStaysEmpty(types: seq<string>, dest: string, fontFilename: string, env: Env)
    requires env.glyphs.Failure?
    ensures RunWriters(types, dest, fontFilename, map[], env).fonts == map[]
    decreases |types|
  {
    if |types| > 0 {
      var f := GetFont(types[0], map[], env);
      GetFontTransparent(types[0], map[], env);
      assert f.fonts == map[] by {
        assert Consistent(f.fonts, env);
      }
      if f.outcome.Delivered? {
        EmptyMemoStaysEmpty(types[1..], dest, fontFilename, env);
      }
    }
  }

  /** A run from an empty memo over types that all have a generator never
      throws; with the glyphs it writes every type's reference font in
      order, and without them it caches nothing and stops at the first
      type other than woff2. */
  lemma {:induction false} RunAll(types: seq<string>, dest: string, fontFilename: string, env: Env)
    requires forall k :: 0 <= k < |types| ==> HasGenerator(types[k])
    ensures var r := RunWriters(types, dest, fontFilename, map[], env);
      && !r.end.Threw?
      && (env.glyphs.Success? ==> (r.end.Finished? && |r.writes| == |types|
            && forall k :: 0 <= k < |types| ==> HasGenerator(types[k]) && r.writes[k] == Write(
                 Util.FontPath(dest, fontFilename, types[k]), ExpectedWrite(types[k], env))))
      && (env.glyphs.Failure? ==> r.fonts == map[] && ((exists k :: 0 <= k < |types| && types[k] != "woff2") ==> r.end.Stopped?))
  {
    var r := RunWriters(types, dest, fontFilename, map[], env);
    WritersInOrder(types, dest, fontFilename, map[], env);
    WritersEnd(types, dest, fontFilename, map[], env);
    if env.glyphs.Failure? {
      EmptyMemoStaysEmpty(types, dest, fontFilename, env);
      if exists k :: 0 <= k < |types| && types[k] != "woff2" {
        var k :| 0 <= k < |types| && types[k] != "woff2";
        assert !r.end.Finished?;
      }
    } else {
      assert r.end.Finished?;
      forall k | 0 <= k < |types|
        ensures HasGenerator(types[k]) && r.writes[k] == Write(Util.FontPath(dest, fontFilename, types[k]), ExpectedWrite(types[k], env))
      {
      }
    }
  }

  /** Each cached format is generated at most once per run, and only when
      it was not cached at the start. */
  lemma {:induction false} GeneratedAtMostOnce(types: seq<string>, dest: string, fontFilename: string,
                                               fonts: map<string, Font>, env: Env)
    requires Chain(fonts)
    ensures var r := RunWriters(types, dest, fontFilename, fonts, env);
      && (forall k :: 0 <= k < |r.ran| ==> r.ran[k] !in fonts)
      && (forall i, j :: 0 <= i < j < |r.ran| && r.ran[i] == r.ran[j] ==> r.ran[i] == "woff2")
    decreases |types|
  {
    if |types| > 0 {
      var f := GetFont(types[0], fonts, env);
      FetchRuns(types[0], fonts, env);
      if f.outcome.Delivered? {
        var rest := RunWriters(types[1..], dest, fontFilename, f.fonts, env);
        GeneratedAtMostOnce(types[1..], dest, fontFilename, f.fonts, env);
        assert rest == RunWriters(types[1..], dest, fontFilename, f.fonts, env);
        var r := RunWriters(types, dest, fontFilename, fonts, env);
        assert r.ran == f.ran + rest.ran;
        RanAppend(f.ran, rest.ran, f.fonts);
        forall k | 0 <= k < |r.ran| ensures r.ran[k] !in fonts {
          if k >= |f.ran| {
            assert r.ran[k] == rest.ran[k - |f.ran|];
          }
        }
      }
    }
  }

  /** Generators that ran before a later fetch, each once and cached when
      they cache, followed by that fetch's uncached ones, repeat only woff2. */
  lemma {:induction false} RanAppend(a: seq<string>, b: seq<string>, mid: map<string, Font>)
    requires forall k :: 0 <= k < |a| ==> HasGenerator(a[k]) && (Cached(a[k]) ==> a[k] in mid)
    requires forall i, j :: 0 <= i < j < |a| ==> a[i] != a[j]
    requires forall k :: 0 <= k < |b| ==> b[k] !in mid
    requires forall i, j :: 0 <= i < j < |b| && b[i] == b[j] ==> b[i] == "woff2"
    ensures forall i, j :: 0 <= i < j < |a + b| && (a + b)[i] == (a + b)[j] ==> (a + b)[i] == "woff2"
  {
    var ab := a + b;
    forall i, j | 0 <= i < j < |ab| && ab[i] == ab[j]
      ensures ab[i] == "woff2"
    {
      if j < |a| {
      } else if i < |a| {
        assert ab[i] == a[i] && ab[j] == b[j - |a|];
      } else {
        assert ab[i] == b[i - |a|] && ab[j] == b[j - |a|];
      }
    }
  }

  /** `typesToGenerate`: the requested types, then `ttf` when woff2 needs a
      ttf to convert from and none is requested. */
  function TypesToGenerate(types: seq<string>): (r: seq<string>)
    ensures |r| == |types| + (if "woff2" in types && "ttf" !in types then 1 else 0)
    ensures r[..|types|] == types
    ensures "woff2" in types ==> "ttf" in r
    ensures forall x :: x in r ==> x in types || x == "ttf"
  {
    if "woff2" in types && "ttf" !in types then types + ["ttf"] else types
  }

  /** No type is written twice unless it was requested twice. */
  lemma {:induction false} TypesToGenerateNoNewDuplicates(types: seq<string>)
    requires forall i, j :: 0 <= i < j < |types| ==> types[i] != types[j]
    ensures var r := TypesToGenerate(types);
      forall i, j :: 0 <= i < j < |r| ==> r[i] != r[j]
  {
  }

  /** A file whose SVG pass succeeded or failed. */
  datatype FileOutcome = Streamed(glyph: Glyph) | FileFailed(error: string)

  const SimplifyErrorPrefix: string := "Can’t simplify SVG file with SVGO.\n\n"
  const StreamErrorPrefix: string := "Can’t stream SVG file.\n\n"

  /** The glyphs when every file streamed. */
  function AllStreamed(outcomes: seq<FileOutcome>): (r: Option<seq<Glyph>>)
    ensures r.Some? <==> forall k :: 0 <= k < |outcomes| ==> outcomes[k].Streamed?
    ensures r.Some? ==> |r.value| == |outcomes| && forall k :: 0 <= k < |outcomes| ==> r.value[k] == outcomes[k].glyph
  {
    if |outcomes| == 0 then Some([])
    else
      var rest := AllStreamed(outcomes[1..]);
      assert forall k :: 1 <= k < |outcomes| ==> outcomes[k] == outcomes[1..][k - 1];
      if outcomes[0].Streamed? && rest.Some? then Some([outcomes[0].glyph] + rest.value) else None
  }

  /** The error of the first failed file. */
  function FirstError(outcomes: seq<FileOutcome>): (e: string)
    requires exists k :: 0 <= k < |outcomes| && outcomes[k].FileFailed?
    ensures exists k :: (0 <= k < |outcomes| && outcomes[k] == FileFailed(e)
      && forall i :: 0 <= i < k ==> outcomes[i].Streamed?)
  {
    if outcomes[0].FileFailed? then outcomes[0].error
    else
      var k :| 0 <= k < |outcomes| && outcomes[k].FileFailed?;
      assert outcomes[1..][k - 1].FileFailed?;
      var e := FirstError(outcomes[1..]);
      assert forall k :: 1 <= k < |outcomes| ==> outcomes[k] == outcomes[1..][k - 1];
      e
  }

  /** The error line each failing file logs in its `.catch`. */
  function FileErrorLogs(outcomes: seq<FileOutcome>): (r: seq<Log>)
    ensures |r| <= |outcomes|
    ensures forall k :: 0 <= k < |r| ==> r[k].level == Error
  {
    if |outcomes| == 0 then []
    else
      var head := if outcomes[0].FileFailed? then [Log(Error, SimplifyErrorPrefix + outcomes[0].error)] else [];
      head + FileErrorLogs(outcomes[1..])
  }

  /** The position of the first failing file, `|outcomes|` when every file streamed. */
  function FirstFailure(outcomes: seq<FileOutcome>): (i: nat)
    ensures i <= |outcomes|
    ensures forall j :: 0 <= j < i ==> outcomes[j].Streamed?
    ensures i < |outcomes| ==> outcomes[i].FileFailed?
  {
    if |outcomes| == 0 then 0
    else if outcomes[0].FileFailed? then 0
    else
      var i := FirstFailure(outcomes[1..]);
      assert forall j :: 1 <= j < |outcomes| ==> outcomes[j] == outcomes[1..][j - 1];
      1 + i
  }

  /** The reported error is the one at the first failing position. */
  lemma {:induction false} FirstErrorAt(outcomes: seq<FileOutcome>)
    requires exists k :: 0 <= k < |outcomes| && outcomes[k].FileFailed?
    ensures FirstFailure(outcomes) < |outcomes|
    ensures FirstError(outcomes) == outcomes[FirstFailure(outcomes)].error
  {
    var i := FirstFailure(outcomes);
    var e := FirstError(outcomes);
    var k :| 0 <= k < |outcomes| && outcomes[k] == FileFailed(e) && forall j :: 0 <= j < k ==> outcomes[j].Streamed?;
    assert outcomes[k].FileFailed?;
    assert k >= i;
    assert outcomes[i].FileFailed?;
    assert i >= k;
  }

  /** Up to and including the first failure, only that failure logs a line. */
  lemma {:induction false} LogsThroughFirstFailure(outcomes: seq<FileOutcome>, i: nat)
    requires i < |outcomes| && outcomes[i].FileFailed?
    requires forall j :: 0 <= j < i ==> outcomes[j].Streamed?
    ensures FileErrorLogs(outcomes[..i + 1]) == [Log(Error, SimplifyErrorPrefix + outcomes[i].error)]
    decreases i
  {
    var pre := outcomes[..i + 1];
    if i > 0 {
      LogsThroughFirstFailure(outcomes[1..], i - 1);
      assert pre[1..] == outcomes[1..][..i];
      assert pre[0].Streamed?;
    }
  }

  /** `async.map` over the files, completions taken in file order. When
      every file streamed: the stream list. Otherwise the final callback
      runs at the first failure, so its "Can’t stream" line follows that
      file's own line and precedes the lines of the files after it; no
      stream list is handed on. */
  function CollectStreams(outcomes: seq<FileOutcome>): (r: Result<seq<Glyph>, seq<Log>>)
    ensures r.Success? <==> forall k :: 0 <= k < |outcomes| ==> outcomes[k].Streamed?
    ensures r.Success? ==> |r.value| == |outcomes| && forall k :: 0 <= k < |outcomes| ==> r.value[k] == outcomes[k].glyph
    ensures r.Failure? ==> && |r.error| >= 2
                           && r.error[0] == Log(Error, SimplifyErrorPrefix + FirstError(outcomes))
                           && r.error[1] == Log(Error, StreamErrorPrefix + FirstError(outcomes))
                           && r.error[2..] == FileErrorLogs(outcomes[FirstFailure(outcomes) + 1..])
  {
    match AllStreamed(outcomes)
    case Some(gs) => Success(gs)
    case None =>
      FirstErrorAt(outcomes);
      var i := FirstFailure(outcomes);
      LogsThroughFirstFailure(outcomes, i);
      var e := outcomes[i].error;
      Failure([Log(Error, SimplifyErrorPrefix + e), Log(Error, StreamErrorPrefix + e)] + FileErrorLogs(outcomes[i + 1..]))
  }

  /** `files.indexOf(file)`: the first position of `x`, or `|xs|`. */
  function IndexOf(xs: seq<string>, x: string): (i: nat)
    ensures i <= |xs|
    ensures i < |xs| <==> x in xs
    ensures i < |xs| ==> xs[i] == x
    ensures forall j :: 0 <= j < i ==> xs[j] != x
  {
    if |xs| == 0 then 0 else if xs[0] == x then 0 else 1 + IndexOf(xs[1..], x)
  }

  /** The glyph name of the file at position k: the name at the file's first occurrence. */
  function GlyphNameAt(files: seq<string>, glyphs: seq<string>, k: nat): (name: string)
    requires k < |files| && |files| == |glyphs|
    ensures exists i :: (0 <= i <= k && files[i] == files[k] && name == glyphs[i]
      && forall j :: 0 <= j < i ==> files[j] != files[k])
  {
    glyphs[IndexOf(files, files[k])]
  }
}

=== FILE: node_dist.dfy ===
/** The compiled node engine, `tasks/engines/node.js`: the woff2 → ttf
    rule, glyph metadata from plain or SVGO-optimised files, and the run of
    the shared generator machine. */
module NodeDist {
  import opened Wrappers
  import opened Strings
  import opened Process
  import opened Fonts
  import Options
  import Util
  import Generators

  /** `typesToGenerate` as written: `o.types.indexOf('ttf' === -1)` looks
      up `false`, finds nothing and yields -1, which is truthy. */
  function TypesToGenerateAsWritten(types: seq<string>): (r: seq<string>)
    ensures |r| == |types| + (if "woff2" in types then 1 else 0)
    ensures r[..|types|] == types
    ensures "woff2" in types ==> r[|types|] == "ttf"
  {
    // `'ttf' === -1` compares a string with a number: `false`.
    var second := Options.JsIndexOf(types, Options.Bool(false));
    if Options.JsIndexOf(types, Options.Str("woff2")) != -1 && Options.Truthy(Options.Num(second))
    then types + ["ttf"] else types
  }

  /** With woff2 and ttf both requested, the as-written rule lists ttf
      twice, where the guard evidently meant "ttf is absent". */
  lemma {:induction false} TtfListedTwice()
    ensures TypesToGenerateAsWritten(["woff2", "ttf"]) == ["woff2", "ttf", "ttf"]
    ensures Generators.TypesToGenerate(["woff2", "ttf"]) == ["woff2", "ttf"]
  {
    assert "woff2" in ["woff2", "ttf"];
  }

  /** The rule the engine uses: ttf appended exactly when woff2 is requested
      without ttf, as in the Src copy. Both rules agree when ttf is absent. */
  lemma {:induction false} TypesRulesAgreeWithoutTtf(types: seq<string>)
    requires "ttf" !in types
    ensures TypesToGenerateAsWritten(types) == Generators.TypesToGenerate(types)
  {
  }

  /** `'\\u' + glyph.codepoint.toString().toUpperCase()` as written: one
      literal text, a backslash, `u` and the DECIMAL digits. */
  function GlyphUnicodeAsWritten(cp: int): (r: seq<Trigger>)
    ensures |r| == 1 && r[0].Text? && |r[0].s| >= 3
    ensures r[0].s[..2] == "\\u" && ParseInt(r[0].s[2..], 10) == cp
  {
    var digits := UpperAscii(IntToString(cp, 10));
    UpperDecimal(cp);
    IntRoundTrip(cp, 10);
    [Text("\\u" + digits)]
  }

  /** The as-written trigger is a several-character ligature, never the
      glyph's code point, which the stylesheet writes as `\<hex>`: for
      U+F101 the font maps the seven-character text `\u61697` instead. */
  lemma {:induction false} AsWrittenUnicodeMissesCodepoint(cp: int)
    ensures Char(cp) !in GlyphUnicodeAsWritten(cp)
    ensures forall c: char :: GlyphUnicodeAsWritten(cp)[0].s != [c]
    ensures GlyphUnicodeAsWritten(0xF101) == [Text("\\u61697")]
  {
    assert ToBase(6, 10) == "6";
    assert ToBase(61, 10) == ToBase(6, 10) + "1";
    assert ToBase(616, 10) == ToBase(61, 10) + "6";
    assert ToBase(6169, 10) == ToBase(616, 10) + "9";
    assert ToBase(61697, 10) == ToBase(6169, 10) + "7";
    assert IntToString(0xF101, 10) == "61697";
    UpperDecimal(0xF101);
    assert UpperAscii(IntToString(0xF101, 10)) == "61697";
    assert "\\u" + "61697" == "\\u61697";
  }

  /** The evidently intended metadata: the code point itself, so the font
      maps exactly the character the stylesheet's hex escape denotes. */
  function GlyphUnicode(cp: int): (r: seq<Trigger>)
    ensures |r| == 1 && r[0].Char?
    ensures cp >= 0 ==> r[0].cp == ParseInt(IntToString(cp, 16), 16)
  {
    IntRoundTrip(cp, 16);
    [Char(cp)]
  }

  /** The options the engine reads. `optimize` is compared with `=== true`. */
  datatype NodeOptions = NodeOptions(
    types: seq<string>, files: seq<string>, glyphs: seq<string>, codepoints: map<string, int>,
    dest: string, fontFilename: string, fontFamilyName: string, autoHint: bool, optimize: Options.JsValue)

  /** Every file has a glyph name and every glyph name a codepoint, as the
      task guarantees before it calls an engine. */
  predicate Prepared(o: NodeOptions) {
    && |o.files| == |o.glyphs|
    && forall k :: 0 <= k < |o.glyphs| ==> o.glyphs[k] in o.codepoints
  }

  /** Which reading of the engine runs: the code as written, or with the
      intended types rule and glyph metadata (`GlyphUnicode`,
      `Generators.TypesToGenerate`). */
  datatype Build = AsWritten | Intended

  /** The types the engine generates under each reading. */
  function TypesFor(b: Build, types: seq<string>): seq<string> {
    match b
    case AsWritten => TypesToGenerateAsWritten(types)
    case Intended => Generators.TypesToGenerate(types)
  }

  /** The glyph metadata under each reading. */
  function UnicodeFor(b: Build, cp: int): seq<Trigger> {
    match b
    case AsWritten => GlyphUnicodeAsWritten(cp)
    case Intended => GlyphUnicode(cp)
  }

  /** One file of `svgFilesToStreams`: `svgo` maps each file SVGO rejects
      to the rejection; without `optimize === true` the file is streamed as read. */
  function FileOutcomeAt(b: Build, o: NodeOptions, svgo: map<string, string>, k: nat): (r: Generators.FileOutcome)
    requires Prepared(o) && k < |o.files|
    ensures r.FileFailed? <==> o.optimize == Options.Bool(true) && o.files[k] in svgo
    ensures r.FileFailed? ==> r.error == svgo[o.files[k]]
    ensures r.Streamed? ==> (r.glyph.name == Generators.GlyphNameAt(o.files, o.glyphs, k)
      && r.glyph.unicode == UnicodeFor(b, o.codepoints[r.glyph.name])
      && r.glyph.outline == (if o.optimize == Options.Bool(true) then Simplified(o.files[k]) else Raw(o.files[k])))
    ensures r.Streamed? && b.AsWritten? ==> |r.glyph.unicode| == 1 && r.glyph.unicode[0].Text?
  {
    var name := Generators.GlyphNameAt(o.files, o.glyphs, k);
    assert name in o.glyphs;
    var meta := UnicodeFor(b, o.codepoints[name]);
    if o.optimize == Options.Bool(true) then
      if o.files[k] in svgo then Generators.FileFailed(svgo[o.files[k]])
      else Generators.Streamed(Glyph(name, meta, Simplified(o.files[k])))
    else Generators.Streamed(Glyph(name, meta, Raw(o.files[k])))
  }

  /** The glyph batch: every file's glyph in file order, or, when SVGO
      rejects any file, the failure lines and no glyphs at all. */
  function LoadGlyphs(b: Build, o: NodeOptions, svgo: map<string, string>): (r: Result<seq<Glyph>, seq<Log>>)
    requires Prepared(o)
    ensures r.Success? <==> o.optimize != Options.Bool(true) || forall k :: 0 <= k < |o.files| ==> o.files[k] !in svgo
    ensures r.Success? ==> |r.value| == |o.files|
    ensures r.Success? ==> forall k :: 0 <= k < |o.files| ==>
      && r.value[k].name == Generators.GlyphNameAt(o.files, o.glyphs, k)
      && r.value[k].name in o.codepoints
      && r.value[k].unicode == UnicodeFor(b, o.codepoints[r.value[k].name])
  {
    var outcomes := seq(|o.files|, k requires 0 <= k < |o.files| => FileOutcomeAt(b, o, svgo, k));
    assert forall k :: 0 <= k < |o.files| ==> outcomes[k] == FileOutcomeAt(b, o, svgo, k);
    var res := Generators.CollectStreams(outcomes);
    assert res.Failure? ==> o.optimize == Options.Bool(true) && exists k :: 0 <= k < |o.files| && o.files[k] in svgo;
    assert res.Success? ==> forall k :: 0 <= k < |o.files| ==>
      FileOutcomeAt(b, o, svgo, k).Streamed? && res.value[k] == FileOutcomeAt(b, o, svgo, k).glyph
      && res.value[k].name == Generators.GlyphNameAt(o.files, o.glyphs, k)
      && res.value[k].name in o.codepoints
      && res.value[k].unicode == UnicodeFor(b, o.codepoints[res.value[k].name]);
    assert res.Success? && o.optimize == Options.Bool(true) ==> forall k :: 0 <= k < |o.files| ==> o.files[k] !in svgo by {
      if res.Success? && o.optimize == Options.Bool(true) {
        forall k | 0 <= k < |o.files| ensures o.files[k] !in svgo {
          var fo := FileOutcomeAt(b, o, svgo, k);
          assert fo.Streamed?;
          assert !fo.FileFailed?;
        }
      }
    }
    res
  }

  /** `nodeEngine(o, allDone)`: `hint` is ttfautohint's `exec` error, if any. */
  function Engine(b: Build, o: NodeOptions, svgo: map<string, string>, hint: Option<ExecError>): (r: Generators.Run)
    requires Prepared(o)
  {
    var env := Generators.Env(LoadGlyphs(b, o, svgo), o.fontFamilyName, o.autoHint, hint);
    Generators.RunWriters(TypesFor(b, o.types), o.dest, o.fontFilename, map[], env)
  }

  /** Every type either reading generates has a generator. */
  lemma {:induction false} TypesForKnown(b: Build, types: seq<string>)
    requires forall k :: 0 <= k < |types| ==> Generators.HasGenerator(types[k])
    ensures var ts := TypesFor(b, types);
      |types| <= |ts| && ts[..|types|] == types
      && forall k :: 0 <= k < |ts| ==> Generators.HasGenerator(ts[k])
  {
    var ts := TypesFor(b, types);
    forall k | 0 <= k < |ts| ensures Generators.HasGenerator(ts[k]) {
      if k < |types| {
        assert ts[k] == ts[..|types|][k];
      } else {
        assert ts[k] == "ttf";
      }
    }
  }

  /** The engine writes each type to generate once, in order, with the font
      the generator chain computes; as written the list is `types` plus
      ttf whenever woff2 is requested. An SVGO rejection stops it with
      `allDone(false)` before the first write that needs the glyphs, and
      then no font holds a partial glyph list. */
  lemma {:induction false} EngineWrites(b: Build, o: NodeOptions, svgo: map<string, string>, hint: Option<ExecError>)
    requires Prepared(o)
    requires forall k :: 0 <= k < |o.types| ==> Generators.HasGenerator(o.types[k])
    ensures var r := Engine(b, o, svgo, hint);
      var types := TypesFor(b, o.types);
      var env := Generators.Env(LoadGlyphs(b, o, svgo), o.fontFamilyName, o.autoHint, hint);
      && !r.end.Threw?
      && (b.AsWritten? ==> |types| == |o.types| + (if "woff2" in o.types then 1 else 0))
      && (env.glyphs.Success? ==> (r.end.Finished? && |r.writes| == |types|
            && forall k :: 0 <= k < |types| ==> Generators.HasGenerator(types[k]) && r.writes[k] == Generators.Write(
                 Util.FontPath(o.dest, o.fontFilename, types[k]), Generators.ExpectedWrite(types[k], env))))
      && (env.glyphs.Failure? ==> r.fonts == map[] && ((exists k :: 0 <= k < |types| && types[k] != "woff2") ==> r.end.Stopped?))
  {
    var types := TypesFor(b, o.types);
    var env := Generators.Env(LoadGlyphs(b, o, svgo), o.fontFamilyName, o.autoHint, hint);
    TypesForKnown(b, o.types);
    Generators.RunAll(types, o.dest, o.fontFilename, env);
  }

  /** For `types: ['woff2', 'ttf']` the engine as written writes the ttf
      file twice with the same font; the intended one writes it once. */
  lemma {:induction false} TtfWrittenTwice(o: NodeOptions, svgo: map<string, string>, hint: Option<ExecError>)
    requires Prepared(o) && o.types == ["woff2", "ttf"]
    requires LoadGlyphs(AsWritten, o, svgo).Success?
    ensures var r := Engine(AsWritten, o, svgo, hint);
      |r.writes| == 3 && r.writes[1] == r.writes[2]
      && r.writes[2].path == Util.FontPath(o.dest, o.fontFilename, "ttf")
    ensures |Engine(Intended, o, svgo, hint).writes| == 2
  {
    TtfListedTwice();
    assert Generators.HasGenerator(o.types[0]) && Generators.HasGenerator(o.types[1]);
    EngineWrites(AsWritten, o, svgo, hint);
    EngineWrites(Intended, o, svgo, hint);
  }
}

=== FILE: node_src.dfy ===
/** The Src node engine, `src/tasks/engines/node.js`: the woff2 → ttf
    rule, ligature-aware glyph metadata, every file through path-that-svg,
    and the run of the shared generator machine. */
module NodeSrc {
  import opened Wrappers
  import opened Strings
  import opened Process
  import opened Fonts
  import Options
  import Util
  import Generators

  /** `o.types.indexOf('woff2') !== -1 && o.types.indexOf('ttf') === -1`. */
  function TypesToGenerate(types: seq<string>): seq<string> {
    if Options.JsIndexOf(types, Options.Str("woff2")) != -1 && Options.JsIndexOf(types, Options.Str("ttf")) == -1
    then types + ["ttf"] else types
  }

  /** The guard is the shared rule: ttf is added exactly when woff2 is
      requested and ttf is not. */
  lemma {:induction false} TypesToGenerateRule(types: seq<string>)
    ensures TypesToGenerate(types) == Generators.TypesToGenerate(types)
    ensures var r := TypesToGenerate(types);
      && ("woff2" in types ==> "ttf" in r)
      && (r != types <==> "woff2" in types && "ttf" !in types)
  {
    var r := TypesToGenerate(types);
    if "woff2" in types {
      var i :| 0 <= i < |types| && types[i] == "woff2";
      assert Options.Str("woff2") == Options.Str(types[i]);
    }
    if "ttf" in types {
      var i :| 0 <= i < |types| && types[i] == "ttf";
      assert Options.Str("ttf") == Options.Str(types[i]);
    }
    if r != types {
      assert |r| == |types| + 1;
    }
  }

  /** `stream.metadata.unicode`: the character, the glyph name as a
      ligature, or both; `ligaturesOnly` wins over `addLigatures`. */
  function GlyphUnicode(cp: int, name: string, ligaturesOnly: bool, addLigatures: bool): (r: seq<Trigger>)
    ensures 1 <= |r| <= 2
    ensures Char(cp) in r <==> !ligaturesOnly
    ensures Text(name) in r <==> ligaturesOnly || addLigatures
    ensures forall k :: 0 <= k < |r| ==> r[k] == Char(cp) || r[k] == Text(name)
    ensures !ligaturesOnly ==> r[0] == Char(cp)
  {
    var unicode := [Char(cp)];
    if ligaturesOnly then [Text(name)]
    else if addLigatures then unicode + [Text(name)]
    else unicode
  }

  /** The message of the `RangeError` `String.fromCodePoint` throws. */
  function InvalidCodePoint(cp: int): string {
    "RangeError: Invalid code point " + IntToString(cp, 10)
  }

  datatype NodeOptions = NodeOptions(
    types: seq<string>, files: seq<string>, glyphs: seq<string>, codepoints: map<string, int>,
    dest: string, fontFilename: string, fontFamilyName: string, autoHint: bool,
    ligaturesOnly: bool, addLigatures: bool)

  /** Every file has a glyph name and every glyph name a codepoint. */
  predicate Prepared(o: NodeOptions) {
    && |o.files| == |o.glyphs|
    && forall k :: 0 <= k < |o.glyphs| ==> o.glyphs[k] in o.codepoints
  }

  function CodepointAt(o: NodeOptions, k: nat): int
    requires Prepared(o) && k < |o.files|
  {
    var name := Generators.GlyphNameAt(o.files, o.glyphs, k);
    assert name in o.glyphs;
    o.codepoints[name]
  }

  /** One file: `rejects` maps each file path-that-svg rejects to the
      rejection. A code point `fromCodePoint` refuses throws inside the
      `.then`, so the `.catch` reports it like a rejection. */
  function FileOutcomeAt(o: NodeOptions, rejects: map<string, string>, k: nat): (r: Generators.FileOutcome)
    requires Prepared(o) && k < |o.files|
    ensures r.FileFailed? <==> o.files[k] in rejects || !ValidCodePoint(CodepointAt(o, k))
    ensures r.Streamed? ==> (r.glyph.name == Generators.GlyphNameAt(o.files, o.glyphs, k)
      && r.glyph.outline == Simplified(o.files[k])
      && r.glyph.unicode == GlyphUnicode(CodepointAt(o, k), r.glyph.name, o.ligaturesOnly, o.addLigatures))
  {
    var name := Generators.GlyphNameAt(o.files, o.glyphs, k);
    var cp := CodepointAt(o, k);
    if o.files[k] in rejects then Generators.FileFailed(rejects[o.files[k]])
    else if !ValidCodePoint(cp) then Generators.FileFailed(InvalidCodePoint(cp))
    else Generators.Streamed(Glyph(name, GlyphUnicode(cp, name, o.ligaturesOnly, o.addLigatures), Simplified(o.files[k])))
  }

  /** The glyph batch: all glyphs in file order, or no stream list at all
      as soon as one file is rejected or has an invalid code point. */
  function LoadGlyphs(o: NodeOptions, rejects: map<string, string>): (r: Result<seq<Glyph>, seq<Log>>)
    requires Prepared(o)
    ensures r.Success? <==> forall k :: 0 <= k < |o.files| ==> o.files[k] !in rejects && ValidCodePoint(CodepointAt(o, k))
    ensures r.Success? ==> |r.value| == |o.files|
    ensures r.Success? ==> forall k :: 0 <= k < |o.files| ==>
      r.value[k].name == Generators.GlyphNameAt(o.files, o.glyphs, k) && r.value[k].outline == Simplified(o.files[k])
      && r.value[k].unicode == GlyphUnicode(CodepointAt(o, k), r.value[k].name, o.ligaturesOnly, o.addLigatures)
  {
    var outcomes := seq(|o.files|, k requires 0 <= k < |o.files| => FileOutcomeAt(o, rejects, k));
    assert forall k :: 0 <= k < |o.files| ==> outcomes[k] == FileOutcomeAt(o, rejects, k);
    var res := Generators.CollectStreams(outcomes);
    assert res.Success? ==> forall k :: 0 <= k < |o.files| ==> o.files[k] !in rejects && ValidCodePoint(CodepointAt(o, k)) by {
      if res.Success? {
        forall k | 0 <= k < |o.files| ensures o.files[k] !in rejects && ValidCodePoint(CodepointAt(o, k)) {
          var fo := FileOutcomeAt(o, rejects, k);
          assert fo.Streamed?;
          assert !fo.FileFailed?;
        }
      }
    }
    assert res.Failure? ==> exists k :: 0 <= k < |o.files| && outcomes[k].FileFailed?;
    assert res.Success? ==> forall k :: 0 <= k < |o.files| ==>
      FileOutcomeAt(o, rejects, k).Streamed? && res.value[k] == FileOutcomeAt(o, rejects, k).glyph;
    res
  }

  /** `nodeEngine(o, allDone)`: `hint` is ttfautohint's `exec` error, if any. */
  function Engine(o: NodeOptions, rejects: map<string, string>, hint: Option<ExecError>): (r: Generators.Run)
    requires Prepared(o)
  {
    var env := Generators.Env(LoadGlyphs(o, rejects), o.fontFamilyName, o.autoHint, hint);
    Generators.RunWriters(TypesToGenerate(o.types), o.dest, o.fontFilename, map[], env)
  }

  /** The engine writes each type to generate once, in order, with the font
      the generator chain computes; a rejected file or invalid code point
      stops it with `allDone(false)` before the first write that needs the
      glyphs, and then no font holds a partial glyph list. */
  lemma {:induction false} EngineWrites(o: NodeOptions, rejects: map<string, string>, hint: Option<ExecError>)
    requires Prepared(o)
    requires forall k :: 0 <= k < |o.types| ==> Generators.HasGenerator(o.types[k])
    ensures var r := Engine(o, rejects, hint);
      var types := TypesToGenerate(o.types);
      var env := Generators.Env(LoadGlyphs(o, rejects), o.fontFamilyName, o.autoHint, hint);
      && !r.end.Threw?
      && (env.glyphs.Success? ==> (r.end.Finished? && |r.writes| == |types|
            && forall k :: 0 <= k < |types| ==> Generators.HasGenerator(types[k]) && r.writes[k] == Generators.Write(
                 Util.FontPath(o.dest, o.fontFilename, types[k]), Generators.ExpectedWrite(types[k], env))))
      && (env.glyphs.Failure? ==> r.fonts == map[] && ((exists k :: 0 <= k < |types| && types[k] != "woff2") ==> r.end.Stopped?))
  {
    var types := TypesToGenerate(o.types);
    TypesToGenerateRule(o.types);
    var env := Generators.Env(LoadGlyphs(o, rejects), o.fontFamilyName, o.autoHint, hint);
    assert forall k :: 0 <= k < |types| ==> Generators.HasGenerator(types[k]) by {
      forall k | 0 <= k < |types| ensures Generators.HasGenerator(types[k]) {
        if k < |o.types| {
          assert types[k] == o.types[k];
        } else {
          assert types[k] in types;
        }
      }
    }
    Generators.RunAll(types, o.dest, o.fontFilename, env);
  }
}

=== FILE: options.dfy ===
/** The option helpers of `tasks/webfonts.js`: `optionToArray`, `option`,
    `normalizePath`, the `{key}` `template` substitution, `classNameize`
    and the defaults they feed. */
module Options {
  import opened Wrappers
  import opened Strings
  import Util
  import UtilSrc

  /** The JavaScript values an option can hold, as far as the helpers look at them. */
  datatype JsValue = Undefined | Null | Bool(b: bool) | Num(n: int) | Str(s: string) | Arr(items: seq<string>)

  /** JavaScript truthiness. */
  predicate Truthy(v: JsValue) {
    match v
    case Undefined => false
    case Null => false
    case Bool(b) => b
    case Num(n) => n != 0
    case Str(s) => s != ""
    case Arr(_) => true
  }

  /** The pieces of a comma-separated option, each trimmed. */
  function SplitTrim(s: string): (r: seq<string>)
    ensures |r| == |Split(s, ',')|
    ensures forall k :: 0 <= k < |r| ==> r[k] == Trim(Split(s, ',')[k])
  {
    var pieces := Split(s, ',');
    seq(|pieces|, i requires 0 <= i < |pieces| => Trim(pieces[i]))
  }

  /** `Array.prototype.indexOf` with strict equality: -1 when absent. */
  function JsIndexOf(xs: seq<string>, v: JsValue): (i: int)
    ensures -1 <= i < |xs|
    ensures i == -1 <==> forall k :: 0 <= k < |xs| ==> v != Str(xs[k])
    ensures i >= 0 ==> v == Str(xs[i]) && forall k :: 0 <= k < i ==> v != Str(xs[k])
  {
    if |xs| == 0 then -1
    else if v == Str(xs[0]) then 0
    else
      var i := JsIndexOf(xs[1..], v);
      assert forall k :: 1 <= k < |xs| ==> xs[k] == xs[1..][k - 1];
      if i == -1 then -1 else i + 1
  }

  /** `ps` cuts `s` at every comma: joined back with commas they give `s`. */
  predicate CommaPieces(ps: seq<string>, s: string) {
    Join(ps, ",") == s && forall k :: 0 <= k < |ps| ==> ',' !in ps[k]
  }

  /** `optionToArray(val, defVal)`. A string becomes its comma-separated
      pieces, each trimmed. */
  function OptionToArray(val: JsValue, defVal: JsValue): (r: JsValue)
    ensures var v := if val.Undefined? then defVal else val;
      && (!Truthy(v) ==> r == Arr([]))
      && (Truthy(v) && !v.Str? ==> r == v)
      && (Truthy(v) && v.Str? ==>
            r.Arr? && |r.items| >= 1
            && (forall k :: 0 <= k < |r.items| ==> Trimmed(r.items[k]) && ',' !in r.items[k])
            && exists ps :: CommaPieces(ps, v.s) && |ps| == |r.items|
                 && forall k :: 0 <= k < |ps| ==> r.items[k] == Trim(ps[k]))
  {
    var v := if val.Undefined? then defVal else val;
    if !Truthy(v) then Arr([])
    else if !v.Str? then v
    else
      var r := SplitTrim(v.s);
      SplitTrimSpec(v.s);
      var ps := Split(v.s, ',');
      JoinSplit(v.s, ',');
      SplitPiecesFree(v.s, ',');
      assert CommaPieces(ps, v.s);
      Arr(r)
  }

  /** The comma pieces of a string are unique: they are its split. */
  lemma {:induction false} CommaPiecesUnique(ps: seq<string>, s: string)
    requires |ps| >= 1 && CommaPieces(ps, s)
    ensures ps == Split(s, ',')
  {
    SplitJoin(ps, ',');
  }

  lemma {:induction false} SplitTrimSpec(s: string)
    ensures forall k :: 0 <= k < |SplitTrim(s)| ==> Trimmed(SplitTrim(s)[k]) && ',' !in SplitTrim(s)[k]
  {
    var pieces := Split(s, ',');
    SplitPiecesFree(s, ',');
    forall k | 0 <= k < |pieces|
      ensures Trimmed(SplitTrim(s)[k]) && ',' !in SplitTrim(s)[k]
    {
      var i, j := TrimSpec(pieces[k]);
      assert SplitTrim(s)[k] == pieces[k][i..j];
    }
  }

  /** A comma-joined list of trimmed, comma-free names comes back as that list. */
  lemma {:induction false} OptionToArrayRoundTrip(xs: seq<string>, defVal: JsValue)
    requires |xs| >= 1 && Join(xs, ",") != ""
    requires forall k :: 0 <= k < |xs| ==> Trimmed(xs[k]) && ',' !in xs[k]
    ensures OptionToArray(Str(Join(xs, ",")), defVal) == Arr(xs)
  {
    SplitJoin(xs, ',');
    forall k | 0 <= k < |xs|
      ensures Trim(xs[k]) == xs[k]
    {
      TrimOfTrimmed(xs[k]);
    }
  }

  /** `option(map, key)`: the entry for `key`, or the `_default` entry. */
  function Pick<V>(m: map<string, V>, key: string): (r: Option<V>)
    ensures key in m ==> r == Some(m[key])
    ensures key !in m ==> r == (if "_default" in m then Some(m["_default"]) else None)
  {
    var k := if key in m then key else "_default";
    if k in m then Some(m[k]) else None
  }

  /** CSS file prefix: `_` exactly for sass and scss, empty otherwise; both copies agree. */
  lemma {:induction false} CssPrefixRule(stylesheet: string)
    ensures Pick(Util.CssFilePrefixes, stylesheet) == Pick(UtilSrc.CssFilePrefixes, stylesheet)
    ensures Pick(Util.CssFilePrefixes, stylesheet)
      == Some(if stylesheet == "sass" || stylesheet == "scss" then "_" else "")
  {
  }

  /** Source separator: `, ` exactly for styl, a line break and two tabs otherwise; both copies agree. */
  lemma {:induction false} SeparatorRule(stylesheet: string)
    ensures Pick(Util.FontSrcSeparators, stylesheet) == Pick(UtilSrc.FontSrcSeparators, stylesheet)
    ensures Pick(Util.FontSrcSeparators, stylesheet)
      == Some(if stylesheet == "styl" then ", " else ",\n\t\t")
  {
  }

  predicate EndsWithSlash(s: string) {
    |s| > 0 && s[|s| - 1] == '/'
  }

  /** `normalizePath`: forward slashes only, and a trailing slash. */
  function NormalizePath(p: string): (r: string)
    ensures p == "" <==> r == ""
    ensures p != "" ==> '\\' !in r && EndsWithSlash(r)
    ensures |p| <= |r| <= |p| + 1
    ensures p != "" ==> (|r| == |p| <==> p[|p| - 1] == '/' || p[|p| - 1] == '\\')
    ensures forall i :: 0 <= i < |p| ==> r[i] == (if p[i] == '\\' then '/' else p[i])
  {
    if |p| == 0 then p
    else
      var q := ReplaceChar(p, '\\', '/');
      if EndsWithSlash(q) then q else q + "/"
  }

  /** Normalising twice is normalising once. */
  lemma {:induction false} NormalizePathIdempotent(p: string)
    ensures NormalizePath(NormalizePath(p)) == NormalizePath(p)
  {
    var r := NormalizePath(p);
    if r != "" {
      assert ReplaceChar(r, '\\', '/') == r;
    }
  }

  /** A `{key}` with no entry in the context becomes the text `undefined`. */
  function Lookup(ctx: map<string, string>, key: string): string {
    if key in ctx then ctx[key] else "undefined"
  }

  /** `template(tmpl, context)`: `tmpl.replace(/{([^}]+)}/g, …)`. At a `{`
      the key runs to the first `}` and must be non-empty; otherwise the
      `{` is kept and the scan moves on by one character. */
  function Template(t: string, ctx: map<string, string>): string
    decreases |t|
  {
    if |t| == 0 then ""
    else if t[0] == '{' then
      var k := FindChar(t[1..], '}');
      if 0 < k < |t| - 1 then Lookup(ctx, t[1..k + 1]) + Template(t[k + 2..], ctx)
      else [t[0]] + Template(t[1..], ctx)
    else [t[0]] + Template(t[1..], ctx)
  }

  /** Text before the first `{` passes through unchanged. */
  lemma {:induction false} TemplateLiteralPrefix(a: string, b: string, ctx: map<string, string>)
    requires '{' !in a
    ensures Template(a + b, ctx) == a + Template(b, ctx)
    decreases |a|
  {
    if |a| > 0 {
      assert (a + b)[1..] == a[1..] + b;
      TemplateLiteralPrefix(a[1..], b, ctx);
    } else {
      assert a + b == b;
    }
  }

  /** A string without `{` is returned unchanged. */
  lemma {:induction false} TemplateWithoutPlaceholders(t: string, ctx: map<string, string>)
    requires '{' !in t
    ensures Template(t, ctx) == t
  {
    TemplateLiteralPrefix(t, "", ctx);
    assert t + "" == t;
  }

  /** A `{key}` is replaced by the key's value. */
  lemma {:induction false} TemplatePlaceholder(key: string, rest: string, ctx: map<string, string>)
    requires key != "" && '}' !in key
    ensures Template("{" + key + "}" + rest, ctx) == Lookup(ctx, key) + Template(rest, ctx)
  {
    var t := "{" + key + "}" + rest;
    assert t[1..] == key + "}" + rest;
    FindCharPast(key, '}', rest);
    assert t[1..|key| + 1] == key;
    assert t[|key| + 2..] == rest;
  }

  /** A literal followed by one placeholder. */
  lemma {:induction false} TemplateAfterLiteral(lit: string, key: string, ctx: map<string, string>)
    requires '{' !in lit && key != "" && '}' !in key
    ensures Template(lit + ("{" + key + "}"), ctx) == lit + Lookup(ctx, key)
  {
    var p := "{" + key + "}";
    assert p + "" == p;
    TemplateLiteralPrefix(lit, p, ctx);
    TemplatePlaceholder(key, "", ctx);
    assert Lookup(ctx, key) + "" == Lookup(ctx, key);
  }

  /** A template written as literals and `{key}` placeholders. */
  datatype Piece = Piece(lit: string, key: string)

  predicate WellFormedPieces(ps: seq<Piece>) {
    forall k :: 0 <= k < |ps| ==> '{' !in ps[k].lit && ps[k].key != "" && '}' !in ps[k].key
  }

  function Render(ps: seq<Piece>, tail: string): string {
    if |ps| == 0 then tail else ps[0].lit + "{" + ps[0].key + "}" + Render(ps[1..], tail)
  }

  function Fill(ps: seq<Piece>, tail: string, ctx: map<string, string>): string {
    if |ps| == 0 then tail else ps[0].lit + Lookup(ctx, ps[0].key) + Fill(ps[1..], tail, ctx)
  }

  /** Every placeholder of a template is replaced by its value, and the
      literal text around them is kept. */
  lemma {:induction false} TemplateFillsEveryPlaceholder(ps: seq<Piece>, tail: string, ctx: map<string, string>)
    requires WellFormedPieces(ps) && '{' !in tail
    ensures Template(Render(ps, tail), ctx) == Fill(ps, tail, ctx)
  {
    if |ps| == 0 {
      TemplateWithoutPlaceholders(tail, ctx);
    } else {
      var p := ps[0];
      var rest := Render(ps[1..], tail);
      assert Render(ps, tail) == p.lit + ("{" + p.key + "}" + rest);
      TemplateLiteralPrefix(p.lit, "{" + p.key + "}" + rest, ctx);
      TemplatePlaceholder(p.key, rest, ctx);
      TemplateFillsEveryPlaceholder(ps[1..], tail, ctx);
    }
  }

  /** Replace every maximal run of whitespace by one `-`. */
  function Dashify(s: string): (r: string)
    ensures NoSpace(r)
    decreases |s|
  {
    if |s| == 0 then ""
    else if IsSpace(s[0]) then "-" + Dashify(s[LeadingSpaces(s)..])
    else [s[0]] + Dashify(s[1..])
  }

  /** `classNameize`: trim, then each whitespace run becomes `-`; the
      result is the input's words joined by `-`. */
  function ClassNameize(s: string): (r: string)
    ensures NoSpace(r)
    ensures r == Join(Words(s), "-")
  {
    DashifyTrimmedWords(s);
    Dashify(Trim(s))
  }

  /** Dashifying a word keeps it and goes on with the rest. */
  lemma {:induction false} DashifyPrefix(w: string, rest: string)
    requires NoSpace(w)
    ensures Dashify(w + rest) == w + Dashify(rest)
    decreases |w|
  {
    if |w| == 0 {
      assert w + rest == rest;
    } else {
      assert (w + rest)[1..] == w[1..] + rest;
      DashifyPrefix(w[1..], rest);
      assert w == [w[0]] + w[1..];
    }
  }

  /** Without trailing whitespace, dashifying joins the words by `-`, after
      one `-` for leading whitespace. */
  lemma {:induction false} DashifyWords(s: string)
    requires |s| == 0 || !IsSpace(s[|s| - 1])
    ensures Dashify(s) == (if |s| > 0 && IsSpace(s[0]) then "-" else "") + Join(Words(s), "-")
    decreases |s|, 1
  {
    if |s| > 0 && IsSpace(s[0]) {
      DashifyWordsSpace(s);
    } else if |s| > 0 {
      DashifyWordsWord(s);
    }
  }

  /** Leading whitespace: one `-`, then the rest's words. */
  lemma {:induction false} DashifyWordsSpace(s: string)
    requires |s| > 0 && IsSpace(s[0]) && !IsSpace(s[|s| - 1])
    ensures Dashify(s) == "-" + Join(Words(s), "-")
    decreases |s|, 0
  {
    var t := s[LeadingSpaces(s)..];
    assert Dashify(s) == "-" + Dashify(t);
    SkipSpaces(s);
    if |t| > 0 {
      DashifyWords(t);
    }
  }

  /** Past the leading whitespace: the same words, and a start that is not whitespace. */
  lemma {:induction false} SkipSpaces(s: string)
    ensures var t := s[LeadingSpaces(s)..];
      && Words(t) == Words(s)
      && (|t| > 0 ==> !IsSpace(t[0]) && t[|t| - 1] == s[|s| - 1])
  {
    var l := LeadingSpaces(s);
    LeadingSpacesSpec(s);
    assert s == s[..l] + s[l..];
    WordsSpacesBefore(s[..l], s[l..]);
  }

  /** A leading word: the word, then `-` and the remaining words if any. */
  lemma {:induction false} DashifyWordsWord(s: string)
    requires |s| > 0 && !IsSpace(s[0]) && !IsSpace(s[|s| - 1])
    ensures Dashify(s) == Join(Words(s), "-")
    decreases |s|, 0
  {
    var k := WordLength(s);
    var w, rest := s[..k], s[k..];
    assert s == w + rest;
    DashifyPrefix(w, rest);
    assert Words(s) == [w] + Words(rest);
    if |rest| > 0 {
      DashifyWordsSpace(rest);
      WordsNonEmpty(rest);
      JoinCons(w, Words(rest), "-");
    }
  }

  lemma {:induction false} JoinCons(x: string, xs: seq<string>, sep: string)
    requires |xs| > 0
    ensures Join([x] + xs, sep) == x + sep + Join(xs, sep)
  {
    assert ([x] + xs)[1..] == xs;
  }

  lemma {:induction false} DashifyTrimmedWords(s: string)
    ensures Dashify(Trim(s)) == Join(Words(s), "-")
  {
    var _, _ := TrimSpec(s);
    DashifyWords(Trim(s));
    WordsOfTrim(s);
  }

  /** Words separated by single spaces become the words separated by `-`. */
  lemma {:induction false} ClassNameizeJoin(ws: seq<string>)
    requires forall k :: 0 <= k < |ws| ==> ws[k] != "" && NoSpace(ws[k])
    ensures ClassNameize(Join(ws, " ")) == Join(ws, "-")
  {
    WordsOfJoin(ws);
  }

  lemma {:induction false} DashifyNoSpace(s: string)
    requires NoSpace(s)
    ensures Dashify(s) == s
  {
    if |s| > 0 {
      DashifyNoSpace(s[1..]);
    }
  }

  /** A name without whitespace is already a class name; hence classNameize is idempotent. */
  lemma {:induction false} ClassNameizeIdempotent(s: string)
    ensures NoSpace(s) ==> ClassNameize(s) == s
    ensures ClassNameize(ClassNameize(s)) == ClassNameize(s)
  {
    forall t | NoSpace(t)
      ensures ClassNameize(t) == t
    {
      TrimOfTrimmed(t);
      DashifyNoSpace(t);
    }
  }

  /** `options.startCodepoint || UNICODE_PUA_START`: zero or absent selects the default. */
  function StartCodepoint(start: Option<int>): (r: int)
    ensures r != 0
    ensures start.Some? && start.value != 0 ==> r == start.value
    ensures start.None? || start.value == 0 ==> r == Util.UnicodePuaStart
  {
    if start.Some? && start.value != 0 then start.value else Util.UnicodePuaStart
  }

  /** `options.hashes !== false`: cache-busting hashes are on unless the
      option is exactly `false`. */
  function AddHashes(hashes: JsValue): (r: bool)
    ensures !r <==> hashes == Bool(false)
  {
    match hashes
    case Bool(b) => b
    case _ => true
  }

  /** Hashes are on by default, and also for falsy values other than `false`. */
  lemma {:induction false} HashesOnByDefault()
    ensures AddHashes(Undefined) && AddHashes(Null) && AddHashes(Num(0)) && AddHashes(Str(""))
    ensures !AddHashes(Bool(false))
  {
  }

  /** `types`, `order` and `embed` as resolved from the raw options. */
  function Types(raw: JsValue): JsValue {
    OptionToArray(raw, Str("eot,woff,ttf"))
  }

  function Order(raw: JsValue): JsValue {
    OptionToArray(raw, Str(Util.FontFormats))
  }

  function Embed(raw: JsValue): JsValue {
    if raw == Bool(true) then Arr(["woff"]) else OptionToArray(raw, Bool(false))
  }

  lemma {:induction false} TypesSplit()
    ensures Split("eot,woff,ttf", ',') == ["eot", "woff", "ttf"]
  {
    var t := ["eot", "woff", "ttf"];
    assert Join(t, ",") == "eot,woff,ttf";
    SplitJoin(t, ',');
  }

  lemma {:induction false} TypesPlain()
    ensures var t := ["eot", "woff", "ttf"];
      forall k :: 0 <= k < |t| ==> Trimmed(t[k])
  {
    var t := ["eot", "woff", "ttf"];
    forall k | 0 <= k < |t| ensures Trimmed(t[k]) {
      assert t[k][0] in "ewt" && t[k][|t[k]| - 1] in "tf";
    }
  }

  lemma {:induction false} DefaultTypes()
    ensures Types(Undefined) == Arr(["eot", "woff", "ttf"])
  {
    TypesSplit();
    TypesPlain();
    SplitTrimOfPlain("eot,woff,ttf", ["eot", "woff", "ttf"]);
    assert |"eot,woff,ttf"| > 0;
  }

  /** Splitting text whose pieces are already trimmed trims nothing. */
  lemma {:induction false} SplitTrimOfPlain(s: string, xs: seq<string>)
    requires Split(s, ',') == xs
    requires forall k :: 0 <= k < |xs| ==> Trimmed(xs[k])
    ensures SplitTrim(s) == xs
  {
    forall k | 0 <= k < |xs| ensures SplitTrim(s)[k] == xs[k] {
      TrimOfTrimmed(xs[k]);
    }
  }

  lemma {:induction false} FormatsPlain()
    ensures var o := ["eot", "woff2", "woff", "ttf", "svg"];
      forall k :: 0 <= k < |o| ==> Trimmed(o[k]) && ',' !in o[k]
  {
    var o := ["eot", "woff2", "woff", "ttf", "svg"];
    forall k | 0 <= k < |o| ensures Trimmed(o[k]) && ',' !in o[k] {
      assert o[k][0] in "ewts" && o[k][|o[k]| - 1] in "2ftg";
    }
  }

  lemma {:induction false} DefaultOrder()
    ensures Order(Undefined) == Arr(["eot", "woff2", "woff", "ttf", "svg"])
  {
    Util.DefaultOrder();
    FormatsPlain();
    SplitTrimOfPlain(Util.FontFormats, ["eot", "woff2", "woff", "ttf", "svg"]);
    assert |Util.FontFormats| > 0;
  }

  /** Defaults: eot, woff and ttf are generated; sources follow the five
      formats' order; nothing is embedded; `embed: true` means woff. */
  lemma {:induction false} Defaults()
    ensures Types(Undefined) == Arr(["eot", "woff", "ttf"])
    ensures Order(Undefined) == Arr(["eot", "woff2", "woff", "ttf", "svg"])
    ensures Embed(Undefined) == Arr([])
    ensures Embed(Bool(true)) == Arr(["woff"])
  {
    DefaultTypes();
    DefaultOrder();
  }
}

=== FILE: paths.dfy ===
/** The two `path` helpers the core calls: `path.join` of a directory and a
    file name, and `path.basename` (POSIX flavour). */
module Paths {
  import opened Strings

  /** `path.join(dir, name)` for one directory and one name. Segment
      normalisation (`.`, `..`, repeated `/`) is not modelled. */
  function Join(dir: string, name: string): string {
    if dir == "" then (if name == "" then "." else name)
    else if name == "" then dir
    else if dir[|dir| - 1] == '/' then dir + name
    else dir + "/" + name
  }

  /** The part `Join` puts in front of a non-empty name. */
  function JoinPrefix(dir: string): string {
    if dir == "" then ""
    else if dir[|dir| - 1] == '/' then dir
    else dir + "/"
  }

  /** A non-empty name is kept verbatim at the end of the joined path,
      after a prefix that depends on the directory alone. */
  lemma {:induction false} JoinKeepsName(dir: string, name: string)
    requires name != ""
    ensures Join(dir, name) == JoinPrefix(dir) + name
    ensures JoinPrefix(dir) == "" || JoinPrefix(dir)[|JoinPrefix(dir)| - 1] == '/'
  {
  }

  /** Joining is injective in a non-empty name. */
  lemma {:induction false} JoinInjective(dir: string, a: string, b: string)
    requires a != "" && b != ""
    requires Join(dir, a) == Join(dir, b)
    ensures a == b
  {
    JoinKeepsName(dir, a);
    JoinKeepsName(dir, b);
    var p := JoinPrefix(dir);
    assert (p + a)[|p|..] == a;
    assert (p + b)[|p|..] == b;
  }

  function StripTrailingSlashes(p: string): (r: string)
    ensures |r| <= |p| && r == p[..|r|]
    ensures r == "" || r[|r| - 1] != '/'
  {
    if |p| > 0 && p[|p| - 1] == '/' then StripTrailingSlashes(p[..|p| - 1]) else p
  }

  /** The characters after the last `/`. */
  function LastSegment(p: string): (r: string)
    ensures |r| <= |p| && r == p[|p| - |r|..]
    ensures '/' !in r
    ensures |r| < |p| ==> p[|p| - |r| - 1] == '/'
  {
    if |p| == 0 || p[|p| - 1] == '/' then ""
    else
      var r := LastSegment(p[..|p| - 1]) + [p[|p| - 1]];
      assert p[..|p| - 1][|p| - |r|..] + [p[|p| - 1]] == p[|p| - |r|..];
      r
  }

  /** `path.basename(p)`: trailing separators are ignored, then the last segment is taken. */
  function Basename(p: string): (r: string)
    ensures '/' !in r
  {
    LastSegment(StripTrailingSlashes(p))
  }

  /** Basename undoes a join of a directory and a plain file name. */
  lemma {:induction false} BasenameOfJoin(dir: string, name: string)
    requires name != "" && '/' !in name
    ensures Basename(Join(dir, name)) == name
  {
    JoinKeepsName(dir, name);
    var p := JoinPrefix(dir) + name;
    assert p[|p| - 1] == name[|name| - 1];
    assert StripTrailingSlashes(p) == p;
    LastSegmentOfSuffix(JoinPrefix(dir), name);
  }

  lemma {:induction false} LastSegmentOfSuffix(prefix: string, name: string)
    requires '/' !in name
    requires prefix == "" || prefix[|prefix| - 1] == '/'
    ensures LastSegment(prefix + name) == name
    decreases |name|
  {
    var p := prefix + name;
    if |name| > 0 {
      var init := name[..|name| - 1];
      var last := name[|name| - 1];
      assert name == init + [last];
      assert p[..|p| - 1] == prefix + init;
      assert p[|p| - 1] == last && last != '/';
      LastSegmentOfSuffix(prefix, init);
      assert LastSegment(p) == LastSegment(prefix + init) + [last];
    } else {
      assert p == prefix;
    }
  }
}

=== FILE: pipeline.dfy ===
/** The task steps of `tasks/webfonts.js` around the engine: the engine's
    result, the writers' effect on storage, the woff2 conversion and the
    codepoint list the stylesheets receive. Storage is a map from path to
    content. */
module Pipeline {
  import opened Wrappers
  import opened Strings
  import opened Fonts
  import Util
  import Codepoints
  import opened Process
  import Generators
  import NodeSrc

  datatype Content = FontFile(font: Font) | TextFile(text: string)

  type Storage = map<string, Content>

  /** The value the node engines pass for each way the writer chain ends;
      `None` when a step threw and `allDone` is never called. */
  function NodeValue(end: Generators.End): (v: Option<EngineValue>)
    ensures v.None? <==> end.Threw?
    ensures v == Some(NotCreated) <==> end.Stopped?
  {
    match end
    case Finished => Some(NoValue)
    case Stopped => Some(NotCreated)
    case Threw(_) => None
  }

  /** `generateFont`'s callback: `false` completes the task and skips every
      later step (`None`); a truthy result is merged into the options, so a
      returned `fontName` replaces the configured one. */
  function AfterEngine(fontName: string, v: EngineValue): (r: Option<string>)
    ensures r.None? <==> v.NotCreated?
    ensures v.FontNameValue? ==> r == Some(v.fontName)
    ensures v.NoValue? ==> r == Some(fontName)
  {
    match v
    case NotCreated => None
    case NoValue => Some(fontName)
    case FontNameValue(n) => Some(n)
  }

  /** How the runtime's `fs.writeFileSync(path, undefined)` behaves: older
      Node.js releases write the text `undefined`, newer ones throw
      `ERR_INVALID_ARG_TYPE`. */
  datatype Runtime = CoercesUndefined | RejectsUndefined

  /** The writers as written: the woff2 writer passes its `undefined` font
      to `writeFileSync` like any other. */
  function ApplyWritesAsWritten(st: Storage, writes: seq<Generators.Write>, rt: Runtime): (r: Result<Storage, string>)
    ensures r.Failure? <==> rt.RejectsUndefined? && exists k :: 0 <= k < |writes| && writes[k].font.None?
    decreases |writes|
  {
    if |writes| == 0 then Success(st)
    else
      var w := writes[0];
      var rest := writes[1..];
      assert forall k :: 1 <= k < |writes| ==> writes[k] == rest[k - 1];
      match w.font
      case Some(f) => ApplyWritesAsWritten(st[w.path := FontFile(f)], rest, rt)
      case None =>
        if rt.RejectsUndefined? then Failure("ERR_INVALID_ARG_TYPE")
        else ApplyWritesAsWritten(st[w.path := TextFile("undefined")], rest, rt)
  }

  /** The evidently intended writers: a generator that yields no font
      writes no file. */
  function ApplyWrites(st: Storage, writes: seq<Generators.Write>): Storage
    decreases |writes|
  {
    if |writes| == 0 then st
    else
      var w := writes[0];
      var next := if w.font.Some? then st[w.path := FontFile(w.font.value)] else st;
      ApplyWrites(next, writes[1..])
  }

  /** The font the last write with a font gives a path, if any. */
  function LastFont(writes: seq<Generators.Write>, p: string): Option<Font>
    decreases |writes|
  {
    if |writes| == 0 then None
    else
      var w := writes[|writes| - 1];
      if w.path == p && w.font.Some? then w.font else LastFont(writes[..|writes| - 1], p)
  }

  /** After the writers a path holds the font its last write gave it, or
      what it held before when no write gave it a font. */
  lemma {:induction false} ApplyWritesEffect(st: Storage, writes: seq<Generators.Write>, p: string)
    ensures var r := ApplyWrites(st, writes);
      && (LastFont(writes, p).Some? ==> p in r && r[p] == FontFile(LastFont(writes, p).value))
      && (LastFont(writes, p).None? ==> (p in r <==> p in st) && (p in st ==> r[p] == st[p]))
    decreases |writes|
  {
    if |writes| > 0 {
      var w := writes[0];
      var next := if w.font.Some? then st[w.path := FontFile(w.font.value)] else st;
      ApplyWritesEffect(next, writes[1..], p);
      LastFontSplit(w, writes[1..], p);
      assert [w] + writes[1..] == writes;
    }
  }

  lemma {:induction false} LastFontSplit(w: Generators.Write, rest: seq<Generators.Write>, p: string)
    ensures LastFont([w] + rest, p) ==
      (if LastFont(rest, p).Some? then LastFont(rest, p) else if w.path == p && w.font.Some? then w.font else None)
    decreases |rest|
  {
    var all := [w] + rest;
    if |rest| > 0 {
      var last := rest[|rest| - 1];
      assert all[..|all| - 1] == [w] + rest[..|rest| - 1];
      assert all[|all| - 1] == last;
      LastFontSplit(w, rest[..|rest| - 1], p);
    } else {
      assert all[..|all| - 1] == [];
    }
  }

  /** `generateWoff2Font`: when woff2 is requested and no woff2 file exists,
      convert the ttf file, deleting it first when ttf was not requested.
      Reading a missing ttf throws; ttf2woff2 cannot read a buffer that is
      not a font. */
  function Woff2Stage(types: seq<string>, dest: string, fontFilename: string, st: Storage): (r: Result<Storage, string>)
    ensures "woff2" !in types || Util.FontPath(dest, fontFilename, "woff2") in st ==> r == Success(st)
  {
    var woff2 := Util.FontPath(dest, fontFilename, "woff2");
    var ttf := Util.FontPath(dest, fontFilename, "ttf");
    if "woff2" !in types || woff2 in st then Success(st)
    else if ttf !in st then Failure("ENOENT: " + ttf)
    else match st[ttf]
      case TextFile(_) => Failure("ttf2woff2 cannot read " + ttf)
      case FontFile(f) =>
        var kept := if "ttf" in types then st else st - {ttf};
        Success(kept[woff2 := FontFile(Woff2Of(f))])
  }

  /** The conversion's effect: woff2 is ttf2woff2 of the ttf font, the ttf
      file survives exactly when ttf was requested, and no other path changes. */
  lemma {:induction false} Woff2StageEffect(types: seq<string>, dest: string, fontFilename: string, st: Storage)
    requires "woff2" in types && Util.FontPath(dest, fontFilename, "woff2") !in st
    ensures var r := Woff2Stage(types, dest, fontFilename, st);
      var woff2 := Util.FontPath(dest, fontFilename, "woff2");
      var ttf := Util.FontPath(dest, fontFilename, "ttf");
      && (r.Success? <==> ttf in st && st[ttf].FontFile?)
      && (r.Success? ==>
            && woff2 in r.value && r.value[woff2] == FontFile(Woff2Of(st[ttf].font))
            && (ttf in r.value <==> "ttf" in types)
            && forall p :: p != woff2 && p != ttf ==> (p in r.value <==> p in st) && (p in st ==> r.value[p] == st[p]))
  {
    var woff2 := Util.FontPath(dest, fontFilename, "woff2");
    var ttf := Util.FontPath(dest, fontFilename, "ttf");
    if woff2 == ttf {
      Util.FontPathInjective(dest, fontFilename, "woff2", "ttf");
    }
  }

  /** The node engine's writes for `types: ["woff2"]`: an `undefined` woff2
      font, then the ttf the chain computes. */
  lemma {:induction false} Woff2OnlyWrites(o: NodeSrc.NodeOptions, rejects: map<string, string>, hint: Option<Process.ExecError>)
    requires NodeSrc.Prepared(o) && o.types == ["woff2"]
    requires NodeSrc.LoadGlyphs(o, rejects).Success?
    ensures var r := NodeSrc.Engine(o, rejects, hint);
      var env := Generators.Env(NodeSrc.LoadGlyphs(o, rejects), o.fontFamilyName, o.autoHint, hint);
      && r.end.Finished?
      && r.writes == [Generators.Write(Util.FontPath(o.dest, o.fontFilename, "woff2"), None),
                      Generators.Write(Util.FontPath(o.dest, o.fontFilename, "ttf"), Some(Generators.Expected("ttf", env)))]
  {
    NodeSrc.TypesToGenerateRule(o.types);
    assert "woff2" in o.types;
    assert Generators.TypesToGenerate(o.types) == ["woff2", "ttf"];
    NodeSrc.EngineWrites(o, rejects, hint);
  }

  /** As written, a woff2-only run never converts: an older runtime leaves
      the text `undefined` as the woff2 file, so the conversion is skipped
      and the unrequested ttf stays; a newer runtime throws at the write. */
  lemma {:induction false} Woff2OnlyAsWritten(o: NodeSrc.NodeOptions, rejects: map<string, string>, hint: Option<Process.ExecError>, st: Storage)
    requires NodeSrc.Prepared(o) && o.types == ["woff2"]
    requires NodeSrc.LoadGlyphs(o, rejects).Success?
    ensures var writes := NodeSrc.Engine(o, rejects, hint).writes;
      var woff2 := Util.FontPath(o.dest, o.fontFilename, "woff2");
      var ttf := Util.FontPath(o.dest, o.fontFilename, "ttf");
      && ApplyWritesAsWritten(st, writes, RejectsUndefined).Failure?
      && var after := ApplyWritesAsWritten(st, writes, CoercesUndefined);
         && after.Success?
         && Woff2Stage(o.types, o.dest, o.fontFilename, after.value) == after
         && after.value[woff2] == TextFile("undefined")
         && ttf in after.value
  {
    Woff2OnlyWrites(o, rejects, hint);
    var woff2 := Util.FontPath(o.dest, o.fontFilename, "woff2");
    var ttf := Util.FontPath(o.dest, o.fontFilename, "ttf");
    if woff2 == ttf {
      Util.FontPathInjective(o.dest, o.fontFilename, "woff2", "ttf");
    }
    var writes := NodeSrc.Engine(o, rejects, hint).writes;
    var ttfWrite := writes[1];
    assert writes[1..] == [ttfWrite] && [ttfWrite][1..] == [];
    assert ApplyWritesAsWritten(st, writes, RejectsUndefined) == Failure("ERR_INVALID_ARG_TYPE");
    var coerced := st[woff2 := TextFile("undefined")];
    var after := coerced[ttf := FontFile(ttfWrite.font.value)];
    assert ApplyWritesAsWritten(st, writes, CoercesUndefined) == ApplyWritesAsWritten(coerced, [ttfWrite], CoercesUndefined);
    assert ApplyWritesAsWritten(coerced, [ttfWrite], CoercesUndefined) == ApplyWritesAsWritten(after, [], CoercesUndefined);
    assert after[woff2] == TextFile("undefined");
  }

  /** With the intended writers a woff2-only run ends with the woff2
      converted from the generated ttf, and no ttf file left behind. */
  lemma {:induction false} Woff2OnlyConverts(o: NodeSrc.NodeOptions, rejects: map<string, string>, hint: Option<Process.ExecError>, st: Storage)
    requires NodeSrc.Prepared(o) && o.types == ["woff2"]
    requires NodeSrc.LoadGlyphs(o, rejects).Success?
    requires Util.FontPath(o.dest, o.fontFilename, "woff2") !in st
    ensures var env := Generators.Env(NodeSrc.LoadGlyphs(o, rejects), o.fontFamilyName, o.autoHint, hint);
      var r := Woff2Stage(o.types, o.dest, o.fontFilename, ApplyWrites(st, NodeSrc.Engine(o, rejects, hint).writes));
      var woff2 := Util.FontPath(o.dest, o.fontFilename, "woff2");
      && r.Success?
      && r.value[woff2] == FontFile(Woff2Of(Generators.Expected("ttf", env)))
      && Util.FontPath(o.dest, o.fontFilename, "ttf") !in r.value
  {
    Woff2OnlyWrites(o, rejects, hint);
    var woff2 := Util.FontPath(o.dest, o.fontFilename, "woff2");
    var ttf := Util.FontPath(o.dest, o.fontFilename, "ttf");
    if woff2 == ttf {
      Util.FontPathInjective(o.dest, o.fontFilename, "woff2", "ttf");
    }
    var writes := NodeSrc.Engine(o, rejects, hint).writes;
    var ttfWrite := writes[1];
    assert writes[1..] == [ttfWrite] && [ttfWrite][1..] == [];
    var mid := st[ttf := FontFile(ttfWrite.font.value)];
    assert ApplyWrites(st, writes) == ApplyWrites(st, [ttfWrite]);
    assert ApplyWrites(st, [ttfWrite]) == ApplyWrites(mid, []);
    assert woff2 !in mid && ttf in mid && mid[ttf].FontFile?;
    Woff2StageEffect(o.types, o.dest, o.fontFilename, mid);
  }

  /** The stylesheet's codepoint for a glyph names the character the font
      maps to it: the hex string `generateStylesheets` writes for the
      glyph's name reads back as the code point of its first trigger. */
  lemma {:induction false} StylesheetMatchesFont(o: NodeSrc.NodeOptions, rejects: map<string, string>, k: nat)
    requires NodeSrc.Prepared(o) && k < |o.files| && !o.ligaturesOnly
    requires NodeSrc.LoadGlyphs(o, rejects).Success?
    ensures var g := NodeSrc.LoadGlyphs(o, rejects).value[k];
      var i := Generators.IndexOf(o.files, o.files[k]);
      && i < |o.glyphs| && o.glyphs[i] == g.name
      && g.unicode[0] == Char(ParseInt(Codepoints.HexCodepoints(o.glyphs, o.codepoints)[i], 16))
  {
    var g := NodeSrc.LoadGlyphs(o, rejects).value[k];
    var i := Generators.IndexOf(o.files, o.files[k]);
    assert o.files[k] in o.files;
  }
}

=== FILE: process.dfy ===
/** What the engines see of an external process (ttfautohint, fontforge):
    the classified `exec` error, the log lines they emit and the value they
    hand back to the task. */
module Process {
  /** `err.code` of a child-process error: an exit status, a system error
      name such as `EPIPE`, or nothing (a signal, a buffer overflow). */
  datatype ErrCode = Exit(status: int) | Named(name: string) | NoCode

  /** An `Error` handed to an `exec` callback. */
  datatype ExecError = ExecError(code: ErrCode, message: string)

  /** The logger channel a line goes to. */
  datatype Level = Verbose | Error | Plain

  datatype Log = Log(level: Level, text: string)

  /** What an engine passes to `allDone`: nothing (the node engines'
      `async.waterfall` ends with `null`), `false`, or `{fontName}`. */
  datatype EngineValue = NoValue | NotCreated | FontNameValue(fontName: string)
}

=== FILE: strings.dfy ===
/** The JavaScript string primitives the plugin relies on: `trim`, `split`
    on one character, `Array.prototype.join`, `indexOf`, `includes`, and
    `Number.prototype.toString(radix)` for integers. */
module Strings {

  /** The characters JavaScript's `trim()` strips and `\s` matches:
      WhiteSpace and LineTerminator of ECMA-262. */
  predicate IsSpace(c: char) {
    || c == '\t' || c == '\n' || c == '\U{0B}' || c == '\U{0C}' || c == '\r' || c == ' '
    || c == '\U{A0}' || c == '\U{1680}' || ('\U{2000}' <= c <= '\U{200A}')
    || c == '\U{2028}' || c == '\U{2029}' || c == '\U{202F}' || c == '\U{205F}'
    || c == '\U{3000}' || c == '\U{FEFF}'
  }

  predicate AllSpace(s: string) {
    forall i :: 0 <= i < |s| ==> IsSpace(s[i])
  }

  predicate NoSpace(s: string) {
    forall i :: 0 <= i < |s| ==> !IsSpace(s[i])
  }

  /** `s` neither starts nor ends with whitespace. */
  predicate Trimmed(s: string) {
    |s| == 0 || (!IsSpace(s[0]) && !IsSpace(s[|s| - 1]))
  }

  /** Number of whitespace characters `s` starts with. */
  function LeadingSpaces(s: string): (k: nat)
    ensures k <= |s|
  {
    if |s| > 0 && IsSpace(s[0]) then 1 + LeadingSpaces(s[1..]) else 0
  }

  /** Number of whitespace characters `s` ends with. */
  function TrailingSpaces(s: string): (k: nat)
    ensures k <= |s|
  {
    if |s| > 0 && IsSpace(s[|s| - 1]) then 1 + TrailingSpaces(s[..|s| - 1]) else 0
  }

  lemma {:induction false} LeadingSpacesSpec(s: string)
    ensures AllSpace(s[..LeadingSpaces(s)])
    ensures LeadingSpaces(s) == |s| || !IsSpace(s[LeadingSpaces(s)])
  {
    if |s| > 0 && IsSpace(s[0]) {
      LeadingSpacesSpec(s[1..]);
      assert s[..LeadingSpaces(s)] == [s[0]] + s[1..][..LeadingSpaces(s[1..])];
    }
  }

  lemma {:induction false} TrailingSpacesSpec(s: string)
    ensures AllSpace(s[|s| - TrailingSpaces(s)..])
    ensures TrailingSpaces(s) == |s| || !IsSpace(s[|s| - TrailingSpaces(s) - 1])
  {
    if |s| > 0 && IsSpace(s[|s| - 1]) {
      var p := s[..|s| - 1];
      var kp := TrailingSpaces(p);
      TrailingSpacesSpec(p);
      var m := |p| - kp;
      assert TrailingSpaces(s) == kp + 1;
      assert |s| - TrailingSpaces(s) == m;
      var tail := s[m..];
      assert tail == p[m..] + [s[|s| - 1]];
      forall i | 0 <= i < |tail|
        ensures IsSpace(tail[i])
      {
        if i < |p[m..]| {
          assert tail[i] == p[m..][i];
        }
      }
      if m > 0 {
        assert s[m - 1] == p[m - 1];
      }
    }
  }

  /** `String.prototype.trim`. */
  function Trim(s: string): string {
    var i := LeadingSpaces(s);
    var t := s[i..];
    t[..|t| - TrailingSpaces(t)]
  }

  /** What `trim` promises: the result is a slice of the input with
      whitespace only outside it, and the slice neither starts nor ends
      with whitespace. */
  lemma {:induction false} TrimSpec(s: string) returns (i: nat, j: nat)
    ensures i <= j <= |s| && Trim(s) == s[i..j]
    ensures AllSpace(s[..i]) && AllSpace(s[j..])
    ensures Trimmed(Trim(s))
  {
    i := LeadingSpaces(s);
    var t := s[i..];
    var k := TrailingSpaces(t);
    j := |s| - k;
    LeadingSpacesSpec(s);
    TrailingSpacesSpec(t);
    assert t[|t| - k..] == s[j..];
    assert t[..|t| - k] == s[i..j];
    if i < j {
      assert !IsSpace(s[i]);
      assert t[|t| - k - 1] == s[j - 1];
    }
  }

  /** Trimming an already trimmed string changes nothing. */
  lemma {:induction false} TrimOfTrimmed(s: string)
    requires Trimmed(s)
    ensures Trim(s) == s
  {
    if |s| > 0 {
      assert LeadingSpaces(s) == 0;
      assert s[0..] == s;
      assert TrailingSpaces(s) == 0;
    }
  }

  lemma {:induction false} TrimIdempotent(s: string)
    ensures Trim(Trim(s)) == Trim(s)
  {
    var _, _ := TrimSpec(s);
    TrimOfTrimmed(Trim(s));
  }

  /** First index of `c` in `s`, or `|s|` when absent (`indexOf` with -1 mapped to `|s|`). */
  function FindChar(s: string, c: char): (i: nat)
    ensures i <= |s|
    ensures c !in s[..i]
    ensures i < |s| ==> s[i] == c
  {
    if |s| == 0 then 0
    else if s[0] == c then 0
    else 1 + FindChar(s[1..], c)
  }

  /** `s.split(sep)` for a one-character separator. */
  function Split(s: string, sep: char): (r: seq<string>)
    ensures |r| >= 1
    decreases |s|
  {
    var i := FindChar(s, sep);
    if i == |s| then [s] else [s[..i]] + Split(s[i + 1..], sep)
  }

  /** `xs.join(sep)`. */
  function Join(xs: seq<string>, sep: string): string
  {
    if |xs| == 0 then ""
    else if |xs| == 1 then xs[0]
    else xs[0] + sep + Join(xs[1..], sep)
  }

  /** Length of the run of non-whitespace characters `s` starts with. */
  function WordLength(s: string): (k: nat)
    ensures k <= |s|
    ensures forall i :: 0 <= i < k ==> !IsSpace(s[i])
    ensures k == |s| || IsSpace(s[k])
  {
    if |s| > 0 && !IsSpace(s[0]) then 1 + WordLength(s[1..]) else 0
  }

  /** The words of `s`: its maximal runs of non-whitespace characters, in order. */
  function Words(s: string): (ws: seq<string>)
    ensures forall k :: 0 <= k < |ws| ==> ws[k] != "" && NoSpace(ws[k])
    decreases |s|
  {
    if |s| == 0 then []
    else if IsSpace(s[0]) then Words(s[1..])
    else
      var k := WordLength(s);
      [s[..k]] + Words(s[k..])
  }

  /** Text that starts with whitespace does not lengthen the word before it. */
  lemma {:induction false} WordLengthAppend(t: string, u: string)
    requires |u| == 0 || IsSpace(u[0])
    ensures WordLength(t + u) == WordLength(t)
    decreases |t|
  {
    if |t| == 0 {
      assert t + u == u;
    } else if !IsSpace(t[0]) {
      assert (t + u)[1..] == t[1..] + u;
      WordLengthAppend(t[1..], u);
    }
  }

  lemma {:induction false} WordsOfSpaces(u: string)
    requires AllSpace(u)
    ensures Words(u) == []
    decreases |u|
  {
    if |u| > 0 {
      WordsOfSpaces(u[1..]);
    }
  }

  /** Leading whitespace adds no word. */
  lemma {:induction false} WordsSpacesBefore(sp: string, t: string)
    requires AllSpace(sp)
    ensures Words(sp + t) == Words(t)
    decreases |sp|
  {
    if |sp| == 0 {
      assert sp + t == t;
    } else {
      assert (sp + t)[1..] == sp[1..] + t;
      WordsSpacesBefore(sp[1..], t);
    }
  }

  /** Trailing whitespace adds no word. */
  lemma {:induction false} WordsSpacesAfter(t: string, sp: string)
    requires AllSpace(sp)
    ensures Words(t + sp) == Words(t)
    decreases |t|
  {
    if |t| == 0 {
      assert t + sp == sp;
      WordsOfSpaces(sp);
    } else if IsSpace(t[0]) {
      assert (t + sp)[1..] == t[1..] + sp;
      WordsSpacesAfter(t[1..], sp);
    } else {
      WordLengthAppend(t, sp);
      var k := WordLength(t);
      assert (t + sp)[..k] == t[..k];
      assert (t + sp)[k..] == t[k..] + sp;
      WordsSpacesAfter(t[k..], sp);
    }
  }

  /** Trimming keeps the words. */
  lemma {:induction false} WordsOfTrim(s: string)
    ensures Words(Trim(s)) == Words(s)
  {
    var i, j := TrimSpec(s);
    assert s == s[..i] + (s[i..j] + s[j..]);
    WordsSpacesBefore(s[..i], s[i..j] + s[j..]);
    WordsSpacesAfter(s[i..j], s[j..]);
  }

  /** A text ending in a non-whitespace character has a word. */
  lemma {:induction false} WordsNonEmpty(s: string)
    requires |s| > 0 && !IsSpace(s[|s| - 1])
    ensures |Words(s)| > 0
    decreases |s|
  {
    if IsSpace(s[0]) {
      WordsNonEmpty(s[1..]);
    }
  }

  /** Words joined by single spaces split back into those words. */
  lemma {:induction false} WordsOfJoin(ws: seq<string>)
    requires forall k :: 0 <= k < |ws| ==> ws[k] != "" && NoSpace(ws[k])
    ensures Words(Join(ws, " ")) == ws
    decreases |ws|
  {
    if |ws| > 0 {
      var w := ws[0];
      var rest := if |ws| == 1 then "" else " " + Join(ws[1..], " ");
      assert Join(ws, " ") == w + rest;
      WordLengthAppend(w, rest);
      assert WordLength(w) == |w|;
      assert (w + rest)[..|w|] == w;
      assert (w + rest)[|w|..] == rest;
      if |ws| > 1 {
        assert rest[1..] == Join(ws[1..], " ");
        WordsOfJoin(ws[1..]);
      }
    }
  }

  /** Every piece of a split is free of the separator. */
  lemma {:induction false} SplitPiecesFree(s: string, sep: char)
    ensures forall k :: 0 <= k < |Split(s, sep)| ==> sep !in Split(s, sep)[k]
    decreases |s|
  {
    var i := FindChar(s, sep);
    if i < |s| {
      SplitPiecesFree(s[i + 1..], sep);
    }
  }

  /** Joining the pieces of a split restores the original string. */
  lemma {:induction false} JoinSplit(s: string, sep: char)
    ensures Join(Split(s, sep), [sep]) == s
    decreases |s|
  {
    var i := FindChar(s, sep);
    if i < |s| {
      JoinSplit(s[i + 1..], sep);
      var rest := Split(s[i + 1..], sep);
      assert Split(s, sep) == [s[..i]] + rest;
      assert s == s[..i] + [sep] + s[i + 1..];
    }
  }

  /** Splitting a join of separator-free pieces gives the pieces back. */
  lemma {:induction false} SplitJoin(xs: seq<string>, sep: char)
    requires |xs| >= 1
    requires forall k :: 0 <= k < |xs| ==> sep !in xs[k]
    ensures Split(Join(xs, [sep]), sep) == xs
  {
    if |xs| == 1 {
      assert FindChar(xs[0], sep) == |xs[0]|;
    } else {
      var s := Join(xs, [sep]);
      var tail := Join(xs[1..], [sep]);
      assert s == xs[0] + [sep] + tail;
      FindCharPast(xs[0], sep, tail);
      assert s[..|xs[0]|] == xs[0];
      assert s[|xs[0]| + 1..] == tail;
      SplitJoin(xs[1..], sep);
      assert xs == [xs[0]] + xs[1..];
    }
  }

  lemma {:induction false} FindCharPast(a: string, c: char, b: string)
    requires c !in a
    ensures FindChar(a + [c] + b, c) == |a|
  {
    if |a| > 0 {
      assert (a + [c] + b)[1..] == a[1..] + [c] + b;
      FindCharPast(a[1..], c, b);
    }
  }

  /** Searching a concatenation: a prefix without the character is skipped. */
  lemma {:induction false} FindCharAfter(a: string, b: string, c: char)
    requires c !in a
    ensures FindChar(a + b, c) == |a| + FindChar(b, c)
  {
    if |a| > 0 {
      assert (a + b)[1..] == a[1..] + b;
      FindCharAfter(a[1..], b, c);
    } else {
      assert a + b == b;
    }
  }

  /** Searching a concatenation: a prefix holding the character decides. */
  lemma {:induction false} FindCharBefore(a: string, b: string, c: char)
    requires c in a
    ensures FindChar(a + b, c) == FindChar(a, c)
  {
    if a[0] != c {
      assert (a + b)[1..] == a[1..] + b;
      FindCharBefore(a[1..], b, c);
    }
  }

  predicate StartsWith(s: string, p: string) {
    |p| <= |s| && s[..|p|] == p
  }

  /** `s.includes(sub)` / `s.indexOf(sub) !== -1`. */
  predicate Contains(s: string, sub: string)
    decreases |s|
  {
    StartsWith(s, sub) || (|s| > 0 && Contains(s[1..], sub))
  }

  lemma {:induction false} ContainsAt(s: string, sub: string, i: nat)
    requires i + |sub| <= |s| && s[i..i + |sub|] == sub
    ensures Contains(s, sub)
    decreases i
  {
    if i > 0 {
      assert s[1..][i - 1..i - 1 + |sub|] == sub;
      ContainsAt(s[1..], sub, i - 1);
    }
  }

  /** `sub` occurs in `s` at index `j`. */
  predicate MatchAt(s: string, sub: string, j: nat) {
    j + |sub| <= |s| && s[j..j + |sub|] == sub
  }

  /** No window of `s` equals `sub`, so `s` does not contain it. */
  lemma {:induction false} NotContains(s: string, sub: string)
    requires forall j: nat :: !MatchAt(s, sub, j)
    ensures !Contains(s, sub)
    decreases |s|
  {
    assert !MatchAt(s, sub, 0);
    if |s| > 0 {
      forall j: nat
        ensures !MatchAt(s[1..], sub, j)
      {
        assert !MatchAt(s, sub, j + 1);
        if j + |sub| <= |s| - 1 {
          assert s[1..][j..j + |sub|] == s[j + 1..j + 1 + |sub|];
        }
      }
      NotContains(s[1..], sub);
    }
  }

  /** A string contains any of its suffixes. */
  lemma {:induction false} ContainsSuffix(a: string, sub: string)
    ensures Contains(a + sub, sub)
  {
    var s := a + sub;
    assert s[|a|..|a| + |sub|] == sub;
    ContainsAt(s, sub, |a|);
  }

  /** A prefix without the first character of `sub` cannot hold or start a match. */
  lemma {:induction false} ContainsSkipFree(a: string, b: string, sub: string)
    requires |sub| > 0 && sub[0] !in a
    ensures Contains(a + b, sub) == Contains(b, sub)
    decreases |a|
  {
    if |a| > 0 {
      assert (a + b)[0] == a[0];
      assert (a + b)[1..] == a[1..] + b;
      ContainsSkipFree(a[1..], b, sub);
    } else {
      assert a + b == b;
    }
  }

  lemma {:induction false} ContainsWitness(s: string, sub: string) returns (i: nat)
    requires Contains(s, sub)
    ensures i + |sub| <= |s| && s[i..i + |sub|] == sub
    decreases |s|
  {
    if StartsWith(s, sub) {
      i := 0;
    } else {
      var j := ContainsWitness(s[1..], sub);
      i := j + 1;
      assert s[i..i + |sub|] == s[1..][j..j + |sub|];
    }
  }

  /** Replace every occurrence of one character by another (`replace(/x/g, y)`). */
  function ReplaceChar(s: string, from: char, to: char): (r: string)
    ensures |r| == |s|
    ensures forall i :: 0 <= i < |s| ==> r[i] == (if s[i] == from then to else s[i])
  {
    if |s| == 0 then "" else [if s[0] == from then to else s[0]] + ReplaceChar(s[1..], from, to)
  }

  // ---- Number.prototype.toString(radix) on integers ----

  function DigitChar(d: nat): char
    requires d < 16
  {
    if d < 10 then ('0' as int + d) as char else ('a' as int + d - 10) as char
  }

  function DigitValue(c: char): nat {
    if '0' <= c <= '9' then c as int - '0' as int
    else if 'a' <= c <= 'f' then c as int - 'a' as int + 10
    else 0
  }

  predicate IsDigitOf(c: char, base: nat) {
    exists d :: 0 <= d < base && d < 16 && DigitChar(d) == c
  }

  /** Digits of `n` in `base`, most significant first, no leading zeros. */
  function ToBase(n: nat, base: nat): (r: string)
    requires 2 <= base <= 16
    ensures |r| >= 1
    decreases n
  {
    if n < base then [DigitChar(n)]
    else
      DivDecreases(n, base);
      ToBase(n / base, base) + [DigitChar(n % base)]
  }

  lemma {:induction false} DivDecreases(n: nat, base: nat)
    requires 2 <= base <= n
    ensures 0 < n / base < n && n % base < base
    ensures n == (n / base) * base + n % base
  {
  }

  lemma {:induction false} DigitRoundTrip(d: nat)
    requires d < 16
    ensures DigitValue(DigitChar(d)) == d
  {
  }

  function FromBase(s: string, base: nat): nat {
    if |s| == 0 then 0 else FromBase(s[..|s| - 1], base) * base + DigitValue(s[|s| - 1])
  }

  lemma {:induction false} BaseRoundTrip(n: nat, base: nat)
    requires 2 <= base <= 16
    ensures FromBase(ToBase(n, base), base) == n
    decreases n
  {
    var r := ToBase(n, base);
    if n < base {
      assert r[..0] == "";
      DigitRoundTrip(n);
    } else {
      DivDecreases(n, base);
      BaseRoundTrip(n / base, base);
      assert r[..|r| - 1] == ToBase(n / base, base);
      DigitRoundTrip(n % base);
      assert FromBase(r, base) == FromBase(ToBase(n / base, base), base) * base + n % base;
    }
  }

  lemma {:induction false} ToBaseNoSign(n: nat, base: nat)
    requires 2 <= base <= 16
    ensures ToBase(n, base)[0] != '-'
    decreases n
  {
    if n >= base {
      DivDecreases(n, base);
      ToBaseNoSign(n / base, base);
    }
  }

  /** `n.toString(base)`: a leading `-` for negative integers. */
  function IntToString(n: int, base: nat): (r: string)
    requires 2 <= base <= 16
  {
    if n < 0 then "-" + ToBase(-n, base) else ToBase(n, base)
  }

  /** Reads back what `IntToString` writes (a `parseInt(s, base)` restricted to that shape). */
  function ParseInt(s: string, base: nat): int {
    if |s| > 0 && s[0] == '-' then -(FromBase(s[1..], base) as int) else FromBase(s, base)
  }

  lemma {:induction false} IntRoundTrip(n: int, base: nat)
    requires 2 <= base <= 16
    ensures ParseInt(IntToString(n, base), base) == n
  {
    var r := IntToString(n, base);
    if n < 0 {
      assert r[1..] == ToBase(-n, base);
      BaseRoundTrip(-n, base);
    } else {
      BaseRoundTrip(n, base);
      ToBaseNoSign(n, base);
    }
  }

  /** ASCII part of `toUpperCase`; the model only applies it to number strings. */
  function UpperAscii(s: string): (r: string)
    ensures |r| == |s|
  {
    if |s| == 0 then ""
    else [if 'a' <= s[0] <= 'z' then (s[0] as int - 32) as char else s[0]] + UpperAscii(s[1..])
  }

  /** Upper-casing a decimal number string leaves it unchanged. */
  lemma {:induction false} UpperDecimal(n: int)
    ensures UpperAscii(IntToString(n, 10)) == IntToString(n, 10)
  {
    var s := IntToString(n, 10);
    DecimalHasNoLetters(n);
    UpperNoLetters(s);
  }

  lemma {:induction false} DecimalHasNoLetters(n: int)
    ensures forall i :: 0 <= i < |IntToString(n, 10)| ==> !('a' <= IntToString(n, 10)[i] <= 'z')
  {
    DigitsBelowTen(if n < 0 then -n else n);
  }

  lemma {:induction false} DigitsBelowTen(n: nat)
    ensures forall i :: 0 <= i < |ToBase(n, 10)| ==> '0' <= ToBase(n, 10)[i] <= '9'
    decreases n
  {
    if n >= 10 {
      DigitsBelowTen(n / 10);
    }
  }

  lemma {:induction false} UpperNoLetters(s: string)
    requires forall i :: 0 <= i < |s| ==> !('a' <= s[i] <= 'z')
    ensures UpperAscii(s) == s
  {
    if |s| > 0 {
      UpperNoLetters(s[1..]);
    }
  }
}

=== FILE: util.dfy ===
/** The shared tables and path rules of `tasks/util/util.js`. */
module Util {
  import opened Wrappers
  import opened Strings
  import Paths

  /** First code point handed out when no `startCodepoint` is configured:
      the start of the Unicode Private Use Area plus 0x101. */
  const UnicodePuaStart: int := 0xF101

  /** Default `order` of `@font-face` sources, as the comma-separated option string. */
  const FontFormats: string := "eot,woff2,woff,ttf,svg"

  /** One `@font-face` `src` descriptor. `format` absent means no `format("…")`
      suffix; `embeddable` is a JavaScript property that may be absent,
      `true` or `false`. */
  datatype Descriptor = Descriptor(ext: string, format: Option<string>, embeddable: Option<bool>)

  /** One slot of a format's pair; `None` stands for the literal `false`. */
  type Slot = Option<Descriptor>

  /** The two slots of a format: slot 0 feeds `fontSrc1`, slot 1 feeds `fontSrc2`. */
  datatype SrcPair = SrcPair(legacy: Slot, primary: Slot) {
    function At(idx: nat): Slot
      requires idx < 2
    {
      if idx == 0 then legacy else primary
    }
  }

  /** The truthiness test `font.embeddable` applied to a descriptor. */
  predicate IsEmbeddable(d: Descriptor) {
    d.embeddable == Some(true)
  }

  /** The format names the table knows. */
  predicate Known(t: string) {
    t == "eot" || t == "woff" || t == "woff2" || t == "ttf" || t == "svg"
  }

  /** `fontsSrcsMap[type]`; an unknown type yields `undefined`. */
  function FontsSrcs(t: string): Option<SrcPair> {
    if t == "eot" then
      Some(SrcPair(Some(Descriptor(".eot", None, None)),
                   Some(Descriptor(".eot?#iefix", Some("embedded-opentype"), Some(false)))))
    else if t == "woff" then Some(SrcPair(None, Some(Descriptor(".woff", Some("woff"), Some(true)))))
    else if t == "woff2" then Some(SrcPair(None, Some(Descriptor(".woff2", Some("woff2"), Some(true)))))
    else if t == "ttf" then Some(SrcPair(None, Some(Descriptor(".ttf", Some("truetype"), Some(true)))))
    else if t == "svg" then Some(SrcPair(None, Some(Descriptor(".svg#{fontBaseName}", Some("svg"), Some(false)))))
    else None
  }

  /** CSS file name prefixes keyed by stylesheet type (`_icons.scss`). */
  const CssFilePrefixes: map<string, string> :=
    map["_default" := "", "sass" := "_", "scss" := "_", "styl" := ""]

  /** Separators between the `src` entries of one `@font-face` rule. */
  const FontSrcSeparators: map<string, string> :=
    map["_default" := ",\n\t\t", "sass" := ",\n\t\t", "scss" := ",\n\t\t", "styl" := ", "]

  /** The file-name mask of `generatedFontFiles`: a brace set for several
      types, the bare extension for one. `'' + types` joins an array with commas. */
  function GlobMask(types: seq<string>): string {
    if |types| > 1 then "*.{" + Join(types, ",") + "}" else "*." + Join(types, ",")
  }

  /** The glob pattern whose matches are the previously generated font files. */
  function GeneratedFontFilesPattern(dest: string, fontFilename: string, types: seq<string>): string {
    Paths.Join(dest, fontFilename + GlobMask(types))
  }

  /** `getFontPath`: where the font of one format is written. */
  function FontPath(dest: string, fontFilename: string, t: string): string {
    Paths.Join(dest, fontFilename + "." + t)
  }

  /** The extensions a `*.<ext>` mask stands for under brace expansion: a
      brace set expands only when it holds a comma; otherwise the braces
      are literal characters of a single extension. */
  function MaskExtensions(mask: string): seq<string>
    requires StartsWith(mask, "*.")
  {
    var rest := mask[2..];
    if |rest| >= 2 && rest[0] == '{' && rest[|rest| - 1] == '}' && ',' in rest[1..|rest| - 1]
    then Split(rest[1..|rest| - 1], ',')
    else [rest]
  }

  /** Plain extension names: no commas or braces. */
  predicate PlainTypes(types: seq<string>) {
    forall k :: 0 <= k < |types| ==> ',' !in types[k] && '{' !in types[k] && '}' !in types[k]
  }

  /** A brace set holding a comma expands to its comma-separated members. */
  lemma {:induction false} BracedMask(inner: string)
    requires ',' in inner
    ensures StartsWith("*.{" + inner + "}", "*.")
    ensures MaskExtensions("*.{" + inner + "}") == Split(inner, ',')
  {
    var m := "*.{" + inner + "}";
    assert m[..2] == "*.";
    var rest := m[2..];
    assert rest == "{" + inner + "}";
    assert rest[1..|rest| - 1] == inner;
  }

  /** A plain extension is its own single expansion. */
  lemma {:induction false} PlainMask(t: string)
    requires ',' !in t && '{' !in t
    ensures StartsWith("*." + t, "*.")
    ensures MaskExtensions("*." + t) == [t]
  {
    var m := "*." + t;
    assert m[..2] == "*.";
    assert m[2..] == t;
    if |t| >= 2 {
      assert t[0] != '{';
    }
  }

  /** The mask matches exactly the requested extensions, for one type as for several. */
  lemma {:induction false} GlobMaskExpandsToTypes(types: seq<string>)
    requires |types| >= 1 && PlainTypes(types)
    ensures StartsWith(GlobMask(types), "*.")
    ensures MaskExtensions(GlobMask(types)) == types
  {
    var inner := Join(types, ",");
    if |types| > 1 {
      JoinHasComma(types);
      BracedMask(inner);
      SplitJoin(types, ',');
    } else {
      assert inner == types[0];
      PlainMask(types[0]);
    }
  }

  lemma {:induction false} JoinHasComma(types: seq<string>)
    requires |types| > 1
    ensures ',' in Join(types, ",")
  {
    var j := Join(types, ",");
    assert j == types[0] + "," + Join(types[1..], ",");
    assert j[|types[0]|] == ',';
  }

  /** Font paths of different formats never collide. */
  lemma {:induction false} FontPathInjective(dest: string, fontFilename: string, t1: string, t2: string)
    requires FontPath(dest, fontFilename, t1) == FontPath(dest, fontFilename, t2)
    ensures t1 == t2
  {
    Paths.JoinInjective(dest, fontFilename + "." + t1, fontFilename + "." + t2);
    var a, b := fontFilename + "." + t1, fontFilename + "." + t2;
    assert a[|fontFilename| + 1..] == t1;
    assert b[|fontFilename| + 1..] == t2;
  }

  /** The file part of a font path is `<fontFilename>.<type>`. */
  lemma {:induction false} FontPathBasename(dest: string, fontFilename: string, t: string)
    requires '/' !in fontFilename && '/' !in t
    ensures Paths.Basename(FontPath(dest, fontFilename, t)) == fontFilename + "." + t
  {
    Paths.BasenameOfJoin(dest, fontFilename + "." + t);
  }

  /** Only `eot` has a slot-0 (legacy) descriptor. */
  lemma {:induction false} LegacySlotOnlyEot(t: string)
    ensures (FontsSrcs(t).Some? && FontsSrcs(t).value.legacy.Some?) <==> t == "eot"
  {
  }

  /** Slot 1 is embeddable exactly for woff, woff2 and ttf; it is present
      and carries a format for every known type. */
  lemma {:induction false} PrimarySlotTable(t: string)
    ensures FontsSrcs(t).Some? <==> Known(t)
    ensures Known(t) ==> FontsSrcs(t).value.primary.Some?
    ensures Known(t) ==> FontsSrcs(t).value.primary.value.format.Some?
    ensures Known(t) ==> (IsEmbeddable(FontsSrcs(t).value.primary.value) <==> (t == "woff" || t == "woff2" || t == "ttf"))
  {
  }

  /** The svg descriptor names the font inside the file through a
      `{fontBaseName}` placeholder, and the eot legacy entry has no format. */
  lemma {:induction false} DescriptorDetails()
    ensures Contains(FontsSrcs("svg").value.primary.value.ext, "{fontBaseName}")
    ensures FontsSrcs("eot").value.legacy.value.format.None?
    ensures FontsSrcs("eot").value.primary.value.ext == ".eot?#iefix"
  {
    assert FontsSrcs("svg").value.primary.value.ext == ".svg#" + "{fontBaseName}";
    ContainsSuffix(".svg#", "{fontBaseName}");
  }

  /** The default order string lists the five formats in this order. */
  lemma {:induction false} DefaultOrder()
    ensures Split(FontFormats, ',') == ["eot", "woff2", "woff", "ttf", "svg"]
  {
    var xs := ["eot", "woff2", "woff", "ttf", "svg"];
    assert Join(xs, ",") == FontFormats;
    SplitJoin(xs, ',');
  }
}

=== FILE: util_src.dfy ===
/** The same tables and path rules in `src/tasks/util/util.js`: `embeddable`
    is left out (absent) where the other copy says `false`, the prefix and
    separator maps carry fewer keys, and the glob mask always uses braces. */
module UtilSrc {
  import opened Wrappers
  import opened Strings
  import Paths
  import Util

  const UnicodePuaStart: int := 0xF101

  const FontFormats: string := "eot,woff2,woff,ttf,svg"

  function FontsSrcs(t: string): Option<Util.SrcPair> {
    if t == "eot" then
      Some(Util.SrcPair(Some(Util.Descriptor(".eot", None, None)),
                        Some(Util.Descriptor(".eot?#iefix", Some("embedded-opentype"), None))))
    else if t == "woff" then Some(Util.SrcPair(None, Some(Util.Descriptor(".woff", Some("woff"), Some(true)))))
    else if t == "woff2" then Some(Util.SrcPair(None, Some(Util.Descriptor(".woff2", Some("woff2"), Some(true)))))
    else if t == "ttf" then Some(Util.SrcPair(None, Some(Util.Descriptor(".ttf", Some("truetype"), Some(true)))))
    else if t == "svg" then Some(Util.SrcPair(None, Some(Util.Descriptor(".svg#{fontBaseName}", Some("svg"), None))))
    else None
  }

  const CssFilePrefixes: map<string, string> := map["_default" := "", "sass" := "_", "scss" := "_"]

  const FontSrcSeparators: map<string, string> := map["_default" := ",\n\t\t", "styl" := ", "]

  /** The mask of this copy: always a brace set, even around a single type. */
  function GlobMask(types: seq<string>): string {
    "*.{" + Join(types, ",") + "}"
  }

  function GeneratedFontFilesPattern(dest: string, fontFilename: string, types: seq<string>): string {
    Paths.Join(dest, fontFilename + GlobMask(types))
  }

  /** Two slots read the same through JavaScript truthiness: both `false`,
      or both present with the same extension, format and embeddability. */
  predicate SameSlot(a: Util.Slot, b: Util.Slot) {
    (a.None? && b.None?)
    || (a.Some? && b.Some? && a.value.ext == b.value.ext && a.value.format == b.value.format
        && (Util.IsEmbeddable(a.value) <==> Util.IsEmbeddable(b.value)))
  }

  /** The two copies of the descriptor table agree once `embeddable: false`
      and an absent `embeddable` are both read as falsy, though the stored
      values differ for eot and svg. */
  lemma {:induction false} TablesAgree(t: string)
    ensures FontsSrcs(t).Some? <==> Util.FontsSrcs(t).Some?
    ensures FontsSrcs(t).Some? ==>
      SameSlot(FontsSrcs(t).value.legacy, Util.FontsSrcs(t).value.legacy)
      && SameSlot(FontsSrcs(t).value.primary, Util.FontsSrcs(t).value.primary)
    ensures FontsSrcs("svg") != Util.FontsSrcs("svg")
    ensures UnicodePuaStart == Util.UnicodePuaStart && FontFormats == Util.FontFormats
  {
  }

  /** For several types both copies build the same mask. */
  lemma {:induction false} MasksAgreeOnSeveral(types: seq<string>)
    requires |types| > 1
    ensures GlobMask(types) == Util.GlobMask(types)
  {
  }

  /** For a single type the braces hold no comma, so brace expansion keeps
      them and the mask stands for the literal extension `{t}`, not `t`. */
  lemma {:induction false} SingleTypeMaskIsLiteral(t: string)
    requires ',' !in t
    ensures StartsWith(GlobMask([t]), "*.")
    ensures Util.MaskExtensions(GlobMask([t])) == ["{" + t + "}"]
    ensures Util.MaskExtensions(GlobMask([t])) != [t]
  {
    var m := GlobMask([t]);
    assert m[2..] == "{" + t + "}";
    assert m[2..][1..|m[2..]| - 1] == t;
    assert ("{" + t + "}")[0] == '{';
    assert |"{" + t + "}"| != |t|;
  }

  /** Concretely: `types: ['woff']` gives the mask `*.{woff}`, which matches no `.woff` file. */
  lemma {:induction false} SingleWoffMask()
    ensures GlobMask(["woff"]) == "*.{woff}"
    ensures Util.MaskExtensions(GlobMask(["woff"])) == ["{woff}"]
  {
    SingleTypeMaskIsLiteral("woff");
  }
}

=== FILE: wrappers.dfy ===
/** Failure-carrying datatypes shared by the whole model. */
module Wrappers {

  /** A value that may be missing: JavaScript's `undefined`/`null` versus a present value. */
  datatype Option<+T> = None | Some(value: T) {
    function GetOr(default: T): T {
      match this
      case Some(v) => v
      case None => default
    }
  }

  /** A computation that either succeeds or fails with an error value. */
  datatype Result<+R, +E> = Success(value: R) | Failure(error: E)
}
